=== FILE: README.md ===
# datastructures — a Dafny model of its sorting, searching and tree core

This project models the algorithmic core of the Java library
`datastructures`:

- the Hoare `partition`, `median_of_three` and quickselect `nth_element` of `algorithms.Partition`;
- the `swap` helper of `util.Functions`;
- the array-backed `util.BinaryHeap`;
- the sorts of `algorithms.Sorting`: insertion, selection, bubble, merge, heap, quick and intro sort;
- the points of `datastructures.KDData` and the k-nearest-neighbour `datastructures.KDTree`;
- the Knuth-Morris-Pratt search of `algorithms.StringSearch`;
- the unbalanced `datastructures.BinarySearchTree`;
- the `datastructures.AVLTree`.

## How the Java is represented

Arrays are immutable sequences. An in-place operation takes the array and
returns it as the Java code leaves it.

`Comparator<T>` is an integer ranking `key: T -> int` (module `Order`). Every
comparator the core uses has that shape:

- the natural order of integers and its reversal;
- `DimensionComparator`, which ranks by one coordinate;
- `HeapStorage.distcmp`, which ranks by negated distance.

A thrown exception or a `null` dereference is an `Err` of the `Results`
module. A `null` return is `None`.

`KDTree` uses a class `BinaryHeap` of its own package, `datastructures`,
whose source is not part of this model. The model stands in
`util.BinaryHeap` for it: a store of 16 slots, `peek` returning `data[0]`,
and `null` from an empty heap.

A Java `String` is read through `charAt` and `length()`, which count UTF-16
code units. The string search is therefore generic in its character type:
`bv16` code units give the Java indices, and `char` gives the same indices
for text whose characters are single code units, as in the test drivers.

The code is modelled as written. Where its documentation promises more than
it does, the model has a concrete counterexample lemma, plus the stronger
property proved under the extra hypothesis it needs:

- `partition` returns a Hoare split index, not a pinned pivot.
- `nth_element`, `do_quick_sort` and `do_introsort` therefore need not sort.
- `bubbleSort` stops after its first round when that round swaps nothing. Its swap flag is never cleared, so no later round can end the loop early, and `[1,3,2]` comes back unsorted.
- The KD search visits a left-only child twice.

One module per Java class:

| file | module | Java |
|---|---|---|
| `results.dfy` | `Results` | exceptions and `null` |
| `int32.dfy` | `Int32` | Java `int` wrap-around |
| `order.dfy` | `Order` | `Comparator` as a ranking |
| `functions.dfy` | `Functions` | `util.Functions` |
| `partition.dfy` | `Partition` | `algorithms.Partition` |
| `binary_heap.dfy` | `BinaryHeap` | `util.BinaryHeap` |
| `sorting.dfy` | `Sorting` | `algorithms.Sorting` |
| `kd_data.dfy` | `KDData` | `datastructures.KDData` |
| `kd_tree.dfy` | `KDTree` | `datastructures.KDTree` |
| `kd_scenarios.dfy` | `KDScenarios` | concrete KD-tree runs |
| `string_search.dfy`, `string_search_cases.dfy` | `StringSearch`, `StringSearchCases` | `algorithms.StringSearch` |
| `bst.dfy` | `BinarySearchTree` | `datastructures.BinarySearchTree` |
| `avl.dfy` | `AVLTree` | `datastructures.AVLTree` |

## Model

| member | source | states |
|---|---|---|
| Order.Compare | src/datastructures/KDData.java:31-33 | the comparator result is -1, 0 or +1, the sign of the rank difference, so it is negative, zero or positive exactly when the first ranks below, equal to or above the second |
| Functions.Swap | src/util/Functions.java:13-17 | the two indices exchange their values, every other index keeps its value, the multiset of elements is kept, and swapping an index with itself changes nothing |
| Functions.SwapTwice | src/util/Functions.java:13-17 | swapping the same pair twice restores the array |
| Functions.SwapPermutes | src/util/Functions.java:13-17 | a swap inside `[lo, hi]` only permutes that slice and leaves everything outside it unchanged |
| Partition.ScanUp | src/algorithms/Partition.java:79-83 | the i-scan stops within `(i, e]`, every value it passes ranks below the pivot, and it stops at `e` or on a value not below the pivot, so it never reads past `e` |
| Partition.ScanDown | src/algorithms/Partition.java:84-88 | the j-scan stops within `[s, j)`, every value it passes ranks above the pivot, and it stops at `s` or on a value not above the pivot, so it never reads before `s` |
| Partition.HoareLoop | src/algorithms/Partition.java:76-92 | from any loop state whose prefix is at most and whose suffix is at least the pivot, the loop returns `j` in `[s, e]` having only permuted `values[s..e]`, with `[s, j)` at most and `(j, e]` at least the pivot |
| Partition.Partition | src/algorithms/Partition.java:72-93 | returns `j` with `s <= j <= e`, permutes only `values[s..e]`, leaves `[s, j)` at most and `(j, e]` at least the pivot, and when some value of the slice is at most the pivot then so is `values[j]` |
| Partition.PartitionAll | src/algorithms/Partition.java:53-55 | the whole-array overload fails out of bounds exactly on an empty array; otherwise it returns an index of the array and splits the whole array around the pivot, as a permutation of it |
| Partition.PartitionDoesNotPinPivot | src/algorithms/Partition.java:57-64 | against the documentation, `[3,1,2]` with pivot 2 ends as `[2,1,3]` with index 1, which does not hold the pivot |
| Partition.MedianOfThree | src/algorithms/Partition.java:186-193 | returns one of its three arguments, with one of the other two at most and the other at least it; ties prefer `v1`, then `v2` |
| Partition.NthLoop | src/algorithms/Partition.java:153-163 | from any window `s <= min <= n <= max <= e` the quickselect loop terminates, because the window strictly shrinks, and only permutes `values[s..e]`; on a slice already sorted by rank it only exchanges equal-ranking values |
| Partition.NthElement | src/algorithms/Partition.java:148-164 | `nth_element(values, s, e, n)` only permutes `values[s..e]` |
| Partition.NthElementAll | src/algorithms/Partition.java:119-121 | the whole-array overload fails out of bounds on an empty array, succeeds for every `n` inside the array, and whenever it succeeds returns a permutation of the array; the only failure is out of bounds |
| Partition.NthOverrun | src/algorithms/Partition.java:153-163 | with `n` outside the array, the loop ends normally, with a permutation of the slice, when `min` and `max` meet, and fails out of bounds when they cross |
| Partition.NthElementBeyondEnd | src/algorithms/Partition.java:148-164 | `nth_element([1,2,3], 5)` returns normally and leaves the array unchanged |
| Partition.NthElementBeforeStart | src/algorithms/Partition.java:148-164 | `nth_element([1,2], -1)` fails out of bounds |
| Partition.NthElementNotInPlace | src/algorithms/Partition.java:138-162 | against the documentation, `nth_element([3,1,2], 1)` gives `[2,1,3]`, so index 1 does not hold the value that belongs there in sorted order |
| Partition.HoareLoopKeepsSortedKeys | src/algorithms/Partition.java:76-92 | on a slice already sorted by rank, the partition loop only exchanges equal-ranking values |
| Partition.NthRound | src/algorithms/Partition.java:154-156 | one round returns an index inside `[lo, hi]`, only permutes that window, and leaves the values before the index at most and those after it at least the median-of-three pivot |
| Partition.NthRoundKeepsSortedKeys | src/algorithms/Partition.java:154-156 | on a slice already sorted by rank, one round only exchanges equal-ranking values and leaves the slice sorted |
| Partition.NthElementOnSortedSlice | src/algorithms/Partition.java:148-164 | on an already sorted slice, `nth_element` keeps it sorted, so the stronger documented promise holds under that hypothesis |
| BinaryHeap.RootIsMinimal | src/util/BinaryHeap.java:116-131 | in heap order, the first slot ranks no higher than any live slot |
| BinaryHeap.SiftUp | src/util/BinaryHeap.java:122-130 | the sift-up loop permutes the array and leaves every slot after the starting one unchanged |
| BinaryHeap.SiftUpOrders | src/util/BinaryHeap.java:122-130 | if heap order holds except between the moving element and its ancestors, the sift-up restores full heap order |
| BinaryHeap.SiftDown | src/util/BinaryHeap.java:156-169 | the sift-down loop permutes the array |
| BinaryHeap.SmallerChild | src/util/BinaryHeap.java:157-162 | the child chosen is a child of `r` in bounds (the left one when the right is past the end) and ranks no higher than any child of `r` |
| BinaryHeap.SiftDownOrders | src/util/BinaryHeap.java:156-169 | if heap order holds except below the moving element, the sift-down restores full heap order |
| BinaryHeap.New | src/util/BinaryHeap.java:36-40 | a new heap is empty, in heap order, over a backing array of 16 slots |
| BinaryHeap.HeapifyFrom | src/util/BinaryHeap.java:78-92 | the outer heapify loop permutes the array, and from any prefix already in heap order it yields a whole array in heap order |
| BinaryHeap.Heapify | src/util/BinaryHeap.java:70-94 | `heapify` takes over the caller's whole array (`count = data.length`) and returns a heap in heap order holding exactly its elements |
| BinaryHeap.IsEmpty | src/util/BinaryHeap.java:100-102 | `isEmpty` holds exactly when `size() == 0`, that is when the heap holds no element |
| BinaryHeap.Size | src/util/BinaryHeap.java:173-175 | `size` is the number of stored elements |
| BinaryHeap.Peek | src/util/BinaryHeap.java:108-110 | `peek` reads `data[0]`: out of bounds for a zero-length store, `null` for an empty heap, else an element that ranks no higher than every stored one |
| BinaryHeap.RootMinimal | src/util/BinaryHeap.java:108-110 | in a non-empty heap the top ranks no higher than any stored element |
| BinaryHeap.EnsureEnoughSpace | src/util/BinaryHeap.java:134-141 | a full store doubles up to 1024 slots and grows by 1024 beyond that; a store with room is untouched; the stored elements are kept |
| BinaryHeap.Push | src/util/BinaryHeap.java:116-131 | `push` adds exactly the element to the stored multiset, grows `size` by one and keeps heap order; a zero-length store (after heapifying an empty array) fails out of bounds |
| BinaryHeap.Pop | src/util/BinaryHeap.java:147-171 | `pop` on an empty heap returns `null` and changes nothing; otherwise it returns an element ranking no higher than every stored one, removes exactly that occurrence and keeps heap order |
| BinaryHeap.MoveLastToTop | src/util/BinaryHeap.java:151-155 | moving the last element to the top removes exactly the old top and leaves heap order broken only at the top |
| BinaryHeap.PushAll | src/util/BinaryHeap.java:116-131 | pushing a sequence adds exactly its elements and keeps heap order |
| BinaryHeap.PopAll | src/util/BinaryHeap.java:147-171 | popping until empty yields exactly the stored elements, ordered by rank |
| BinaryHeap.SortedUnique | src/util/BinaryHeap.java:147-171 | under an injective ranking, two rank-sorted sequences with the same elements are equal, so the popped order is determined |
| BinaryHeap.PushThenPopAll | src/test/TestHeap.java:25-31 | pushing a sequence into a new heap and popping everything yields its elements sorted by rank |
| BinaryHeap.HeapOrdersAll | src/test/TestHeap.java:25-31 | under an injective ranking, push-then-pop gives the unique rank-sorted arrangement of the input |
| BinaryHeap.MaxHeapScenario | src/test/TestHeap.java:18-31 | with the reversed comparator `o2 - o1`, pushing `0..n-1` and popping yields `n-1` down to `0` |
| Sorting.InsertionSort | src/algorithms/Sorting.java:36-50 | the result is a permutation of the input, nondecreasing by rank, which is what the test's `validateArray` checks |
| Sorting.MinIndexFrom | src/algorithms/Sorting.java:76-83 | the inner loop finds the first index of a lowest-ranking value of `array[i..]`, after exactly `n - i - 1` comparisons |
| Sorting.SelectionSort | src/algorithms/Sorting.java:69-87 | the result is a sorted permutation; the operation count, kept in an `int`, is `n(n+1)/2 - 1` for `n >= 1` and `0` for the empty array, reduced to 32-bit two's complement, and so exact below 65536 elements |
| Sorting.CountRound | src/algorithms/Sorting.java:76-83 | adding a round's `n - i - 1` comparisons and one swap to the wrapped count gives the wrapped count of one more round |
| Sorting.CountAllRounds | src/algorithms/Sorting.java:73-86 | after the last round the `int` count is the wrapped `n(n+1)/2 - 1`, which is that number itself when `n <= 65535` |
| Sorting.SelectionOpsWraps | src/algorithms/Sorting.java:72-86 | for 65536 elements the count `2147516415` exceeds `Integer.MAX_VALUE`, and the returned count is `-2147450881` |
| Int32.Wrap | src/algorithms/Sorting.java:72 | Java `int` arithmetic: the result lies in `[-2^31, 2^31)`, is congruent to the exact value modulo `2^32`, and equals it when it is in range |
| Int32.WrapAdd | src/algorithms/Sorting.java:77-83 | wrapping after each increment, as `ops++` does, is wrapping the exact total once |
| Sorting.BubbleSort | src/algorithms/Sorting.java:106-123 | always a permutation; the swap flag is never cleared, so an array whose first element already ranks lowest comes back unchanged, and every other array comes back sorted |
| Sorting.BubbleSortStopsEarly | src/algorithms/Sorting.java:110-120 | `[1,3,2]` comes back unchanged and unsorted |
| Sorting.Merge | src/algorithms/Sorting.java:225-234 | one merge step keeps both runs' elements, and two sorted runs merge into one sorted run |
| Sorting.MergePass | src/algorithms/Sorting.java:220-237 | one pass of width `sz` permutes the array and turns sorted blocks of `sz` into sorted blocks of `2 sz` |
| Sorting.MergeSort | src/algorithms/Sorting.java:212-240 | the result is a sorted permutation of the input |
| Sorting.HeapSortLoop | src/algorithms/Sorting.java:187-190 | popping the reversed-order heap into the slot `size()-1`, which Java evaluates before `pop()`, builds a sorted suffix holding exactly the heap's and the suffix's elements |
| Sorting.HeapSort | src/algorithms/Sorting.java:182-192 | the result is a sorted permutation of the input |
| Sorting.DoQuickSort | src/algorithms/Sorting.java:148-161 | `do_quick_sort(s, e)` only permutes `array[s..e]`, and on a slice already sorted it only exchanges values of equal rank |
| Sorting.KeysThrough | src/algorithms/Sorting.java:156-159 | a recursive call on a part of a sorted slice, which keeps the ranks of that part in place, keeps the ranks of the whole slice in place and the slice sorted |
| Sorting.DoQuickSortOnSortedSlice | src/algorithms/Sorting.java:148-161 | on an already sorted slice, `do_quick_sort` returns it sorted, with every position holding a value of the rank it held before |
| Sorting.QuickSortOnSorted | src/algorithms/Sorting.java:142-146 | `quickSort` returns an already sorted array sorted, with every position keeping its rank |
| Sorting.QuickSort | src/algorithms/Sorting.java:142-146 | the empty array fails out of bounds (it reads `array[0]`); otherwise the result is a permutation of the input |
| Sorting.QuickSortDoesNotSort | src/algorithms/Sorting.java:148-161 | because the partition index is skipped, `[3,1,2]` comes back as `[2,1,3]`, which is not sorted |
| Sorting.DoIntroSort | src/algorithms/Sorting.java:266-288 | `do_introsort(s, e, depth)` only permutes `array[s..e]`, and with depth 0 it heap-sorts that slice |
| Sorting.HeapSortSlice | src/algorithms/Sorting.java:272-278 | heap-sorting a copy of the slice and copying it back sorts `array[s..e]` and leaves the rest untouched |
| Sorting.IntroSort | src/algorithms/Sorting.java:259-264 | the result is a permutation of the input, and is sorted when the depth budget is 0 |
| Sorting.IntroSortDoesNotSort | src/algorithms/Sorting.java:280-286 | for any positive depth, `[3,1,2]` comes back as `[2,1,3]`, which is not sorted |
| KDData.Get | src/datastructures/KDData.java:43-45 | `get(d)` is coordinate `d`, and is out of bounds exactly when `d` is outside the point |
| KDData.Length | src/datastructures/KDData.java:47-49 | `length()` is the number of coordinates, that is the number of dimensions `get` accepts |
| KDData.DimensionCompare | src/datastructures/KDData.java:31-33 | the comparison is -1, 0 or +1 as coordinate `d` of `o1` is below, equal to or above that of `o2` |
| KDData.DimensionCompareIsPreorder | src/datastructures/KDData.java:31-33 | that comparator is zero on equal points, antisymmetric and transitive, the total preorder `Partition` relies on |
| KDData.Distance | src/datastructures/KDData.java:51-58 | the (squared) distance reads `point` only up to this point's length, failing out of bounds when the other is shorter, and is zero exactly when the two agree on those coordinates |
| KDData.DistanceIsSymmetric | src/datastructures/KDData.java:51-58 | between points of equal length, distance is symmetric and a point is at distance 0 from itself |
| KDTree.CountIsPoints | src/datastructures/KDTree.java:74-76 | the number of nodes is the number of points held |
| KDTree.TiePass | src/datastructures/KDTree.java:68-73 | the post-pass gathers every value tying `points[m]` on the axis into `[m, m']`, leaves none in `(m', e]`, keeps `m'` in `[m, e]`, and only permutes `(m, e]` |
| KDTree.Split | src/datastructures/KDTree.java:65-73 | `nth_element` plus the post-pass permute only `[s, e]`, give a node index between the median `(s+e)/2` and `e`, and leave no tie of the node's value after it |
| KDTree.Axis | src/datastructures/KDTree.java:64 | below `k`, `d % k` is `d` itself |
| KDTree.NextAxis | src/datastructures/KDTree.java:75-76 | `(d+1) % k` is the next axis, wrapping to 0 after the last, so every axis stays below `k` |
| KDTree.Build | src/datastructures/KDTree.java:59-78 | `createNode(s, e, d)` is null exactly when `s > e`; otherwise the node holds `points[m]` for the split index `m`, on axis `d`, its subtrees hold the points before and after `m`, the subtree holds exactly the multiset `points[s..e]`, every axis is below `k`, and only that slice is permuted |
| KDTree.BuildAt | src/datastructures/KDTree.java:74-77 | the node at the split index holds that point, with the left subtree built from `[s, m)` and the right from `(m, e]` |
| KDTree.NewTree | src/datastructures/KDTree.java:194-196 | an empty array gives an empty tree; a point with no coordinates makes `d % k` divide by zero; otherwise the root has axis 0 and the tree holds exactly the points |
| KDTree.SplitSeparates | src/datastructures/KDTree.java:65-73 | if `nth_element` did put the median in place, every point before the node's index is at most its coordinate and every point after is strictly above |
| KDTree.BuildRootSeparates | src/datastructures/KDTree.java:59-78 | under the same hypothesis, every point of the left subtree is at most the node's coordinate on its axis and every point of the right subtree strictly above |
| KDTree.AddToHeap | src/datastructures/KDTree.java:129-141 | below `k` entries the candidate is pushed; at `k` it replaces the farthest entry only when strictly closer, else nothing changes; the size never passes `k`; `peek` on an empty heap with `k = 0` is a null dereference |
| KDTree.AddToHeapKeepsNearest | src/datastructures/KDTree.java:129-141 | if the heap held the `k` nearest of all offers, it still does after one more offer |
| KDTree.OfferAllKeepsNearest | src/datastructures/KDTree.java:129-141 | after any run of offers, the heap holds the `k` nearest of everything offered: a sub-multiset of the right size, with no dropped offer closer than a kept one |
| KDTree.CandidateOf | src/datastructures/KDTree.java:26-31 | the heap entry records the node's point and its distance to the query |
| KDTree.Near | src/datastructures/KDTree.java:160-167 | the first child searched is one of the node's children: the left when the query lies left and it exists, else the right |
| KDTree.Far | src/datastructures/KDTree.java:173-180 | the second child searched is one of the node's children: the right unless the search already went right, else the left, which is the left a second time when there is no right child |
| KDTree.NeighborSearch | src/datastructures/KDTree.java:150-183 | a successful search keeps the heap valid and never shrinks it, leaves it non-empty after a node, and keeps it at most `k` |
| KDTree.FarSearch | src/datastructures/KDTree.java:173-182 | the pruning test peeks the heap, and since the pruning distance is always 0 the far child is always searched before the node offers itself |
| KDTree.NeighborSearchFails | src/datastructures/KDTree.java:150-183 | the search fails out of bounds exactly on a query with too few coordinates, and otherwise on a null exactly when the heap starts empty and either `k = 0` or the first descent reaches an inner node with nothing on its near side |
| KDTree.NeighborSearchOffers | src/datastructures/KDTree.java:150-183 | a successful search offers exactly the tree's candidates in search order (near side, far side, node) to `addToHeap` |
| KDTree.OffersCoverTree | src/datastructures/KDTree.java:150-183 | every point of the tree is offered and only points of the tree are |
| KDTree.OffersExactlyTree | src/datastructures/KDTree.java:150-183 | unless some left-only node is searched twice, each point is offered exactly once |
| KDTree.WriteBack | src/datastructures/KDTree.java:116-119 | the write-back loop puts the popped entries, farthest first, into `result[last]`, `result[last-1]`, and so on |
| KDTree.Fill | src/datastructures/KDTree.java:116-119 | writing backwards from `last` puts the `i`-th item in slot `last - i` and leaves every other slot untouched |
| KDTree.FindKNearest | src/datastructures/KDTree.java:204-209 | an empty tree leaves `result` as it is, and a successful search returns an array of the same length |
| KDTree.FindKNearestFails | src/datastructures/KDTree.java:112-120 | the search fails out of bounds on a query with too few coordinates, and otherwise on a null exactly when `result` has no slot or the first descent gets stuck |
| KDTree.FindKNearestFinds | src/datastructures/KDTree.java:112-120 | a successful search writes the `min(k, offers)` nearest candidates into the last slots, closest first, and leaves the leading slots untouched |
| KDTree.FindKNearestOfTree | src/datastructures/KDTree.java:112-120 | on a well-formed tree where no left-only child is searched twice, a successful search writes `min(k, n)` points of the tree, `n` its size, into the last slots, closest first: they are a sub-multiset of the tree's points and no unwritten point of the tree is strictly closer |
| KDTree.OffersAreCandidates | src/datastructures/KDTree.java:150-183 | every offer the search makes is the candidate of its point for the query |
| KDTree.SearchKeepsNearest | src/datastructures/KDTree.java:114-115 | the heap returned by the search holds the `k` nearest of the tree's offers |
| KDScenarios.BuildNotSeparated | src/datastructures/KDTree.java:65-76 | for the points `3, 1, 2` the root holds `1` with `2` in its left subtree, so the documented median split does not hold |
| KDScenarios.SearchRevisitsLeftChild | src/datastructures/KDTree.java:160-180 | for the points `(5,1), (5,2)` and the query `(5,3)` with two slots, the left-only root's child is searched twice and the result is `(5,2), (5,2)`, missing `(5,1)` |
| KDScenarios.LeafOf | src/datastructures/KDTree.java:59-78 | a one-point slice becomes a leaf holding that point |
| StringSearch.MatchFromMeans | src/algorithms/StringSearch.java:31-35 | the recursive match test means that the needle agrees with the text from its `j`-th character on |
| StringSearch.FindFrom | src/algorithms/StringSearch.java:13-45 | the reference search returns -1 or an index at or after `from` where the needle still fits |
| StringSearch.FindFromFinds | src/algorithms/StringSearch.java:13-45 | the reference search returns the least occurrence at or after `from`, or -1 when there is none |
| StringSearch.FirstIndex | src/algorithms/StringSearch.java:5-12 | the documented answer: the least index where the needle occurs, or -1 when it occurs nowhere |
| StringSearch.FirstIsUnique | src/algorithms/StringSearch.java:5-12 | that answer is unique |
| StringSearch.BorderExtends | src/algorithms/StringSearch.java:59-62 | a border followed by a matching character extends by one |
| StringSearch.FallBack | src/algorithms/StringSearch.java:63-64 | falling back to `table[candidate]` after a mismatch loses no longer border |
| StringSearch.EmptyBorder | src/algorithms/StringSearch.java:65-67 | with no candidate left and a mismatch, the longest border is empty |
| StringSearch.KmpTable | src/algorithms/StringSearch.java:50-72 | `kmp_table` fails out of bounds for needles shorter than 2; otherwise `t[0] = -1` and each `t[pos]`, `pos >= 1`, is the length of the longest proper border of `needle[0..pos)` |
| StringSearch.FailTableBounds | src/algorithms/StringSearch.java:50-72 | every table entry `t[pos]`, `pos >= 1`, lies in `[0, pos)`, and `t[1] = 0` |
| StringSearch.SkipIsSafe | src/algorithms/StringSearch.java:36-38 | after a mismatch at `i`, shifting by `i - t[i]` skips no occurrence and keeps the first `t[i]` characters matched |
| StringSearch.Kmp | src/algorithms/StringSearch.java:13-45 | an empty needle gives -1; otherwise `kmp` returns exactly the least occurrence index, or -1 when there is none, both on the one-character path and on the table-driven one |
| StringSearchCases.FindsExample | src/test/TestStringSearch.java:22-36 | "example" occurs first at 17 in "here is a simple example" |
| StringSearchCases.FindsTcta | src/test/TestStringSearch.java:23-37 | "tcta" occurs first at 18 in "accgtcacttgaaccggttctag" |
| StringSearchCases.MissesZzz | src/test/TestStringSearch.java:24-38 | "zzz" does not occur in "accgtcacttgaaccggttctag" |
| StringSearchCases.CountsCodeUnits | src/algorithms/StringSearch.java:13-45 | indices count UTF-16 code units: in the units of a surrogate pair followed by `a`, the needle `a` is found at index 2 |
| StringSearchCases.MissesZ | src/test/TestStringSearch.java:25-39 | "z" does not occur in "accgtcacttgaaccggttctag" |
| BinarySearchTree.InsertNode | src/datastructures/BinarySearchTree.java:22-30 | a value equal to one on the path throws `DuplicateKeyException`; otherwise the keys grow by exactly the value, the size by one, and search-tree order is kept; on an ordered tree it fails exactly when the value is present |
| BinarySearchTree.InsertLeft | src/datastructures/BinarySearchTree.java:33-38 | the value goes into the left subtree only, with the node and its right subtree unchanged |
| BinarySearchTree.InsertRight | src/datastructures/BinarySearchTree.java:40-45 | the value goes into the right subtree only, with the node and its left subtree unchanged |
| BinarySearchTree.Insert | src/datastructures/BinarySearchTree.java:65-70 | an empty tree gets a single-node root; otherwise insertion keeps order, adds exactly the value and grows the size by one, and fails exactly on a duplicate |
| BinarySearchTree.InsertKeepsNodes | src/datastructures/BinarySearchTree.java:33-45 | every existing node keeps its position and value |
| BinarySearchTree.InsertAddsLeaf | src/datastructures/BinarySearchTree.java:33-45 | the new value becomes a leaf, hung where the old tree had no node |
| BinarySearchTree.TestDriverTree | src/test/TestBinaryTree.java:18-24 | inserting `2, 4, 3, 1, 5` gives root 2 with `1` on the left and `4` (children `3`, `5`) on the right |
| AVLTree.StoredIsHeight | src/datastructures/AVLTree.java:75-95 | when every stored height is `1 + max` of the children's, with `null` as 0, the stored height is the real height and is positive |
| AVLTree.Balance | src/datastructures/AVLTree.java:65-69 | `getBalance` is the height of the left subtree minus that of the right one, when the children's stored heights are correct |
| AVLTree.SetHeight | src/datastructures/AVLTree.java:75-95 | `setHeight` changes only the height field, reports whether it changed, and makes it `1 + max` of the children's heights |
| AVLTree.UpdateHeight | src/datastructures/AVLTree.java:82-88 | `updateHeight` corrects every stored height in the subtree and changes nothing else: contents, order, balance and real height are kept, and a correct subtree is left as it is |
| AVLTree.RotateLeft | src/datastructures/AVLTree.java:105-122 | the rotation returns `this` unchanged when the right child is `null`, and otherwise keeps the in-order sequence, the keys and search-tree order |
| AVLTree.RotateRight | src/datastructures/AVLTree.java:124-141 | the rotation returns `this` unchanged when the left child is `null`, and otherwise keeps the in-order sequence, the keys and search-tree order |
| AVLTree.Set | src/datastructures/AVLTree.java:147-155 | `set` hangs a subtree with smaller keys on the left, one with larger keys on the right, and changes nothing when the keys are equal |
| AVLTree.FindInOrder | src/datastructures/AVLTree.java:157-171 | the reference lookup over the in-order sequence finds a key exactly when the tree holds it |
| AVLTree.SearchNode | src/datastructures/AVLTree.java:157-171 | on an ordered tree, the node's `search` returns the value stored with the key, or `null` when it is absent |
| AVLTree.Search | src/datastructures/AVLTree.java:228-232 | an empty tree gives `null`; on an ordered tree `search` returns the value stored with the key, and a value exactly when the key is present |
| AVLTree.InsertNode | src/datastructures/AVLTree.java:31-41 | a key already on the path throws `DuplicateKeyException`; otherwise the keys grow by exactly the key and search-tree order is kept; on an ordered tree it fails exactly when the key is present |
| AVLTree.InsertLeft | src/datastructures/AVLTree.java:54-63 | the new node goes into the left subtree only |
| AVLTree.InsertRight | src/datastructures/AVLTree.java:43-52 | the new node goes into the right subtree only |
| AVLTree.Check | src/datastructures/AVLTree.java:199-219 | one `avlCheck` step (rotations at balance ±2, then the height update) keeps the in-order sequence, the keys and search-tree order |
| AVLTree.CheckPath | src/datastructures/AVLTree.java:196-226 | the walk from the new node's parent to the root keeps the in-order sequence, the keys and search-tree order |
| AVLTree.Insert | src/datastructures/AVLTree.java:187-194 | an empty tree gets a single-node root; a duplicate throws; on an ordered tree insertion succeeds exactly for a new key, adds exactly that key and keeps order |
| AVLTree.CheckRebalances | src/datastructures/AVLTree.java:199-219 | a node at balance ±2 over AVL children, with the heavy child leaning, is restored to an AVL tree by the single or double rotation, one level lower; a node at balance -1..1 only gets its height set |
| AVLTree.LeftSingle | src/datastructures/AVLTree.java:209-215 | at balance +2 with a left-leaning left child, the single right rotation gives an ordered, balanced tree one level lower |
| AVLTree.LeftDouble | src/datastructures/AVLTree.java:209-215 | at balance +2 with a right-leaning left child, the left-right double rotation gives an ordered, balanced tree one level lower |
| AVLTree.RightSingle | src/datastructures/AVLTree.java:202-208 | at balance -2 with a right-leaning right child, the single left rotation gives an ordered, balanced tree one level lower |
| AVLTree.RightDouble | src/datastructures/AVLTree.java:202-208 | at balance -2 with a left-leaning right child, the right-left double rotation gives an ordered, balanced tree one level lower |
| AVLTree.InsertKeepsAvl | src/datastructures/AVLTree.java:187-226 | inserting a new key into an AVL tree succeeds and gives an AVL tree (ordered, correct heights, every balance in -1..1) holding the old keys plus the new one, at most one level taller |
| AVLTree.InsertThenSearch | src/datastructures/AVLTree.java:157-194 | after inserting `k` with `v`, searching `k` gives `v` and every other key gives what it gave before |
| AVLTree.InsertAll | src/test/TestAVLTree.java:22-23 | inserting pairs one by one, as the test's loop does, can fail only with `DuplicateKeyException`, and every stored height stays positive |
| AVLTree.InsertAllKeepsAvl | src/test/TestAVLTree.java:22-23 | inserting pairs with distinct new keys into an AVL tree gives an AVL tree holding the old and new keys, where each new key finds its own value and every other key what it found before |
| AVLTree.TestDriverTree | src/test/TestAVLTree.java:18-23 | inserting keys `0..n-1` in increasing order, each with its index as value (the test's sorted names with their positions), gives an AVL tree where key `j` finds `j` for `0 <= j < n` and nothing otherwise |

## Left out

- The operation counters (`ops`, `partitionOperations`, `pushOperations`, `popOperations`, `heapifyOperations`, `nodesEvaluated`) are instrumentation and are not modelled. The exception is the count `selectionSort` returns, which is modelled with its 32-bit wrap-around. The test also reads a `StringSearch.ops` counter that the class does not declare.
- Partition.Partition, Partition.NthElement: require the slice to lie inside the array and, for `nth_element`, `s <= n <= e`. With other bounds the Java scans outside the slice. The whole-array overloads are modelled for every input, their out-of-bounds failures included.
- KDTree.AddToHeap, KDTree.NeighborSearchFails, KDTree.FarSearch, KDTree.FindKNearestFails, KDTree.Found: `datastructures.BinaryHeap`, the heap KDTree.java uses, is not part of this model, and `util.BinaryHeap` stands in for it. The null-dereference outcomes of `peek` on an empty heap, and the non-zero capacity `Found` asks for, assume the behaviour of `util.BinaryHeap`.
- Partition.NthRound, Sorting.DoQuickSort, Sorting.DoIntroSort, KDTree.Split, Sorting.MergePass: Java `int` index arithmetic is modelled as unbounded. The midpoints `(min+max)/2` and `(s+e)/2` and the merge widths `2*sz` and `i + 2*sz` would overflow only for arrays longer than 2^30 elements; the model computes them exactly.
- `StringSearch.boyer_moore` is referenced by the string-search test but is not part of this model; the class does not define it.
- The test case "aaaaaaaab" in a 57-character text (expected 48) is not stated as a lemma. `StringSearch.Kmp` is proved equal to the least-occurrence answer for every input, which covers it, but evaluating that answer on so long a literal is beyond the verifier's budget.
- `print` and `toString` of every class, and the console output of the test drivers, are left out. The drivers' data appear only as scenario lemmas.
- AVLTree parent pointers are replaced by recursion along the search path of the inserted key. `avlCheck` walking parents from the new node's parent up to the root is `CheckPath` unwinding that recursion.
- AVLTree.Check: the test `R != node` ("a rotation ran") is modelled by the balance branch taken. In the Java a rotation returns `this` only when the needed child is `null`, which cannot happen at balance ±2.
- AVLTree.Insert: requires every stored height to be at least 1 (`Positive`). Every node the class creates starts at height 1 and is only ever updated to `1 + max(...)`, so this holds of every tree the class can build.
- Keys and values: AVLTree keys and BinarySearchTree values are integers ordered naturally, standing in for `Comparable` types. AVLTree values are generic.
- KDData coordinates are integers, not `double`s. `distance` is the squared Euclidean distance without `Math.sqrt`; it orders points the same way. The `Math.signum` casts in the comparators are the sign function.
- KDTree.NewTree: requires every point to have as many coordinates as the first (`Uniform`), fixing the tree to one dimension, as the class assumes. The Java reads `points[0].length()` for every node: it would index past shorter points, and it would accept longer points, never splitting on their extra coordinates. The model follows neither case.
- Sorting.IntroSort: takes the depth budget as a parameter instead of `(int)(2 * Math.log(n) / Math.log(2))`, which is floating point.
- Sorting.DoQuickSort, Sorting.DoIntroSort, Partition.NthElement: state only that they permute their slice. The sortedness their documentation promises does not hold (see `QuickSortDoesNotSort`, `IntroSortDoesNotSort`, `NthElementNotInPlace`), and is proved only for an already sorted slice (`NthElementOnSortedSlice`, `DoQuickSortOnSortedSlice`, and `IntroSort` at depth 0).
- Sorting.InsertionSort, Sorting.BubbleSort, Sorting.MergeSort: return no operation count.
- KDTree.FindKNearest: the returned count of evaluated nodes is not modelled.
- Array aliasing is not modelled. `heapify` using the caller's array as its store is modelled by the returned heap holding that array's contents.
- The `Comparable` convenience overloads (`selectionSort(array)`, `nth_element(values, n)` and the like) are not modelled separately. Each only supplies the natural order to the overload that is modelled.
- The rest of the repository is outside this model: RedBlackTree (its delete is unfinished), the older `util.KDTree`/`util.KDData`, the hash tables, RadixTree, Queue, LinkedList, ExpressionEvaluator, and the small wrapper and interface types.

=== FILE: avl.dfy ===
/**
 * The AVL tree: `AVLNode` with its plain search-tree insertion, its stored
 * heights, its rotations and `set`, and `AVLTree.insert`, whose `avlCheck`
 * walks from the parent of the new node back to the root, rebalancing every
 * node whose stored heights differ by two. Keys are compared with
 * `compareTo`, modelled here by the order of integers; the parent pointers
 * are replaced by recursion along the search path of the inserted key.
 */
module AVLTree {
  import opened Results

  /** An `AVLNode`: key, value, children (`Nil` for `null`) and the stored `height` field. */
  datatype Tree<V> = Nil | Node(key: int, value: V, left: Tree<V>, right: Tree<V>, height: int)

  function Max(a: int, b: int): int
  {
    if a < b then b else a
  }

  /** The height a node reads for a child: its `height` field, `0` for `null`. */
  function Stored<V>(t: Tree<V>): int
  {
    if t.Nil? then 0 else t.height
  }

  /** The real height of a tree: the number of nodes on its longest branch. */
  function Height<V>(t: Tree<V>): nat
  {
    if t.Nil? then 0 else 1 + Max(Height(t.left), Height(t.right))
  }

  /** The real balance of a node: the height of its left subtree minus that of its right. */
  function Skew<V>(t: Tree<V>): int
    requires t.Node?
  {
    Height(t.left) - Height(t.right)
  }

  /** The keys stored in a tree. */
  function Keys<V>(t: Tree<V>): set<int>
  {
    if t.Nil? then {} else Keys(t.left) + {t.key} + Keys(t.right)
  }

  /** The key/value pairs of a tree, left to right. */
  function InOrder<V>(t: Tree<V>): seq<(int, V)>
  {
    if t.Nil? then [] else InOrder(t.left) + [(t.key, t.value)] + InOrder(t.right)
  }

  /** Search-tree order: smaller keys to the left of every node, larger ones to its right. */
  predicate Ordered<V>(t: Tree<V>)
  {
    t.Nil? ||
    ((forall x :: x in Keys(t.left) ==> x < t.key) &&
     (forall x :: x in Keys(t.right) ==> t.key < x) &&
     Ordered(t.left) && Ordered(t.right))
  }

  /** Every stored height is at least `1`, as every height a node is ever given is. */
  predicate Positive<V>(t: Tree<V>)
  {
    t.Nil? || (t.height >= 1 && Positive(t.left) && Positive(t.right))
  }

  /** Every stored height is one more than the larger stored height of the children. */
  predicate HeightsOk<V>(t: Tree<V>)
  {
    t.Nil? ||
    (t.height == 1 + Max(Stored(t.left), Stored(t.right)) && HeightsOk(t.left) && HeightsOk(t.right))
  }

  /** The AVL condition: at every node the heights of the two subtrees differ by at most one. */
  predicate Balanced<V>(t: Tree<V>)
  {
    t.Nil? || (-1 <= Skew(t) <= 1 && Balanced(t.left) && Balanced(t.right))
  }

  /** What `AVLTree` keeps between calls: order, positive and correct stored heights, and balance. */
  predicate Avl<V>(t: Tree<V>)
  {
    Ordered(t) && Positive(t) && HeightsOk(t) && Balanced(t)
  }

  /** Correct stored heights are the real heights, and are positive. */
  lemma {:induction false} StoredIsHeight<V>(t: Tree<V>)
    ensures HeightsOk(t) ==> Stored(t) == Height(t) && Positive(t)
  {
    if t.Node? {
      StoredIsHeight(t.left);
      StoredIsHeight(t.right);
    }
  }

  /** `getBalance`: the stored height of the left child minus that of the right one. */
  function Balance<V>(n: Tree<V>): (b: int)
    requires n.Node?
    ensures HeightsOk(n.left) && HeightsOk(n.right) ==> b == Skew(n)
  {
    StoredIsHeight(n.left);
    StoredIsHeight(n.right);
    Stored(n.left) - Stored(n.right)
  }

  /**
   * `newHeight` and `setHeight`: the node with its height recomputed from
   * the stored heights of its children, and whether the height changed.
   */
  function SetHeight<V>(n: Tree<V>): (r: (Tree<V>, bool))
    requires n.Node?
    ensures r.0.Node? && r.0 == n.(height := r.0.height)
    ensures r.1 <==> r.0.height != n.height
    ensures HeightsOk(n.left) && HeightsOk(n.right) ==> HeightsOk(r.0) && r.0.height == Height(n)
    ensures Positive(n.left) && Positive(n.right) ==> Positive(r.0)
  {
    StoredIsHeight(n.left);
    StoredIsHeight(n.right);
    var h := 1 + Max(Stored(n.left), Stored(n.right));
    (n.(height := h), h != n.height)
  }

  /**
   * `updateHeight`: recompute every stored height of the subtree, children
   * first. Only the heights change, they all become correct, and a tree
   * whose heights were correct is left as it was.
   */
  function UpdateHeight<V>(t: Tree<V>): (r: Tree<V>)
    ensures HeightsOk(r)
    ensures r.Nil? <==> t.Nil?
    ensures t.Node? ==> r.key == t.key && r.value == t.value
    ensures InOrder(r) == InOrder(t) && Keys(r) == Keys(t) && Height(r) == Height(t)
    ensures Ordered(t) ==> Ordered(r)
    ensures Balanced(t) ==> Balanced(r)
    ensures HeightsOk(t) ==> r == t
  {
    if t.Nil? then t
    else SetHeight(t.(left := UpdateHeight(t.left), right := UpdateHeight(t.right))).0
  }

  /**
   * `rotateLeft`: the right child becomes the root of the subtree and the
   * old root its left child, taking over the right child's left subtree.
   * Stored heights are not touched. Without a right child nothing changes.
   */
  function RotateLeft<V>(n: Tree<V>): (r: Tree<V>)
    requires n.Node?
    ensures r.Node?
    ensures n.right.Nil? ==> r == n
    ensures InOrder(r) == InOrder(n) && Keys(r) == Keys(n)
    ensures Ordered(n) ==> Ordered(r)
    ensures Positive(n) ==> Positive(r)
  {
    if n.right.Nil? then n
    else
      LeftRotation(n);
      n.right.(left := n.(right := n.right.left))
  }

  /** The tree `rotateLeft` builds holds the same pairs in the same order, and keeps order and heights positive. */
  lemma LeftRotation<V>(n: Tree<V>)
    requires n.Node? && n.right.Node?
    ensures var r := n.right.(left := n.(right := n.right.left));
      && InOrder(r) == InOrder(n) && Keys(r) == Keys(n)
      && (Ordered(n) ==> Ordered(r)) && (Positive(n) ==> Positive(r))
  {
    var c := n.right;
    var m := n.(right := c.left);
    LeftRotationPairs(n);
    assert Ordered(n) ==> Ordered(c) && Ordered(m);
    assert Positive(n) ==> Positive(c) && Positive(m);
  }

  /** The left rotation keeps the in-order pairs and the key set. */
  lemma LeftRotationPairs<V>(n: Tree<V>)
    requires n.Node? && n.right.Node?
    ensures var r := n.right.(left := n.(right := n.right.left));
      InOrder(r) == InOrder(n) && Keys(r) == Keys(n)
  {
    var c := n.right;
    assert Keys(c) == Keys(c.left) + {c.key} + Keys(c.right);
    assert InOrder(c) == InOrder(c.left) + [(c.key, c.value)] + InOrder(c.right);
  }

  /** `rotateRight`: the mirror image of `rotateLeft`. */
  function RotateRight<V>(n: Tree<V>): (r: Tree<V>)
    requires n.Node?
    ensures r.Node?
    ensures n.left.Nil? ==> r == n
    ensures InOrder(r) == InOrder(n) && Keys(r) == Keys(n)
    ensures Ordered(n) ==> Ordered(r)
    ensures Positive(n) ==> Positive(r)
  {
    if n.left.Nil? then n
    else
      RightRotation(n);
      n.left.(right := n.(left := n.left.right))
  }

  /** The tree `rotateRight` builds holds the same pairs in the same order, and keeps order and heights positive. */
  lemma RightRotation<V>(n: Tree<V>)
    requires n.Node? && n.left.Node?
    ensures var r := n.left.(right := n.(left := n.left.right));
      && InOrder(r) == InOrder(n) && Keys(r) == Keys(n)
      && (Ordered(n) ==> Ordered(r)) && (Positive(n) ==> Positive(r))
  {
    var c := n.left;
    var m := n.(left := c.right);
    RightRotationPairs(n);
    assert Ordered(n) ==> Ordered(c) && Ordered(m);
    assert Positive(n) ==> Positive(c) && Positive(m);
  }

  /** The right rotation keeps the in-order pairs and the key set. */
  lemma RightRotationPairs<V>(n: Tree<V>)
    requires n.Node? && n.left.Node?
    ensures var r := n.left.(right := n.(left := n.left.right));
      InOrder(r) == InOrder(n) && Keys(r) == Keys(n)
  {
    var c := n.left;
    assert Keys(c) == Keys(c.left) + {c.key} + Keys(c.right);
    assert InOrder(c) == InOrder(c.left) + [(c.key, c.value)] + InOrder(c.right);
  }

  /**
   * `set`: hang `c` as the left or the right child of `n`, by comparing its
   * root key with the key of `n`; an equal key changes nothing.
   */
  function Set<V>(n: Tree<V>, c: Tree<V>): (r: Tree<V>)
    requires n.Node? && c.Node?
    ensures (forall x :: x in Keys(c) ==> x < n.key) ==> r == n.(left := c)
    ensures (forall x :: x in Keys(c) ==> n.key < x) ==> r == n.(right := c)
    ensures c.key == n.key ==> r == n
    ensures Positive(n) && Positive(c) ==> Positive(r)
  {
    assert c.key in Keys(c);
    if c.key < n.key then n.(left := c)
    else if c.key > n.key then n.(right := c)
    else n
  }

  /** The value of the first pair with key `k`: the reference for what a search must return. */
  function Find<V>(s: seq<(int, V)>, k: int): Option<V>
  {
    if |s| == 0 then None
    else if s[0].0 == k then Some(s[0].1)
    else Find(s[1..], k)
  }

  /** Looking a key up in a concatenation looks in the first part first. */
  lemma {:induction false} FindAppend<V>(a: seq<(int, V)>, b: seq<(int, V)>, k: int)
    ensures Find(a + b, k) == if Find(a, k).Some? then Find(a, k) else Find(b, k)
  {
    if |a| > 0 {
      assert (a + b)[0] == a[0];
      assert (a + b)[1..] == a[1..] + b;
      FindAppend(a[1..], b, k);
    } else {
      assert a + b == b;
    }
  }

  /** A key is found among the pairs of a tree exactly when the tree holds it. */
  lemma {:induction false} FindInOrder<V>(t: Tree<V>, k: int)
    ensures Find(InOrder(t), k).Some? <==> k in Keys(t)
  {
    if t.Node? {
      FindInOrder(t.left, k);
      FindInOrder(t.right, k);
      FindAppend(InOrder(t.left), [(t.key, t.value)] + InOrder(t.right), k);
      assert ([(t.key, t.value)] + InOrder(t.right))[1..] == InOrder(t.right);
      assert InOrder(t) == InOrder(t.left) + ([(t.key, t.value)] + InOrder(t.right));
    }
  }

  /** `AVLNode.search`: descend by comparison; `null` when the descent falls off the tree. */
  function SearchNode<V>(n: Tree<V>, k: int): (r: Option<V>)
    requires n.Node?
    ensures Ordered(n) ==> r == Find(InOrder(n), k)
  {
    var pairs := [(n.key, n.value)] + InOrder(n.right);
    FindAppend(InOrder(n.left), pairs, k);
    assert pairs[1..] == InOrder(n.right);
    assert InOrder(n) == InOrder(n.left) + pairs;
    FindInOrder(n.left, k);
    FindInOrder(n.right, k);
    if k < n.key then (if n.left.Nil? then None else SearchNode(n.left, k))
    else if k > n.key then (if n.right.Nil? then None else SearchNode(n.right, k))
    else Some(n.value)
  }

  /** `AVLTree.search`: `null` for an empty tree, otherwise the root searches. */
  function Search<V>(t: Tree<V>, k: int): (r: Option<V>)
    ensures Ordered(t) ==> r == Find(InOrder(t), k)
    ensures Ordered(t) ==> (r.Some? <==> k in Keys(t))
  {
    FindInOrder(t, k);
    if t.Nil? then None else SearchNode(t, k)
  }

  /** A one-node tree, as the `AVLNode` constructor makes it: height `1`. */
  function Leaf<V>(k: int, v: V): Tree<V>
  {
    Node(k, v, Nil, Nil, 1)
  }

  /**
   * `AVLNode.insert`: descend by comparison and hang a new leaf where the
   * descent falls off the tree, without touching any height; meeting an
   * equal key throws `DuplicateKeyException`.
   */
  function InsertNode<V>(n: Tree<V>, k: int, v: V): (r: Result<Tree<V>>)
    requires n.Node?
    ensures r.Err? ==> r.error == DuplicateKey && k in Keys(n)
    ensures Ordered(n) ==> (r.Ok? <==> k !in Keys(n))
    ensures r.Ok? ==> r.value.Node? && r.value.key == n.key && Keys(r.value) == Keys(n) + {k}
    ensures r.Ok? && Ordered(n) ==> Ordered(r.value)
    ensures r.Ok? && Positive(n) ==> Positive(r.value)
    decreases n, 1
  {
    if k < n.key then InsertLeft(n, k, v)
    else if k > n.key then InsertRight(n, k, v)
    else Err(DuplicateKey)
  }

  /** `AVLNode.insertLeft`: a new leaf if the left child is `null`, otherwise insert into it. */
  function InsertLeft<V>(n: Tree<V>, k: int, v: V): (r: Result<Tree<V>>)
    requires n.Node? && k < n.key
    ensures r.Err? ==> r.error == DuplicateKey && k in Keys(n.left)
    ensures Ordered(n.left) ==> (r.Ok? <==> k !in Keys(n.left))
    ensures r.Ok? ==> r.value.Node? && r.value == n.(left := r.value.left)
    ensures r.Ok? ==> Keys(r.value.left) == Keys(n.left) + {k}
    ensures r.Ok? && Ordered(n.left) ==> Ordered(r.value.left)
    ensures r.Ok? && Positive(n.left) ==> Positive(r.value.left)
    decreases n, 0
  {
    if n.left.Nil? then Ok(n.(left := Leaf(k, v)))
    else
      match InsertNode(n.left, k, v)
      case Ok(l) => Ok(n.(left := l))
      case Err(e) => Err(e)
  }

  /** `AVLNode.insertRight`: a new leaf if the right child is `null`, otherwise insert into it. */
  function InsertRight<V>(n: Tree<V>, k: int, v: V): (r: Result<Tree<V>>)
    requires n.Node? && k > n.key
    ensures r.Err? ==> r.error == DuplicateKey && k in Keys(n.right)
    ensures Ordered(n.right) ==> (r.Ok? <==> k !in Keys(n.right))
    ensures r.Ok? ==> r.value.Node? && r.value == n.(right := r.value.right)
    ensures r.Ok? ==> Keys(r.value.right) == Keys(n.right) + {k}
    ensures r.Ok? && Ordered(n.right) ==> Ordered(r.value.right)
    ensures r.Ok? && Positive(n.right) ==> Positive(r.value.right)
    decreases n, 0
  {
    if n.right.Nil? then Ok(n.(right := Leaf(k, v)))
    else
      match InsertNode(n.right, k, v)
      case Ok(rt) => Ok(n.(right := rt))
      case Err(e) => Err(e)
  }

  /**
   * One step of `avlCheck` at node `n`: at balance `-2` rotate left, first
   * rotating the right child right when its balance is `+1`; at `+2` the
   * mirror image. A rotated subtree gets all its heights recomputed
   * (`updateHeight`), an unrotated node only its own (`setHeight`). The
   * rotated root is never `n` itself (the heavy child is never `null`), so
   * the test `R != node` is whether a rotation ran.
   */
  function Check<V>(n: Tree<V>): (r: Tree<V>)
    requires n.Node? && Positive(n)
    ensures r.Node? && Positive(r)
    ensures Ordered(n) ==> InOrder(r) == InOrder(n) && Keys(r) == Keys(n) && Ordered(r)
  {
    var fb := Balance(n);
    assert Positive(n.left) && Positive(n.right);
    assert Stored(n.left) >= 0 && Stored(n.right) >= 0;
    if fb == -2 then
      var c := n.right;
      var n1 := if Balance(c) == 1 then Set(n, RotateRight(c)) else n;
      StoredIsHeight(UpdateHeight(RotateLeft(n1)));
      UpdateHeight(RotateLeft(n1))
    else if fb == 2 then
      var c := n.left;
      var n1 := if Balance(c) == -1 then Set(n, RotateLeft(c)) else n;
      StoredIsHeight(UpdateHeight(RotateRight(n1)));
      UpdateHeight(RotateRight(n1))
    else
      SetHeight(n).0
  }

  /**
   * The walk of `avlCheck` for an insertion of key `k`: every node on the
   * search path of `k`, deepest first, gets its rebalanced child hung back
   * with `set` and is checked in turn; the node holding `k` (the new leaf)
   * is where the walk starts.
   */
  function CheckPath<V>(t: Tree<V>, k: int): (r: Tree<V>)
    requires Positive(t)
    ensures r.Node? <==> t.Node?
    ensures Positive(r)
    ensures Ordered(t) ==> InOrder(r) == InOrder(t) && Keys(r) == Keys(t) && Ordered(r)
    decreases t
  {
    if t.Nil? || k == t.key then t
    else
      var c := if k < t.key then t.left else t.right;
      if c.Nil? then t else Check(Set(t, CheckPath(c, k)))
  }

  /**
   * `AVLTree.insert`: an empty tree gets a one-node root; otherwise the root
   * inserts plainly and `avlCheck` rebalances from the new node's parent up.
   */
  function Insert<V>(t: Tree<V>, k: int, v: V): (r: Result<Tree<V>>)
    requires Positive(t)
    ensures t.Nil? ==> r == Ok(Leaf(k, v))
    ensures r.Err? ==> r.error == DuplicateKey && k in Keys(t)
    ensures Ordered(t) ==> (r.Ok? <==> k !in Keys(t))
    ensures r.Ok? ==> r.value.Node? && Positive(r.value)
    ensures r.Ok? && Ordered(t) ==> Keys(r.value) == Keys(t) + {k} && Ordered(r.value)
  {
    if t.Nil? then Ok(Leaf(k, v))
    else
      match InsertNode(t, k, v)
      case Ok(t1) => Ok(CheckPath(t1, k))
      case Err(e) => Err(e)
  }

  /** Below a node, to its left, `AVLTree.insert` inserts into the left subtree and then checks the node. */
  lemma InsertLeftStep<V>(t: Tree<V>, k: int, v: V)
    requires t.Node? && Positive(t) && Ordered(t) && k < t.key && k !in Keys(t)
    ensures Positive(t.left) && Insert(t, k, v).Ok? && Insert(t.left, k, v).Ok?
    ensures Positive(t.(left := Insert(t.left, k, v).value))
    ensures Insert(t, k, v).value == Check(t.(left := Insert(t.left, k, v).value))
  {
    assert Positive(t.left);
    assert InsertNode(t, k, v) == InsertLeft(t, k, v);
    var t1 := InsertNode(t, k, v).value;
    var x := Insert(t.left, k, v).value;
    if t.left.Nil? {
      assert t1.left == Leaf(k, v);
    } else {
      assert t1.left == InsertNode(t.left, k, v).value;
    }
    assert CheckPath(t1.left, k) == x;
    assert Set(t1, x) == t.(left := x);
  }

  /** The mirror image of `InsertLeftStep`. */
  lemma InsertRightStep<V>(t: Tree<V>, k: int, v: V)
    requires t.Node? && Positive(t) && Ordered(t) && k > t.key && k !in Keys(t)
    ensures Positive(t.right) && Insert(t, k, v).Ok? && Insert(t.right, k, v).Ok?
    ensures Positive(t.(right := Insert(t.right, k, v).value))
    ensures Insert(t, k, v).value == Check(t.(right := Insert(t.right, k, v).value))
  {
    assert Positive(t.right);
    assert InsertNode(t, k, v) == InsertRight(t, k, v);
    var t1 := InsertNode(t, k, v).value;
    var x := Insert(t.right, k, v).value;
    if t.right.Nil? {
      assert t1.right == Leaf(k, v);
    } else {
      assert t1.right == InsertNode(t.right, k, v).value;
    }
    assert CheckPath(t1.right, k) == x;
    assert Set(t1, x) == t.(right := x);
  }

  /**
   * A check of a node whose subtrees are AVL trees with heights differing by
   * at most two, where a subtree two higher is not level itself (as after an
   * insertion), leaves an AVL tree with the same keys. At a difference of
   * two it rotates and the subtree loses a level; otherwise it only sets the
   * height.
   */
  lemma CheckRebalances<V>(n: Tree<V>)
    requires n.Node? && Positive(n) && Ordered(n) && Avl(n.left) && Avl(n.right)
    requires -2 <= Skew(n) <= 2
    requires Skew(n) == 2 ==> n.left.Node? && Skew(n.left) != 0
    requires Skew(n) == -2 ==> n.right.Node? && Skew(n.right) != 0
    ensures Avl(Check(n)) && Keys(Check(n)) == Keys(n)
    ensures -1 <= Skew(n) <= 1 ==> Check(n) == SetHeight(n).0
    ensures Height(Check(n)) == if Skew(n) == 2 || Skew(n) == -2 then Height(n) - 1 else Height(n)
  {
    if Skew(n) == 2 {
      LeftHeavy(n);
    } else if Skew(n) == -2 {
      RightHeavy(n);
    } else {
      StoredIsHeight(SetHeight(n).0);
    }
  }

  /** Balance `+2`: a single right rotation, or a double one when the left child leans right. */
  lemma LeftHeavy<V>(n: Tree<V>)
    requires n.Node? && Positive(n) && Ordered(n) && Avl(n.left) && Avl(n.right)
    requires Skew(n) == 2 && n.left.Node? && Skew(n.left) != 0
    ensures Avl(Check(n)) && Keys(Check(n)) == Keys(n)
    ensures Height(Check(n)) == Height(n) - 1
  {
    var l := n.left;
    assert Balance(n) == 2;
    assert Balance(l) == Skew(l);
    var r0;
    if Skew(l) == 1 {
      r0 := LeftSingle(n);
    } else {
      r0 := LeftDouble(n);
    }
    assert Check(n) == UpdateHeight(r0);
  }

  /** The left child leans left: one right rotation leaves a level, balanced subtree. */
  lemma LeftSingle<V>(n: Tree<V>) returns (r0: Tree<V>)
    requires n.Node? && Positive(n) && Ordered(n) && Avl(n.left) && Avl(n.right)
    requires Skew(n) == 2 && n.left.Node? && Skew(n.left) == 1
    ensures r0 == RotateRight(n)
    ensures Ordered(r0) && Balanced(r0) && Keys(r0) == Keys(n) && Height(r0) == Height(n) - 1
  {
    var l := n.left;
    r0 := RotateRight(n);
    assert r0 == Node(l.key, l.value, l.left, n.(left := l.right), l.height);
  }

  /** The left child leans right: rotate it left, hang it back with `set`, then rotate right. */
  lemma LeftDouble<V>(n: Tree<V>) returns (r0: Tree<V>)
    requires n.Node? && Positive(n) && Ordered(n) && Avl(n.left) && Avl(n.right)
    requires Skew(n) == 2 && n.left.Node? && Skew(n.left) == -1
    ensures n.left.right.Node?
    ensures r0 == RotateRight(Set(n, RotateLeft(n.left)))
    ensures Ordered(r0) && Balanced(r0) && Keys(r0) == Keys(n) && Height(r0) == Height(n) - 1
  {
    var l := n.left;
    var b := l.right;
    var rl := RotateLeft(l);
    assert rl == Node(b.key, b.value, l.(right := b.left), b.right, b.height);
    assert Set(n, rl) == n.(left := rl);
    r0 := RotateRight(n.(left := rl));
    assert r0 == Node(b.key, b.value, l.(right := b.left), n.(left := b.right), b.height);
    assert Balanced(l.left) && Balanced(b) && Balanced(n.right);
    assert Height(b) == Height(l.left) + 1 == Height(n.right) + 1;
    assert Balanced(l.(right := b.left)) && Balanced(n.(left := b.right));
  }

  /** Balance `-2`: the mirror image of `LeftHeavy`. */
  lemma RightHeavy<V>(n: Tree<V>)
    requires n.Node? && Positive(n) && Ordered(n) && Avl(n.left) && Avl(n.right)
    requires Skew(n) == -2 && n.right.Node? && Skew(n.right) != 0
    ensures Avl(Check(n)) && Keys(Check(n)) == Keys(n)
    ensures Height(Check(n)) == Height(n) - 1
  {
    var c := n.right;
    assert Balance(n) == -2;
    assert Balance(c) == Skew(c);
    var r0;
    if Skew(c) == -1 {
      r0 := RightSingle(n);
    } else {
      r0 := RightDouble(n);
    }
    assert Check(n) == UpdateHeight(r0);
  }

  /** The right child leans right: one left rotation leaves a level, balanced subtree. */
  lemma RightSingle<V>(n: Tree<V>) returns (r0: Tree<V>)
    requires n.Node? && Positive(n) && Ordered(n) && Avl(n.left) && Avl(n.right)
    requires Skew(n) == -2 && n.right.Node? && Skew(n.right) == -1
    ensures r0 == RotateLeft(n)
    ensures Ordered(r0) && Balanced(r0) && Keys(r0) == Keys(n) && Height(r0) == Height(n) - 1
  {
    var c := n.right;
    r0 := RotateLeft(n);
    assert r0 == Node(c.key, c.value, n.(right := c.left), c.right, c.height);
  }

  /** The right child leans left: rotate it right, hang it back with `set`, then rotate left. */
  lemma RightDouble<V>(n: Tree<V>) returns (r0: Tree<V>)
    requires n.Node? && Positive(n) && Ordered(n) && Avl(n.left) && Avl(n.right)
    requires Skew(n) == -2 && n.right.Node? && Skew(n.right) == 1
    ensures n.right.left.Node?
    ensures r0 == RotateLeft(Set(n, RotateRight(n.right)))
    ensures Ordered(r0) && Balanced(r0) && Keys(r0) == Keys(n) && Height(r0) == Height(n) - 1
  {
    var c := n.right;
    var b := c.left;
    var rr := RotateRight(c);
    assert rr == Node(b.key, b.value, b.left, c.(left := b.right), b.height);
    assert Set(n, rr) == n.(right := rr);
    r0 := RotateLeft(n.(right := rr));
    assert r0 == Node(b.key, b.value, n.(right := b.left), c.(left := b.right), b.height);
    assert Balanced(c.right) && Balanced(b) && Balanced(n.left);
    assert Height(b) == Height(c.right) + 1 == Height(n.left) + 1;
    assert Balanced(n.(right := b.left)) && Balanced(c.(left := b.right));
  }

  /**
   * A node of an AVL tree whose left subtree is replaced by an AVL tree with
   * one more key, at most one level higher and leaning if it grew, is an
   * AVL tree again once checked, and at most one level higher itself.
   */
  lemma GrewLeft<V>(t: Tree<V>, x: Tree<V>, k: int)
    requires t.Node? && Avl(t) && k < t.key && k !in Keys(t)
    requires Avl(x) && Keys(x) == Keys(t.left) + {k}
    requires Height(x) == Height(t.left) || Height(x) == Height(t.left) + 1
    requires t.left.Node? && Height(x) == Height(t.left) + 1 ==> x.Node? && Skew(x) != 0
    ensures Positive(t.(left := x))
    ensures var r := Check(t.(left := x));
      && Avl(r) && Keys(r) == Keys(t) + {k}
      && (Height(r) == Height(t) || Height(r) == Height(t) + 1)
      && (Height(r) == Height(t) + 1 ==> Skew(r) != 0)
  {
    var n := t.(left := x);
    assert k in Keys(x);
    CheckRebalances(n);
  }

  /** The mirror image of `GrewLeft`. */
  lemma GrewRight<V>(t: Tree<V>, x: Tree<V>, k: int)
    requires t.Node? && Avl(t) && k > t.key && k !in Keys(t)
    requires Avl(x) && Keys(x) == Keys(t.right) + {k}
    requires Height(x) == Height(t.right) || Height(x) == Height(t.right) + 1
    requires t.right.Node? && Height(x) == Height(t.right) + 1 ==> x.Node? && Skew(x) != 0
    ensures Positive(t.(right := x))
    ensures var r := Check(t.(right := x));
      && Avl(r) && Keys(r) == Keys(t) + {k}
      && (Height(r) == Height(t) || Height(r) == Height(t) + 1)
      && (Height(r) == Height(t) + 1 ==> Skew(r) != 0)
  {
    var n := t.(right := x);
    assert k in Keys(x);
    CheckRebalances(n);
  }

  /**
   * Inserting a new key into an AVL tree gives an AVL tree holding one key
   * more, at most one level higher; a subtree that grew leans to one side.
   */
  lemma {:induction false} InsertKeepsAvl<V>(t: Tree<V>, k: int, v: V)
    requires Avl(t) && k !in Keys(t)
    ensures Insert(t, k, v).Ok?
    ensures var r := Insert(t, k, v).value;
      && Avl(r) && Keys(r) == Keys(t) + {k}
      && (Height(r) == Height(t) || Height(r) == Height(t) + 1)
      && (t.Node? && Height(r) == Height(t) + 1 ==> Skew(r) != 0)
    decreases t
  {
    if t.Node? {
      if k < t.key {
        InsertKeepsAvl(t.left, k, v);
        InsertLeftStep(t, k, v);
        GrewLeft(t, Insert(t.left, k, v).value, k);
      } else {
        InsertKeepsAvl(t.right, k, v);
        InsertRightStep(t, k, v);
        GrewRight(t, Insert(t.right, k, v).value, k);
      }
    }
  }

  /** After a plain insertion the new key finds its value, and every other key what it found before. */
  lemma {:induction false} InsertNodeSearch<V>(n: Tree<V>, k: int, v: V, j: int)
    requires n.Node? && Ordered(n) && InsertNode(n, k, v).Ok?
    ensures Search(InsertNode(n, k, v).value, j) == if j == k then Some(v) else Search(n, j)
    decreases n
  {
    var t1 := InsertNode(n, k, v).value;
    if k < n.key {
      assert InsertNode(n, k, v) == InsertLeft(n, k, v);
      if n.left.Node? {
        InsertNodeSearch(n.left, k, v, j);
        assert t1.left == InsertNode(n.left, k, v).value;
      }
      if j < n.key {
        assert Search(t1, j) == Search(t1.left, j) && Search(n, j) == Search(n.left, j);
      }
    } else {
      assert InsertNode(n, k, v) == InsertRight(n, k, v);
      if n.right.Node? {
        InsertNodeSearch(n.right, k, v, j);
        assert t1.right == InsertNode(n.right, k, v).value;
      }
      if j > n.key {
        assert Search(t1, j) == Search(t1.right, j) && Search(n, j) == Search(n.right, j);
      }
    }
  }

  /** `AVLTree.search` after `AVLTree.insert`: the new key finds its value, every other key what it found before. */
  lemma InsertThenSearch<V>(t: Tree<V>, k: int, v: V, j: int)
    requires Ordered(t) && Positive(t) && Insert(t, k, v).Ok?
    ensures Search(Insert(t, k, v).value, j) == if j == k then Some(v) else Search(t, j)
  {
    if t.Node? {
      InsertNodeSearch(t, k, v, j);
      assert Insert(t, k, v).value == CheckPath(InsertNode(t, k, v).value, k);
    }
  }

  /** The keys of a list of key/value pairs. */
  function KeySet<V>(kvs: seq<(int, V)>): set<int>
  {
    set i | 0 <= i < |kvs| :: kvs[i].0
  }

  /** Pairs whose keys are new to `t` and to each other. */
  predicate Fresh<V>(t: Tree<V>, kvs: seq<(int, V)>)
  {
    (forall i :: 0 <= i < |kvs| ==> kvs[i].0 !in Keys(t)) &&
    (forall i, j :: 0 <= i < j < |kvs| ==> kvs[i].0 != kvs[j].0)
  }

  /** The loop of the test driver: `insert` every pair in order, stopping at the first exception. */
  function InsertAll<V>(t: Tree<V>, kvs: seq<(int, V)>): (r: Result<Tree<V>>)
    requires Positive(t)
    ensures r.Err? ==> r.error == DuplicateKey
    ensures r.Ok? ==> Positive(r.value)
    decreases |kvs|
  {
    if |kvs| == 0 then Ok(t)
    else
      match Insert(t, kvs[0].0, kvs[0].1)
      case Ok(t1) => InsertAll(t1, kvs[1..])
      case Err(e) => Err(e)
  }

  /**
   * Inserting fresh pairs one by one into an AVL tree succeeds and leaves an
   * AVL tree holding their keys as well, where each new key finds its value
   * and every other key what it found before.
   */
  lemma {:induction false} InsertAllKeepsAvl<V>(t: Tree<V>, kvs: seq<(int, V)>, j: int)
    requires Avl(t) && Fresh(t, kvs)
    ensures InsertAll(t, kvs).Ok?
    ensures var r := InsertAll(t, kvs).value;
      && Avl(r) && Keys(r) == Keys(t) + KeySet(kvs)
      && Search(r, j) == if Find(kvs, j).Some? then Find(kvs, j) else Search(t, j)
    decreases |kvs|
  {
    if |kvs| > 0 {
      var (k, v) := kvs[0];
      var rest := kvs[1..];
      InsertKeepsAvl(t, k, v);
      InsertThenSearch(t, k, v, j);
      var t1 := Insert(t, k, v).value;
      assert Fresh(t1, rest) by {
        forall i | 0 <= i < |rest|
          ensures rest[i].0 !in Keys(t1)
        {
          assert rest[i] == kvs[i + 1];
        }
      }
      InsertAllKeepsAvl(t1, rest, j);
      KeySetCons(kvs);
      if j == k {
        FindMissing(rest, j);
      }
    } else {
      assert KeySet(kvs) == {};
    }
  }

  /** The keys of a non-empty list: the first key and those of the rest. */
  lemma KeySetCons<V>(kvs: seq<(int, V)>)
    requires |kvs| > 0
    ensures KeySet(kvs) == {kvs[0].0} + KeySet(kvs[1..])
  {
    var rest := kvs[1..];
    forall x | x in KeySet(kvs)
      ensures x in {kvs[0].0} + KeySet(rest)
    {
      var i :| 0 <= i < |kvs| && kvs[i].0 == x;
      if i > 0 {
        assert rest[i - 1] == kvs[i];
      }
    }
    forall x | x in KeySet(rest)
      ensures x in KeySet(kvs)
    {
      var i :| 0 <= i < |rest| && rest[i].0 == x;
      assert kvs[i + 1] == rest[i];
    }
  }

  /** A key that no pair carries is not found. */
  lemma {:induction false} FindMissing<V>(kvs: seq<(int, V)>, j: int)
    requires forall i :: 0 <= i < |kvs| ==> kvs[i].0 != j
    ensures Find(kvs, j) == None
    decreases |kvs|
  {
    if |kvs| > 0 {
      FindMissing(kvs[1..], j);
    }
  }

  /** The first pair of a list with a key none of its predecessors has gives that key's value. */
  lemma {:induction false} FindAt<V>(kvs: seq<(int, V)>, i: int)
    requires 0 <= i < |kvs|
    requires forall h :: 0 <= h < i ==> kvs[h].0 != kvs[i].0
    ensures Find(kvs, kvs[i].0) == Some(kvs[i].1)
    decreases i
  {
    if i > 0 {
      FindAt(kvs[1..], i - 1);
    }
  }

  /**
   * The loop of the test driver: the `i`-th name, with value `i`, for `i`
   * from `0` (the driver inserts five names, `"Andre" < "Ivonei" <
   * "Lossurdo" < "Lucia" < "Rafael"`, ranked here by their order). Whatever
   * their number, the result is an AVL tree in which each name finds its
   * index and no other key is found.
   */
  lemma TestDriverTree(kvs: seq<(int, int)>, j: int)
    requires forall i :: 0 <= i < |kvs| ==> kvs[i] == (i, i)
    ensures var r := InsertAll(Nil, kvs);
      && r.Ok? && Avl(r.value)
      && Search(r.value, j) == if 0 <= j < |kvs| then Some(j) else None
  {
    InsertAllKeepsAvl(Nil, kvs, j);
    if 0 <= j < |kvs| {
      FindAt(kvs, j);
    } else {
      FindMissing(kvs, j);
    }
  }
}

=== FILE: binary_heap.dfy ===
/**
 * `util.BinaryHeap`: an array-backed binary heap ordered by a comparator,
 * with the element the comparator ranks lowest at the top. The backing
 * array is modelled by its live prefix `data` (the Java `data[0..count)`)
 * and its length `capacity`.
 */
module BinaryHeap {
  import opened Order
  import opened Functions
  import opened Results

  /** Length of the backing array a new heap starts with. */
  const InitialCapacity: nat := 16

  /** Above this length the backing array grows by this much instead of doubling. */
  const GrowthStep: nat := 1024

  datatype Heap<!T> = Heap(data: seq<T>, capacity: nat, key: T -> int)

  /** Heap order on the first `n` slots: no element ranks below its parent. */
  predicate HeapOrdered<T>(a: seq<T>, n: int, key: T -> int)
    requires 0 <= n <= |a|
  {
    forall i, j :: 0 <= i < j < n && (j - 1) / 2 == i ==> key(a[i]) <= key(a[j])
  }

  /** The class invariant: the live entries fit the store and are heap ordered. */
  predicate Valid<T>(h: Heap<T>)
  {
    |h.data| <= h.capacity && HeapOrdered(h.data, |h.data|, h.key)
  }

  /** The root of a heap-ordered prefix ranks lowest in it. */
  lemma {:induction false} RootIsMinimal<T>(a: seq<T>, n: int, key: T -> int, i: int)
    requires 0 <= n <= |a| && HeapOrdered(a, n, key) && 0 <= i < n
    ensures key(a[0]) <= key(a[i])
    decreases i
  {
    if i > 0 {
      assert key(a[(i - 1) / 2]) <= key(a[i]);
      RootIsMinimal(a, n, key, (i - 1) / 2);
    }
  }

  // ---------------------------------------------------------------- sift up

  /**
   * The sift-up loop of `push` and `heapify`: `while (e > 0)` compare slot
   * `e` with its parent, swap when it ranks lower, and move to the parent
   * (whether or not it swapped).
   */
  function SiftUp<T>(a: seq<T>, e: int, key: T -> int): (r: seq<T>)
    requires 0 <= e < |a|
    ensures |r| == |a| && multiset(r) == multiset(a)
    ensures forall k :: e < k < |a| ==> r[k] == a[k]
    decreases e
  {
    if e == 0 then a
    else
      var p := (e - 1) / 2;
      var a' := if Compare(key, a[e], a[p]) < 0 then Swap(a, e, p) else a;
      SiftUp(a', p, key)
  }

  /**
   * Heap order on the first `n` slots except between `e` and its parent,
   * where the parent of `e` still ranks no higher than the children of `e`.
   */
  predicate HeapExceptUp<T>(a: seq<T>, n: int, e: int, key: T -> int)
    requires 0 <= e < n <= |a|
  {
    && (forall i, j :: 0 <= i < j < n && (j - 1) / 2 == i && j != e ==> key(a[i]) <= key(a[j]))
    && (e > 0 ==> forall c :: 0 < c < n && (c - 1) / 2 == e ==> key(a[(e - 1) / 2]) <= key(a[c]))
  }

  lemma SiftUpSwapStep<T>(a: seq<T>, n: int, e: int, key: T -> int)
    requires 0 < e < n <= |a| && HeapExceptUp(a, n, e, key)
    requires key(a[e]) < key(a[(e - 1) / 2])
    ensures HeapExceptUp(Swap(a, e, (e - 1) / 2), n, (e - 1) / 2, key)
  {
    var p := (e - 1) / 2;
    var b := Swap(a, e, p);
    forall i, j | 0 <= i < j < n && (j - 1) / 2 == i && j != p
      ensures key(b[i]) <= key(b[j])
    {
      if j == e {
      } else if i == e {
      } else if i == p {
        assert key(a[p]) <= key(a[j]);
      } else {
        assert key(a[i]) <= key(a[j]);
      }
    }
    if p > 0 {
      forall c | 0 < c < n && (c - 1) / 2 == p
        ensures key(b[(p - 1) / 2]) <= key(b[c])
      {
        assert key(a[(p - 1) / 2]) <= key(a[p]);
        if c != e {
          assert key(a[p]) <= key(a[c]);
        }
      }
    }
  }

  lemma SiftUpStayStep<T>(a: seq<T>, n: int, e: int, key: T -> int)
    requires 0 < e < n <= |a| && HeapExceptUp(a, n, e, key)
    requires key(a[(e - 1) / 2]) <= key(a[e])
    ensures HeapExceptUp(a, n, (e - 1) / 2, key)
  {
    var p := (e - 1) / 2;
    assert HeapOrdered(a, n, key);
    if p > 0 {
      forall c | 0 < c < n && (c - 1) / 2 == p
        ensures key(a[(p - 1) / 2]) <= key(a[c])
      {
        assert key(a[(p - 1) / 2]) <= key(a[p]);
        assert key(a[p]) <= key(a[c]);
      }
    }
  }

  lemma {:induction false} SiftUpOrders<T>(a: seq<T>, n: int, e: int, key: T -> int)
    requires 0 <= e < n <= |a|
    ensures HeapExceptUp(a, n, e, key) ==> HeapOrdered(SiftUp(a, e, key), n, key)
    decreases e
  {
    if HeapExceptUp(a, n, e, key) && e > 0 {
      var p := (e - 1) / 2;
      if Compare(key, a[e], a[p]) < 0 {
        assert SiftUp(a, e, key) == SiftUp(Swap(a, e, p), p, key);
        SiftUpSwapStep(a, n, e, key);
        SiftUpOrders(Swap(a, e, p), n, p, key);
      } else {
        assert SiftUp(a, e, key) == SiftUp(a, p, key);
        SiftUpStayStep(a, n, e, key);
        SiftUpOrders(a, n, p, key);
      }
    }
  }

  // -------------------------------------------------------------- sift down

  /**
   * The sift-down loop of `pop`: while slot `r` has a child, pick the child
   * that ranks lower (the right one on a tie), swap when `r` ranks higher
   * than it, and move to that child (whether or not it swapped).
   */
  function SiftDown<T>(a: seq<T>, r: int, key: T -> int): (res: seq<T>)
    requires 0 <= r
    ensures |res| == |a| && multiset(res) == multiset(a)
    decreases |a| - r
  {
    if r >= |a| then a
    else
      if (r + 1) * 2 - 1 >= |a| then a
      else
        var s := SmallerChild(a, r, key);
        var a' := if Compare(key, a[r], a[s]) > 0 then Swap(a, r, s) else a;
        SiftDown(a', s, key)
  }

  /**
   * Heap order except between `r` and its children, where the parent of `r`
   * still ranks no higher than the children of `r`.
   */
  predicate HeapExceptDown<T>(a: seq<T>, r: int, key: T -> int)
    requires 0 <= r
  {
    && (forall i, j :: 0 <= i < j < |a| && (j - 1) / 2 == i && i != r ==> key(a[i]) <= key(a[j]))
    && (0 < r < |a| ==> forall c :: 0 < c < |a| && (c - 1) / 2 == r ==> key(a[(r - 1) / 2]) <= key(a[c]))
  }

  /** The child `sift down` moves to: the lower-ranking child, the right one on a tie. */
  function SmallerChild<T>(a: seq<T>, r: int, key: T -> int): (s: int)
    requires 0 <= r && (r + 1) * 2 - 1 < |a|
    ensures s == (r + 1) * 2 - 1 || s == (r + 1) * 2
    ensures 0 < s < |a| && (s - 1) / 2 == r
    ensures forall c :: 0 < c < |a| && (c - 1) / 2 == r ==> key(a[s]) <= key(a[c])
  {
    var e := (r + 1) * 2 - 1;
    var d := (r + 1) * 2;
    var d' := if d >= |a| then e else d;
    if Compare(key, a[e], a[d']) < 0 then e else d'
  }

  lemma SiftDownSwapStep<T>(a: seq<T>, r: int, s: int, key: T -> int)
    requires 0 <= r && (r + 1) * 2 - 1 < |a| && s == SmallerChild(a, r, key)
    requires HeapExceptDown(a, r, key) && key(a[r]) > key(a[s])
    ensures HeapExceptDown(Swap(a, r, s), s, key)
  {
    var n := |a|;
    var b := Swap(a, r, s);
    forall i, j | 0 <= i < j < n && (j - 1) / 2 == i && i != s
      ensures key(b[i]) <= key(b[j])
    {
      if i == r {
        assert key(a[s]) <= key(a[j]);
      } else if j == r {
        assert key(a[i]) <= key(a[s]);
      } else {
        assert key(a[i]) <= key(a[j]);
      }
    }
    forall c | 0 < c < n && (c - 1) / 2 == s
      ensures key(b[(s - 1) / 2]) <= key(b[c])
    {
      assert key(a[s]) <= key(a[c]);
    }
  }

  lemma SiftDownStayStep<T>(a: seq<T>, r: int, s: int, key: T -> int)
    requires 0 <= r && (r + 1) * 2 - 1 < |a| && s == SmallerChild(a, r, key)
    requires HeapExceptDown(a, r, key) && key(a[r]) <= key(a[s])
    ensures HeapOrdered(a, |a|, key)
  {
    forall i, j | 0 <= i < j < |a| && (j - 1) / 2 == i
      ensures key(a[i]) <= key(a[j])
    {
      if i == r {
        assert key(a[s]) <= key(a[j]);
      }
    }
  }

  lemma OrderedExceptDown<T>(a: seq<T>, s: int, key: T -> int)
    requires 0 <= s && HeapOrdered(a, |a|, key)
    ensures HeapExceptDown(a, s, key)
  {
    if 0 < s < |a| {
      forall c | 0 < c < |a| && (c - 1) / 2 == s
        ensures key(a[(s - 1) / 2]) <= key(a[c])
      {
        assert key(a[s]) <= key(a[c]);
      }
    }
  }

  lemma {:induction false} SiftDownOrders<T>(a: seq<T>, r: int, key: T -> int)
    requires 0 <= r
    ensures HeapExceptDown(a, r, key) ==> HeapOrdered(SiftDown(a, r, key), |a|, key)
    decreases |a| - r
  {
    if HeapExceptDown(a, r, key) && r < |a| && (r + 1) * 2 - 1 < |a| {
      var s := SmallerChild(a, r, key);
      if Compare(key, a[r], a[s]) > 0 {
        assert SiftDown(a, r, key) == SiftDown(Swap(a, r, s), s, key);
        SiftDownSwapStep(a, r, s, key);
        SiftDownOrders(Swap(a, r, s), s, key);
      } else {
        assert SiftDown(a, r, key) == SiftDown(a, s, key);
        SiftDownStayStep(a, r, s, key);
        OrderedExceptDown(a, s, key);
        SiftDownOrders(a, s, key);
      }
    }
  }

  // ------------------------------------------------------------ operations

  /** `new BinaryHeap(cmp)`: an empty heap over a backing array of 16 slots. */
  function New<T>(key: T -> int): (h: Heap<T>)
    ensures Valid(h) && |h.data| == 0 && h.capacity == InitialCapacity && h.key == key
  {
    Heap([], InitialCapacity, key)
  }

  /** Heap order on the first `sz` slots, or on all of `a` once `sz` passes its end. */
  predicate OrderedUpTo<T>(a: seq<T>, sz: int, key: T -> int)
    requires 0 <= sz
  {
    HeapOrdered(a, if sz < |a| then sz else |a|, key)
  }

  /**
   * The outer loop of `heapify`: for `sz` from its current value up to the
   * end of the array, sift slot `sz` up through its ancestors.
   */
  function HeapifyFrom<T>(a: seq<T>, sz: nat, key: T -> int): (r: seq<T>)
    ensures |r| == |a| && multiset(r) == multiset(a)
    ensures OrderedUpTo(a, sz, key) ==> HeapOrdered(r, |r|, key)
    decreases |a| - sz
  {
    if sz >= |a| then a
    else
      var b := SiftUp(a, sz, key);
      SiftUpOrders(a, sz + 1, sz, key);
      HeapifyFrom(b, sz + 1, key)
  }

  /**
   * `BinaryHeap.heapify(data, cmp)`: the heap takes over the caller's array
   * as its store, so every slot is live (`count = data.length`).
   */
  function Heapify<T>(a: seq<T>, key: T -> int): (h: Heap<T>)
    ensures Valid(h) && h.key == key
    ensures h.capacity == |a| && |h.data| == |a|
    ensures multiset(h.data) == multiset(a)
  {
    Heap(HeapifyFrom(a, 1, key), |a|, key)
  }

  /** `isEmpty()`. */
  function IsEmpty<T>(h: Heap<T>): (b: bool)
    ensures b <==> Size(h) == 0
    ensures b <==> multiset(h.data) == multiset{}
  {
    |h.data| == 0
  }

  /** `size()`: the number of live entries. */
  function Size<T>(h: Heap<T>): (n: nat)
    ensures n == |multiset(h.data)|
  {
    |h.data|
  }

  /**
   * `peek()`: reads `data[0]`, which is the lowest-ranking entry, or the
   * `null` of an empty slot (`None`); over a zero-length store (a heap made
   * by `heapify` of an empty array) the read is out of bounds.
   */
  function Peek<T>(h: Heap<T>): (r: Result<Option<T>>)
    requires Valid(h)
    ensures r.Err? <==> h.capacity == 0
    ensures r.Err? ==> r.error == ArrayIndexOutOfBounds
    ensures r == Ok(None) <==> 0 < h.capacity && |h.data| == 0
    ensures r.Ok? && r.value.Some? ==>
      && r.value.value in multiset(h.data)
      && forall i :: 0 <= i < |h.data| ==> h.key(r.value.value) <= h.key(h.data[i])
  {
    if h.capacity == 0 then Err(ArrayIndexOutOfBounds)
    else if |h.data| == 0 then Ok(None)
    else
      RootMinimal(h);
      Ok(Some(h.data[0]))
  }

  lemma RootMinimal<T>(h: Heap<T>)
    requires Valid(h) && |h.data| > 0
    ensures forall i :: 0 <= i < |h.data| ==> h.key(h.data[0]) <= h.key(h.data[i])
  {
    forall i | 0 <= i < |h.data|
      ensures h.key(h.data[0]) <= h.key(h.data[i])
    {
      RootIsMinimal(h.data, |h.data|, h.key, i);
    }
  }

  /**
   * `ensureEnoughSpace()`: a full store is replaced by one twice as long, or
   * 1024 slots longer once it is longer than 1024; the live entries are kept.
   */
  function EnsureEnoughSpace<T>(h: Heap<T>): (r: Heap<T>)
    requires |h.data| <= h.capacity
    ensures r.data == h.data && r.key == h.key
    ensures |h.data| < h.capacity ==> r == h
    ensures h.capacity <= r.capacity <= 2 * h.capacity
    ensures r.capacity <= h.capacity + GrowthStep
    ensures h.capacity > 0 ==> |r.data| < r.capacity
    ensures |h.data| == h.capacity && 0 < h.capacity <= GrowthStep ==> r.capacity == 2 * h.capacity
    ensures |h.data| == h.capacity && GrowthStep < h.capacity ==> r.capacity == h.capacity + GrowthStep
  {
    if |h.data| < h.capacity then h
    else
      var sz := if h.capacity > GrowthStep then h.capacity + GrowthStep else h.capacity * 2;
      Heap(h.data, sz, h.key)
  }

  /**
   * `push(elem)`: grow if full, store `elem` at the end and sift it up. A
   * full zero-length store does not grow, and the store is out of bounds.
   */
  function Push<T>(h: Heap<T>, x: T): (r: Result<Heap<T>>)
    requires Valid(h)
    ensures r.Err? <==> h.capacity == 0
    ensures r.Err? ==> r.error == ArrayIndexOutOfBounds
    ensures r.Ok? ==>
      && Valid(r.value) && r.value.key == h.key
      && multiset(r.value.data) == multiset(h.data) + multiset{x}
      && Size(r.value) == Size(h) + 1
      && h.capacity <= r.value.capacity
  {
    var g := EnsureEnoughSpace(h);
    if |g.data| >= g.capacity then Err(ArrayIndexOutOfBounds)
    else
      var a := g.data + [x];
      var e := |h.data|;
      assert HeapExceptUp(a, |a|, e, h.key) by {
        forall i, j | 0 <= i < j < |a| && (j - 1) / 2 == i && j != e
          ensures h.key(a[i]) <= h.key(a[j])
        {
          assert a[i] == h.data[i] && a[j] == h.data[j];
        }
      }
      SiftUpOrders(a, |a|, e, h.key);
      Ok(Heap(SiftUp(a, e, h.key), g.capacity, h.key))
  }

  /**
   * `pop()`: `None` (Java `null`) on an empty heap, which is left as it is;
   * otherwise the top entry, after the last entry is moved to the top and
   * sifted down.
   */
  function Pop<T>(h: Heap<T>): (r: (Option<T>, Heap<T>))
    requires Valid(h)
    ensures Valid(r.1) && r.1.key == h.key && r.1.capacity == h.capacity
    ensures r.0.None? <==> |h.data| == 0
    ensures r.0.None? ==> r.1 == h
    ensures r.0.Some? ==>
      && r.0.value == h.data[0]
      && multiset(r.1.data) + multiset{r.0.value} == multiset(h.data)
      && Size(r.1) == Size(h) - 1
      && forall i :: 0 <= i < |h.data| ==> h.key(r.0.value) <= h.key(h.data[i])
  {
    if |h.data| == 0 then (None, h)
    else
      var moved := MoveLastToTop(h.data, h.key);
      SiftDownOrders(moved, 0, h.key);
      RootMinimal(h);
      (Some(h.data[0]), Heap(SiftDown(moved, 0, h.key), h.capacity, h.key))
  }

  /**
   * The first step of `pop`: the last live entry overwrites the top and its
   * old slot is released, which leaves heap order broken only at the top.
   */
  function MoveLastToTop<T>(a: seq<T>, key: T -> int): (r: seq<T>)
    requires |a| > 0 && HeapOrdered(a, |a|, key)
    ensures |r| == |a| - 1
    ensures multiset(r) + multiset{a[0]} == multiset(a)
    ensures HeapExceptDown(r, 0, key)
  {
    var n := |a| - 1;
    var r := a[0 := a[n]][..n];
    assert HeapExceptDown(r, 0, key) by {
      forall i, j | 0 <= i < j < n && (j - 1) / 2 == i && i != 0
        ensures key(r[i]) <= key(r[j])
      {
        assert r[i] == a[i] && r[j] == a[j];
      }
    }
    MoveLastMultiset(a);
    r
  }

  lemma MoveLastMultiset<T>(a: seq<T>)
    requires |a| > 0
    ensures multiset(a[0 := a[|a| - 1]][..|a| - 1]) + multiset{a[0]} == multiset(a)
  {
    var n := |a| - 1;
    var r := a[0 := a[n]][..n];
    if n > 0 {
      assert a == [a[0]] + a[1..n] + [a[n]];
      assert r == [a[n]] + a[1..n];
    }
  }

  // ------------------------------------------------------------- sequences

  /** Pushes every element of `xs` in turn. */
  function PushAll<T>(h: Heap<T>, xs: seq<T>): (r: Heap<T>)
    requires Valid(h) && h.capacity > 0
    ensures Valid(r) && r.key == h.key && r.capacity > 0
    ensures multiset(r.data) == multiset(h.data) + multiset(xs)
    decreases |xs|
  {
    if |xs| == 0 then h
    else
      var g := Push(h, xs[0]);
      assert g.Ok? && Valid(g.value) && g.value.capacity > 0;
      var r := PushAll(g.value, xs[1..]);
      assert multiset(g.value.data) == multiset(h.data) + multiset{xs[0]};
      MultisetOfFirst(xs);
      r
  }

  lemma MultisetOfFirst<T>(xs: seq<T>)
    requires |xs| > 0
    ensures multiset(xs) == multiset{xs[0]} + multiset(xs[1..])
  {
    assert xs == [xs[0]] + xs[1..];
  }

  /** Pops until the heap is empty (`while (!heap.isEmpty()) heap.pop()`). */
  function PopAll<T>(h: Heap<T>): (r: seq<T>)
    requires Valid(h)
    ensures multiset(r) == multiset(h.data)
    ensures SortedBy(r, h.key)
    decreases |h.data|
  {
    var p := Pop(h);
    if p.0.None? then []
    else
      var rest := PopAll(p.1);
      LowerBoundCarries(h.data, rest, p.0.value, h.key);
      SortedCons(p.0.value, rest, h.key);
      [p.0.value] + rest
  }

  lemma SortedCons<T>(x: T, s: seq<T>, key: T -> int)
    requires SortedBy(s, key) && forall k :: 0 <= k < |s| ==> key(x) <= key(s[k])
    ensures SortedBy([x] + s, key)
  {
    var t := [x] + s;
    forall i, j | 0 <= i < j < |t|
      ensures key(t[i]) <= key(t[j])
    {
      if i > 0 {
        assert t[i] == s[i - 1] && t[j] == s[j - 1];
      } else {
        assert t[j] == s[j - 1];
      }
    }
  }

  /** A lower bound of every entry is a lower bound of every entry of a sub-multiset. */
  lemma LowerBoundCarries<T>(a: seq<T>, b: seq<T>, x: T, key: T -> int)
    requires forall i :: 0 <= i < |a| ==> key(x) <= key(a[i])
    requires multiset(b) <= multiset(a)
    ensures forall k :: 0 <= k < |b| ==> key(x) <= key(b[k])
  {
    forall k | 0 <= k < |b|
      ensures key(x) <= key(b[k])
    {
      assert b[k] in multiset(b);
      assert b[k] in multiset(a);
      var i :| 0 <= i < |a| && a[i] == b[k];
    }
  }

  /**
   * Two sequences with the same elements, both sorted by a ranking that
   * `unkey` inverts (no ties between distinct elements), are equal.
   */
  lemma {:induction false} SortedUnique<T>(a: seq<T>, b: seq<T>, key: T -> int, unkey: int -> T)
    requires SortedBy(a, key) && SortedBy(b, key) && multiset(a) == multiset(b)
    requires forall x :: unkey(key(x)) == x
    ensures a == b
    decreases |a|
  {
    if |a| == 0 {
      assert |multiset(b)| == 0;
    } else {
      assert |b| > 0 by { assert |multiset(b)| == |a|; }
      SameHead(a, b, key, unkey);
      SameTail(a, b);
      SortedUnique(a[1..], b[1..], key, unkey);
    }
  }

  /** Sorted with the same elements and no ties: the first elements agree. */
  lemma SameHead<T>(a: seq<T>, b: seq<T>, key: T -> int, unkey: int -> T)
    requires |a| > 0 && |b| > 0
    requires SortedBy(a, key) && SortedBy(b, key) && multiset(a) == multiset(b)
    requires forall x :: unkey(key(x)) == x
    ensures a[0] == b[0]
  {
    assert a[0] in multiset(b);
    var k :| 0 <= k < |b| && b[k] == a[0];
    assert b[0] in multiset(a);
    var m :| 0 <= m < |a| && a[m] == b[0];
    assert key(a[0]) <= key(a[m]);
    assert key(b[0]) <= key(b[k]);
    assert unkey(key(a[0])) == unkey(key(b[0]));
  }

  /** Equal first elements and equal multisets: the rests have equal multisets. */
  lemma SameTail<T>(a: seq<T>, b: seq<T>)
    requires |a| > 0 && |b| > 0 && a[0] == b[0] && multiset(a) == multiset(b)
    ensures multiset(a[1..]) == multiset(b[1..])
  {
    assert a == [a[0]] + a[1..];
    assert b == [b[0]] + b[1..];
    assert multiset(a[1..]) == multiset(a) - multiset{a[0]};
    assert multiset(b[1..]) == multiset(b) - multiset{b[0]};
  }

  /** `0, 1, …, n-1`. */
  function Ascending(n: nat): (r: seq<int>)
    ensures |r| == n && forall i :: 0 <= i < n ==> r[i] == i
  {
    if n == 0 then [] else Ascending(n - 1) + [n - 1]
  }

  /** `n-1, …, 1, 0`. */
  function Descending(n: nat): (r: seq<int>)
    ensures |r| == n && forall i :: 0 <= i < n ==> r[i] == n - 1 - i
  {
    if n == 0 then [] else [n - 1] + Descending(n - 1)
  }

  lemma {:induction false} SameElements(n: nat)
    ensures multiset(Ascending(n)) == multiset(Descending(n))
  {
    if n > 0 {
      SameElements(n - 1);
    }
  }

  /** Pushes `xs` into a new heap, then pops until it is empty. */
  function PushThenPopAll<T>(xs: seq<T>, key: T -> int): (r: seq<T>)
    ensures SortedBy(r, key) && multiset(r) == multiset(xs)
  {
    PopAll(PushAll(New(key), xs))
  }

  /**
   * Pushing `xs` into a new heap and popping everything yields the one
   * arrangement of `xs` sorted by a ranking without ties.
   */
  lemma HeapOrdersAll<T>(key: T -> int, unkey: int -> T, xs: seq<T>, ys: seq<T>)
    requires forall x :: unkey(key(x)) == x
    requires SortedBy(ys, key) && multiset(ys) == multiset(xs)
    ensures PushThenPopAll(xs, key) == ys
  {
    SortedUnique(PushThenPopAll(xs, key), ys, key, unkey);
  }

  /** The ranking of the tests' comparator `o2 - o1`: larger integers first. */
  function LargerFirst(x: int): int { -x }

  /**
   * The heap scenario of the tests, for any count (they use 20): under
   * `o2 - o1`, pushing `0 .. n-1` into a new heap and popping everything
   * yields `n-1` down to `0`.
   */
  lemma MaxHeapScenario(xs: seq<int>)
    requires forall i :: 0 <= i < |xs| ==> xs[i] == i
    ensures PushThenPopAll(xs, LargerFirst) == Descending(|xs|)
  {
    CountingUp(xs);
    DescendingSorted(|xs|);
    HeapOrdersAll(LargerFirst, LargerFirst, xs, Descending(|xs|));
  }

  lemma CountingUp(xs: seq<int>)
    requires forall i :: 0 <= i < |xs| ==> xs[i] == i
    ensures multiset(xs) == multiset(Descending(|xs|))
  {
    assert xs == Ascending(|xs|);
    SameElements(|xs|);
  }

  lemma DescendingSorted(n: nat)
    ensures SortedBy(Descending(n), LargerFirst)
  {
    var d := Descending(n);
    forall i, j | 0 <= i < j < n
      ensures LargerFirst(d[i]) <= LargerFirst(d[j])
    {
    }
  }
}

=== FILE: bst.dfy ===
/**
 * The unbalanced binary search tree: `BSTNode.insert` with its helpers
 * `insertLeft`/`insertRight`, and `BinarySearchTree.insert`. Values are
 * compared with `compareTo`, modelled here by the order of integers (the
 * tree is used with `Integer` values).
 */
module BinarySearchTree {
  import opened Results

  /** A `BSTNode` and its children; a `null` child is `Nil`. */
  datatype Tree = Nil | Node(value: int, left: Tree, right: Tree)

  /** The values stored in a tree. */
  function Keys(t: Tree): set<int>
  {
    if t.Nil? then {} else Keys(t.left) + {t.value} + Keys(t.right)
  }

  /** The number of nodes of a tree. */
  function Size(t: Tree): nat
  {
    if t.Nil? then 0 else Size(t.left) + 1 + Size(t.right)
  }

  /** Search-tree order: smaller values to the left of every node, larger ones to its right. */
  predicate Ordered(t: Tree)
  {
    t.Nil? ||
    ((forall x :: x in Keys(t.left) ==> x < t.value) &&
     (forall x :: x in Keys(t.right) ==> t.value < x) &&
     Ordered(t.left) && Ordered(t.right))
  }

  /**
   * `BSTNode.insert`: descend by comparison and hang a new leaf where the
   * descent falls off the tree; meeting an equal value throws
   * `DuplicateKeyException`.
   */
  function InsertNode(n: Tree, v: int): (r: Result<Tree>)
    requires n.Node?
    ensures r.Err? ==> r.error == DuplicateKey && v in Keys(n)
    ensures r.Ok? ==> r.value.Node? && r.value.value == n.value
    ensures r.Ok? ==> Keys(r.value) == Keys(n) + {v} && Size(r.value) == Size(n) + 1
    ensures Ordered(n) ==> (r.Ok? <==> v !in Keys(n))
    ensures Ordered(n) && r.Ok? ==> Ordered(r.value)
    decreases n, 1
  {
    if v < n.value then InsertLeft(n, v)
    else if v > n.value then InsertRight(n, v)
    else Err(DuplicateKey)
  }

  /** `BSTNode.insertLeft`: a new leaf if the left child is `null`, otherwise insert into it. */
  function InsertLeft(n: Tree, v: int): (r: Result<Tree>)
    requires n.Node? && v < n.value
    ensures r.Err? ==> r.error == DuplicateKey && v in Keys(n.left)
    ensures r.Ok? ==> r.value.Node? && r.value == n.(left := r.value.left)
    ensures r.Ok? ==> Keys(r.value.left) == Keys(n.left) + {v} && Size(r.value.left) == Size(n.left) + 1
    ensures Ordered(n.left) ==> (r.Ok? <==> v !in Keys(n.left))
    ensures Ordered(n.left) && r.Ok? ==> Ordered(r.value.left)
    decreases n, 0
  {
    if n.left.Nil? then Ok(n.(left := Node(v, Nil, Nil)))
    else
      match InsertNode(n.left, v)
      case Ok(l) => Ok(n.(left := l))
      case Err(e) => Err(e)
  }

  /** `BSTNode.insertRight`: a new leaf if the right child is `null`, otherwise insert into it. */
  function InsertRight(n: Tree, v: int): (r: Result<Tree>)
    requires n.Node? && v > n.value
    ensures r.Err? ==> r.error == DuplicateKey && v in Keys(n.right)
    ensures r.Ok? ==> r.value.Node? && r.value == n.(right := r.value.right)
    ensures r.Ok? ==> Keys(r.value.right) == Keys(n.right) + {v} && Size(r.value.right) == Size(n.right) + 1
    ensures Ordered(n.right) ==> (r.Ok? <==> v !in Keys(n.right))
    ensures Ordered(n.right) && r.Ok? ==> Ordered(r.value.right)
    decreases n, 0
  {
    if n.right.Nil? then Ok(n.(right := Node(v, Nil, Nil)))
    else
      match InsertNode(n.right, v)
      case Ok(rt) => Ok(n.(right := rt))
      case Err(e) => Err(e)
  }

  /** `BinarySearchTree.insert`: an empty tree gets a one-node root; otherwise the root inserts. */
  function Insert(t: Tree, v: int): (r: Result<Tree>)
    ensures t.Nil? ==> r == Ok(Node(v, Nil, Nil))
    ensures r.Err? ==> r.error == DuplicateKey && v in Keys(t)
    ensures r.Ok? ==> Keys(r.value) == Keys(t) + {v} && Size(r.value) == Size(t) + 1
    ensures Ordered(t) ==> (r.Ok? <==> v !in Keys(t))
    ensures Ordered(t) && r.Ok? ==> Ordered(r.value)
  {
    if t.Nil? then Ok(Node(v, Nil, Nil)) else InsertNode(t, v)
  }

  /** The subtree reached from the root by `path` (`false` goes left, `true` right); `Nil` once it falls off. */
  function Subtree(t: Tree, path: seq<bool>): Tree
  {
    if |path| == 0 || t.Nil? then (if |path| == 0 then t else Nil)
    else Subtree(if path[0] then t.right else t.left, path[1..])
  }

  /** Every node of the old tree is still at the same place, holding the same value. */
  lemma {:induction false} InsertKeepsNodes(t: Tree, v: int, path: seq<bool>)
    requires Insert(t, v).Ok? && Subtree(t, path).Node?
    ensures Subtree(Insert(t, v).value, path).Node?
    ensures Subtree(Insert(t, v).value, path).value == Subtree(t, path).value
    decreases t
  {
    if |path| > 0 {
      if v < t.value {
        assert Insert(t, v) == InsertLeft(t, v);
        if !path[0] && t.left.Node? {
          InsertKeepsNodes(t.left, v, path[1..]);
        }
      } else {
        assert Insert(t, v) == InsertRight(t, v);
        if path[0] && t.right.Node? {
          InsertKeepsNodes(t.right, v, path[1..]);
        }
      }
    }
  }

  /** The inserted value is a new leaf, hung at a place where the old tree had no node. */
  lemma {:induction false} InsertAddsLeaf(t: Tree, v: int) returns (path: seq<bool>)
    requires Insert(t, v).Ok?
    ensures Subtree(t, path) == Nil
    ensures Subtree(Insert(t, v).value, path) == Node(v, Nil, Nil)
    decreases t
  {
    if t.Nil? {
      return [];
    }
    if v < t.value {
      assert Insert(t, v) == InsertLeft(t, v);
      var p := InsertAddsLeaf(t.left, v);
      path := [false] + p;
      assert path[1..] == p;
    } else {
      assert Insert(t, v) == InsertRight(t, v);
      var p := InsertAddsLeaf(t.right, v);
      path := [true] + p;
      assert path[1..] == p;
    }
  }

  /** The values `2, 4, 3, 1, 5` of the test driver, inserted in that order. */
  lemma TestDriverTree()
    ensures var t1 := Insert(Nil, 2).value;
      var t2 := Insert(t1, 4).value;
      var t3 := Insert(t2, 3).value;
      var t4 := Insert(t3, 1).value;
      Insert(t4, 5) == Ok(Node(2, Node(1, Nil, Nil), Node(4, Node(3, Nil, Nil), Node(5, Nil, Nil))))
  {
  }
}

=== FILE: functions.dfy ===
/** `util.Functions`: the in-place `swap` helper, and the frame it leaves. */
module Functions {

  /** `swap(array, a, b)`, applied to a value copy of the array. */
  function Swap<T>(s: seq<T>, a: int, b: int): (r: seq<T>)
    requires 0 <= a < |s| && 0 <= b < |s|
    ensures |r| == |s|
    ensures r[a] == s[b] && r[b] == s[a]
    ensures forall k :: 0 <= k < |s| && k != a && k != b ==> r[k] == s[k]
    ensures multiset(r) == multiset(s)
    ensures a == b ==> r == s
  {
    s[a := s[b]][b := s[a]]
  }

  /** Swapping the same pair twice restores the array. */
  lemma SwapTwice<T>(s: seq<T>, a: int, b: int)
    requires 0 <= a < |s| && 0 <= b < |s|
    ensures Swap(Swap(s, a, b), a, b) == s
  {
    var t := Swap(Swap(s, a, b), a, b);
    assert forall k :: 0 <= k < |s| ==> t[k] == s[k];
  }

  /**
   * `r` is `s` with only the slice `[lo, hi]` (both ends included)
   * rearranged: the frame every in-place algorithm of the core keeps.
   */
  ghost predicate Permutes<T>(s: seq<T>, r: seq<T>, lo: int, hi: int)
  {
    && |r| == |s|
    && (forall k :: 0 <= k < |s| && !(lo <= k <= hi) ==> r[k] == s[k])
    && multiset(r) == multiset(s)
  }

  /** A swap of two indices inside `[lo, hi]` only rearranges that slice. */
  lemma SwapPermutes<T>(s: seq<T>, a: int, b: int, lo: int, hi: int)
    requires 0 <= a < |s| && 0 <= b < |s|
    requires lo <= a <= hi && lo <= b <= hi
    ensures Permutes(s, Swap(s, a, b), lo, hi)
  {
  }

  /** Rearranging a slice, then a slice of a wider range, rearranges the wider range. */
  lemma PermutesTrans<T>(s: seq<T>, t: seq<T>, u: seq<T>, lo: int, hi: int, lo': int, hi': int)
    requires Permutes(s, t, lo, hi) && Permutes(t, u, lo', hi')
    requires lo' <= lo && hi <= hi'
    ensures Permutes(s, u, lo', hi')
  {
  }

  /** Rearranging `[lo, hi]` keeps the multiset of that slice. */
  lemma {:induction false} PermutesSlice<T>(s: seq<T>, r: seq<T>, lo: int, hi: int)
    requires 0 <= lo && hi < |s|
    requires Permutes(s, r, lo, hi)
    ensures lo <= hi + 1 ==> multiset(r[lo..hi + 1]) == multiset(s[lo..hi + 1])
  {
    if lo <= hi + 1 {
      assert s == s[..lo] + s[lo..hi + 1] + s[hi + 1..];
      assert r == r[..lo] + r[lo..hi + 1] + r[hi + 1..];
      assert r[..lo] == s[..lo];
      assert r[hi + 1..] == s[hi + 1..];
      assert multiset(s) == multiset(s[..lo]) + multiset(s[lo..hi + 1]) + multiset(s[hi + 1..]);
      assert multiset(r) == multiset(r[..lo]) + multiset(r[lo..hi + 1]) + multiset(r[hi + 1..]);
      assert multiset(r[lo..hi + 1]) == multiset(r) - multiset(r[..lo]) - multiset(r[hi + 1..]);
      assert multiset(s[lo..hi + 1]) == multiset(s) - multiset(s[..lo]) - multiset(s[hi + 1..]);
    }
  }

  /** Every element of a rearranged slice comes from the same slice of the original. */
  lemma PermutedFrom<T>(s: seq<T>, r: seq<T>, lo: int, hi: int, j: int) returns (i: int)
    requires 0 <= lo <= j <= hi < |s|
    requires Permutes(s, r, lo, hi)
    ensures lo <= i <= hi && r[j] == s[i]
  {
    PermutesSlice(s, r, lo, hi);
    assert r[j] == r[lo..hi + 1][j - lo];
    assert r[j] in multiset(s[lo..hi + 1]);
    var i' :| 0 <= i' < hi + 1 - lo && s[lo..hi + 1][i'] == r[j];
    i := lo + i';
  }

  /** A slice is its part before `m`, the element at `m`, and its part after `m`. */
  lemma SliceAround<T>(a: seq<T>, s: int, m: int, e: int)
    requires 0 <= s <= m <= e < |a|
    ensures a[s..e + 1] == a[s..m] + [a[m]] + a[m + 1..e + 1]
    ensures multiset(a[s..e + 1]) == multiset(a[s..m]) + multiset{a[m]} + multiset(a[m + 1..e + 1])
  {
    assert a[s..e + 1] == a[s..m] + [a[m]] + a[m + 1..e + 1];
  }
}

=== FILE: int32.dfy ===
/**
 * Java's 32-bit `int`: arithmetic wraps around modulo 2^32 into the
 * two's-complement range.
 */
module Int32 {

  const Modulus: int := 0x1_0000_0000
  const Min: int := -0x8000_0000
  const Max: int := 0x7FFF_FFFF

  /** The `int` that Java's arithmetic leaves for the mathematical value `x`. */
  function Wrap(x: int): (r: int)
    ensures Min <= r <= Max
    ensures (x - r) % Modulus == 0
    ensures Min <= x <= Max ==> r == x
  {
    var m := x % Modulus;
    if m > Max then m - Modulus else m
  }

  /** Sums and differences of multiples of `2^32` are multiples of `2^32`. */
  lemma Multiples(a: int, b: int)
    requires a % Modulus == 0 && b % Modulus == 0
    ensures (a + b) % Modulus == 0 && (a - b) % Modulus == 0
  {
    var ka, kb := a / Modulus, b / Modulus;
    assert a + b == (ka + kb) * Modulus;
    assert a - b == (ka - kb) * Modulus;
  }

  /** `Wrap` is the only value in range congruent to `x`. */
  lemma WrapUnique(x: int, r: int)
    requires Min <= r <= Max && (x - r) % Modulus == 0
    ensures r == Wrap(x)
  {
    var w := Wrap(x);
    Multiples(x - w, x - r);
    assert r - w == (x - w) - (x - r);
  }

  /**
   * Wrapping after every addition, as Java does, is wrapping once at the
   * end: adding `y` to the wrapped `x` gives the wrapped `x + y`.
   */
  lemma {:induction false} WrapAdd(x: int, y: int)
    ensures Wrap(Wrap(x) + y) == Wrap(x + y)
  {
    var w := Wrap(x);
    var v := Wrap(w + y);
    Multiples(x - w, (w + y) - v);
    assert (x + y) - v == (x - w) + ((w + y) - v);
    WrapUnique(x + y, v);
  }
}

=== FILE: kd_data.dfy ===
/**
 * `datastructures.KDData`: a point with integer coordinates. Coordinates
 * are `double`s in Java; here they are integers, and `distance` is the
 * squared Euclidean distance, which orders points exactly as the Java
 * square root of it does.
 */
module KDData {
  import opened Order
  import opened Results

  type Point = seq<int>

  /** `get(d)`: coordinate `d`, out of bounds past the last one. */
  function Get(p: Point, d: int): (r: Result<int>)
    ensures r.Ok? <==> 0 <= d < |p|
    ensures r.Ok? ==> r.value == p[d]
    ensures r.Err? ==> r.error == ArrayIndexOutOfBounds
  {
    if 0 <= d < |p| then Ok(p[d]) else Err(ArrayIndexOutOfBounds)
  }

  /** `length()`: the number of coordinates. */
  function Length(p: Point): (n: nat)
    ensures forall d :: 0 <= d < n <==> Get(p, d).Ok?
  {
    |p|
  }

  /**
   * The ranking behind `DimensionComparator(d)`: coordinate `d` (points
   * that lack it are never compared by the tree).
   */
  function Coord(d: nat): Point -> int
  {
    p => if d < |p| then p[d] else 0
  }

  /** `new DimensionComparator(d).compare(o1, o2)`: the sign of `o1[d] - o2[d]`. */
  function DimensionCompare(d: nat, o1: Point, o2: Point): (c: int)
    requires d < |o1| && d < |o2|
    ensures c == -1 || c == 0 || c == 1
    ensures c < 0 <==> o1[d] < o2[d]
    ensures c == 0 <==> o1[d] == o2[d]
    ensures c > 0 <==> o1[d] > o2[d]
  {
    Compare(Coord(d), o1, o2)
  }

  /** The comparator is the total preorder partitioning relies on. */
  lemma DimensionCompareIsPreorder(d: nat, x: Point, y: Point, z: Point)
    requires d < |x| && d < |y| && d < |z|
    ensures DimensionCompare(d, x, x) == 0
    ensures DimensionCompare(d, x, y) == -DimensionCompare(d, y, x)
    ensures DimensionCompare(d, x, y) <= 0 && DimensionCompare(d, y, z) <= 0 ==> DimensionCompare(d, x, z) <= 0
  {
  }

  /** Sum of the squared differences of the first `n` coordinates. */
  function SumSq(p: Point, q: Point, n: nat): (r: nat)
    requires n <= |p| && n <= |q|
  {
    if n == 0 then 0 else SumSq(p, q, n - 1) + (p[n - 1] - q[n - 1]) * (p[n - 1] - q[n - 1])
  }

  /**
   * `p.distance(q)`, squared: the loop runs over the coordinates of `p`
   * and reads the same coordinate of `q`, out of bounds when `q` is shorter.
   */
  function Distance(p: Point, q: Point): (r: Result<nat>)
    ensures r.Ok? <==> |p| <= |q|
    ensures r.Err? ==> r.error == ArrayIndexOutOfBounds
    ensures r.Ok? ==> (r.value == 0 <==> p == q[..|p|])
  {
    if |p| <= |q| then
      SumSqZero(p, q, |p|);
      Ok(SumSq(p, q, |p|))
    else Err(ArrayIndexOutOfBounds)
  }

  lemma {:induction false} SumSqZero(p: Point, q: Point, n: nat)
    requires n <= |p| && n <= |q|
    ensures SumSq(p, q, n) == 0 <==> p[..n] == q[..n]
  {
    if n > 0 {
      SumSqZero(p, q, n - 1);
      var x := p[n - 1] - q[n - 1];
      assert x * x >= 0;
      assert x * x == 0 <==> x == 0;
      assert p[..n] == p[..n - 1] + [p[n - 1]] && q[..n] == q[..n - 1] + [q[n - 1]];
      if p[..n] == q[..n] {
        assert p[..n - 1] == p[..n][..n - 1];
        assert q[..n - 1] == q[..n][..n - 1];
      }
    }
  }

  lemma {:induction false} SumSqSymmetric(p: Point, q: Point, n: nat)
    requires n <= |p| && n <= |q|
    ensures SumSq(p, q, n) == SumSq(q, p, n)
  {
    if n > 0 {
      SumSqSymmetric(p, q, n - 1);
      assert (p[n - 1] - q[n - 1]) * (p[n - 1] - q[n - 1]) == (q[n - 1] - p[n - 1]) * (q[n - 1] - p[n - 1]);
    }
  }

  /** Distance is zero from a point to itself and symmetric between points of one length. */
  lemma DistanceIsSymmetric(p: Point, q: Point)
    requires |p| == |q|
    ensures Distance(p, p) == Ok(0)
    ensures Distance(p, q) == Distance(q, p)
  {
    assert p == p[..|p|];
    SumSqSymmetric(p, q, |p|);
  }
}

=== FILE: kd_scenarios.dfy ===
/**
 * Two small inputs on which the KD tree does what its code says rather than
 * what its documentation suggests: the median split is not guaranteed (it
 * rests on `nth_element`), and a node with only a left child is searched
 * twice when the query falls on its left.
 */
module KDScenarios {
  import opened Order
  import opened Functions
  import opened Results
  import opened KDData
  import opened KDTree
  import Partition

  /**
   * One-dimensional points `3, 1, 2`: `nth_element` leaves `1` at the median
   * index, so the root holds `1` and its left child `2`, which is larger.
   */
  lemma BuildNotSeparated(a: seq<Point>)
    requires a == [[3], [1], [2]]
    ensures var t := Build(a, 0, 2, 0, 1).1;
      && t.Node? && t.point == [1]
      && Points(t.left) == multiset{[2]} && Points(t.right) == multiset{[3]}
      && Coord(0)(t.point) < Coord(0)([2])
  {
    var a1 := ThreeSplit(a);
    ThreeRoot(a, a1);
    ThreeLeft(a, a1);
    ThreeRight(a, a1);
  }

  lemma ThreeSplit(a: seq<Point>) returns (a1: seq<Point>)
    requires a == [[3], [1], [2]]
    ensures Uniform(a, 1) && a1 == [[2], [1], [3]]
    ensures Split(a, 0, 2, Axis(0, 1)) == (a1, 1)
  {
    assert |a[0]| == |a[1]| == |a[2]| == 1;
    a1 := [[2], [1], [3]];
    SplitOfThree(a, a1);
    assert Axis(0, 1) == 0;
  }

  lemma ThreeRoot(a: seq<Point>, a1: seq<Point>)
    requires Uniform(a, 1) && |a| == 3 && a1 == [[2], [1], [3]] && Split(a, 0, 2, Axis(0, 1)) == (a1, 1)
    ensures Build(a, 0, 2, 0, 1).1.Node? && Build(a, 0, 2, 0, 1).1.point == [1]
  {
  }

  lemma ThreeLeft(a: seq<Point>, a1: seq<Point>)
    requires Uniform(a, 1) && |a| == 3 && a1 == [[2], [1], [3]] && Split(a, 0, 2, Axis(0, 1)) == (a1, 1)
    ensures Build(a, 0, 2, 0, 1).1.Node? && Points(Build(a, 0, 2, 0, 1).1.left) == multiset{[2]}
  {
    OneSlice(a1, 0);
  }

  lemma ThreeRight(a: seq<Point>, a1: seq<Point>)
    requires Uniform(a, 1) && |a| == 3 && a1 == [[2], [1], [3]] && Split(a, 0, 2, Axis(0, 1)) == (a1, 1)
    ensures Build(a, 0, 2, 0, 1).1.Node? && Points(Build(a, 0, 2, 0, 1).1.right) == multiset{[3]}
  {
    OneSlice(a1, 2);
  }

  /** The slice holding only index `i`, on either side of a split. */
  lemma OneSlice<T>(b: seq<T>, i: int)
    requires 0 <= i < |b|
    ensures multiset(b[i..i + 1]) == multiset{b[i]}
    ensures i > 0 ==> After(b, i - 1, i) == multiset{b[i]}
  {
    assert b[i..i + 1] == [b[i]];
  }

  /** The first split of `3, 1, 2`: `nth_element` gives `2, 1, 3` and no tie moves the median. */
  lemma SplitOfThree(a: seq<Point>, b: seq<Point>)
    requires a == [[3], [1], [2]] && b == [[2], [1], [3]]
    ensures Split(a, 0, 2, 0) == (b, 1)
  {
    var key := Coord(0);
    NthOfThree(a, b);
    assert TiePass(b, 1, 3, 2, key) == (b, 1);
    assert TiePass(b, 1, 2, 2, key) == (b, 1);
  }

  /** `nth_element` for the middle index of `3, 1, 2`: one Hoare round around the median `2`. */
  lemma NthOfThree(a: seq<Point>, b: seq<Point>)
    requires a == [[3], [1], [2]] && b == [[2], [1], [3]]
    ensures Partition.NthElement(a, 0, 2, 1, Coord(0)) == b
  {
    var key := Coord(0);
    var p: Point := [2];
    assert Partition.MedianOfThree(a[0], a[1], a[2], key) == p;
    assert Partition.ScanUp(a, -1, 2, p, key) == 0;
    assert Partition.ScanDown(a, 3, 0, p, key) == 2;
    assert Swap(a, 0, 2) == b;
    assert Partition.ScanUp(b, 0, 2, p, key) == 2;
    assert Partition.ScanDown(b, 2, 0, p, key) == 1;
    assert Partition.HoareLoop(b, 0, 2, p, key, 0, 2) == (b, 1);
    assert Partition.HoareLoop(a, 0, 2, p, key, -1, 3) == (b, 1);
    assert Partition.NthLoop(a, 0, 2, 1, 0, 2, key) == b;
  }

  /** A one-point slice becomes a leaf holding that point. */
  lemma LeafOf(a: seq<Point>, i: int, d: nat, k: nat)
    requires d < k && 0 <= i < |a| && Uniform(a, k)
    ensures Build(a, i, i, d, k).1 == Node(a[i], d, Nil, Nil)
  {
    var key := Coord(Axis(d, k));
    assert Partition.NthElement(a, i, i, i, key) == a;
    assert TiePass(a, i, i + 1, i, key) == (a, i);
    assert Split(a, i, i, Axis(d, k)) == (a, i);
    assert Build(a, i, i - 1, NextAxis(d, k), k) == (a, Nil);
  }

  /**
   * Points `(5, 1), (5, 2)`: the tie pass puts `(5, 1)` at the root with
   * `(5, 2)` as its only, left, child. A query `(5, 3)` for two neighbours
   * searches that child twice, so the result holds `(5, 2)` twice and misses
   * `(5, 1)`, although the tree has exactly two points.
   */
  lemma SearchRevisitsLeftChild()
    ensures Build([[5, 1], [5, 2]], 0, 1, 0, 2).1 == Node([5, 1], 0, Node([5, 2], 1, Nil, Nil), Nil)
    ensures var t := Build([[5, 1], [5, 2]], 0, 1, 0, 2).1;
      && Revisits(t, [5, 3])
      && FindKNearest(t, [5, 3], [[0, 0], [0, 0]]) == Ok([[5, 2], [5, 2]])
  {
    var t := TieTree([[5, 1], [5, 2]]);
    var q: Point := [5, 3];
    var result: seq<Point> := [[0, 0], [0, 0]];
    var c1 := Candidate([5, 2], 1);
    var offered := TieOffers(t, q);
    FindKNearestFails(t, q, result, 2);
    FindKNearestFinds(t, q, result, 2);
    var out := FindKNearest(t, q, result).value;
    var cs :| NearestWritten(out, result, offered, cs);
    TieWritten(out, result, offered, cs);
  }

  /** The only way to write the two nearest of the offers of the tie tree. */
  lemma TieWritten(out: seq<Point>, result: seq<Point>, offered: seq<Candidate>, cs: seq<Candidate>)
    requires offered == [Candidate([5, 2], 1), Candidate([5, 2], 1), Candidate([5, 1], 4)]
    requires |result| == 2 && NearestWritten(out, result, offered, cs)
    ensures out == [[5, 2], [5, 2]]
  {
    var p: Point := [5, 2];
    var c1 := Candidate(p, 1);
    TwoNearest(multiset(cs), c1, Candidate([5, 1], 4));
    OnlyOne(cs, c1);
    var o0 := WrittenAt(out, result, offered, cs, 1);
    var o1 := WrittenAt(out, result, offered, cs, 0);
    PairOf(out, p);
  }

  /** What the search of the tie tree offers: its left leaf twice, then its root. */
  lemma TieOffers(t: Tree, q: Point) returns (offered: seq<Candidate>)
    requires t == Node([5, 1], 0, Node([5, 2], 1, Nil, Nil), Nil) && q == [5, 3]
    ensures offered == Offers(t, q, 2) == [Candidate([5, 2], 1), Candidate([5, 2], 1), Candidate([5, 1], 4)]
    ensures Revisits(t, q) && !Stuck(t, q)
  {
    var c1 := Candidate([5, 2], 1);
    var c4 := Candidate([5, 1], 4);
    var leaf := Node([5, 2], 1, Nil, Nil);
    assert Near(t, q) == leaf && Far(t, q) == leaf;
    DistancesToQuery();
    assert Offers(leaf, q, 2) == [c1];
    OffersInner(t, q, 2);
    offered := [c1, c1, c4];
  }

  lemma DistancesToQuery()
    ensures Distance([5, 2], [5, 3]) == Ok(1) && Distance([5, 1], [5, 3]) == Ok(4)
  {
    assert SumSq([5, 2], [5, 3], 1) == 0;
    assert SumSq([5, 1], [5, 3], 1) == 0;
  }

  /** Slot `|result| - 1 - i` of a written result holds the point of `cs[i]`. */
  lemma WrittenAt(out: seq<Point>, result: seq<Point>, offered: seq<Candidate>, cs: seq<Candidate>, i: int) returns (p: Point)
    requires NearestWritten(out, result, offered, cs) && 0 <= i < |cs|
    ensures |out| == |result| && 0 <= |result| - 1 - i < |out|
    ensures p == out[|result| - 1 - i] == cs[i].point
  {
    p := out[|result| - 1 - i];
  }

  /** A two-element sequence with `x` at both indices. */
  lemma PairOf<T>(s: seq<T>, x: T)
    requires |s| == 2 && s[0] == x && s[1] == x
    ensures s == [x, x]
  {
  }

  /** The tree of `(5, 1), (5, 2)`. */
  lemma TieTree(a: seq<Point>) returns (t: Tree)
    requires a == [[5, 1], [5, 2]]
    ensures t == Build(a, 0, 1, 0, 2).1
    ensures t == Node([5, 1], 0, Node([5, 2], 1, Nil, Nil), Nil)
  {
    var b: seq<Point> := [[5, 2], [5, 1]];
    TieSplit(a, b);
    BuildUnfold(a, 0, 1, 0, 2, b, 1);
    BuildAtLastMedian(a, b, 0, 1, 0, 2);
    LeafOf(b, 0, 1, 2);
    t := Build(a, 0, 1, 0, 2).1;
  }

  /** A non-empty slice is built by splitting it and building around the split. */
  lemma BuildUnfold(a: seq<Point>, s: int, e: int, d: nat, k: nat, b: seq<Point>, m: int)
    requires d < k && 0 <= s <= e < |a| && Uniform(a, k)
    requires Split(a, s, e, Axis(d, k)) == (b, m)
    ensures s <= m <= e && Permutes(a, b, s, e) && Uniform(b, k)
    ensures Build(a, s, e, d, k) == BuildAt(a, b, s, m, e, d, k)
  {
    PermutesUniform(a, b, s, e, k);
  }

  /** When the split moves the median to the end of the slice, the node has no right child. */
  lemma BuildAtLastMedian(a: seq<Point>, b: seq<Point>, s: int, e: int, d: nat, k: nat)
    requires d < k && 0 <= s <= e < |a|
    requires Permutes(a, b, s, e) && Uniform(b, k)
    ensures BuildAt(a, b, s, e, e, d, k).1 == Node(b[e], d, Build(b, s, e - 1, NextAxis(d, k), k).1, Nil)
  {
    var left := Build(b, s, e - 1, NextAxis(d, k), k);
    assert Build(left.0, e + 1, e, NextAxis(d, k), k).1 == Nil;
  }

  /** Median selection swaps the two points; the tie pass then moves the median to index 1. */
  lemma TieSplit(a: seq<Point>, b: seq<Point>)
    requires a == [[5, 1], [5, 2]] && b == [[5, 2], [5, 1]]
    ensures Split(a, 0, 1, 0) == (b, 1)
  {
    var key := Coord(0);
    TieNth(a, b);
    assert Swap(b, 1, 1) == b;
    assert TiePass(b, 1, 2, 1, key) == (b, 1);
    assert TiePass(b, 0, 1, 1, key) == (b, 1);
  }

  /** `nth_element` for index 0 of two points tied on axis 0 swaps them. */
  lemma TieNth(a: seq<Point>, b: seq<Point>)
    requires a == [[5, 1], [5, 2]] && b == [[5, 2], [5, 1]]
    ensures Partition.NthElement(a, 0, 1, 0, Coord(0)) == b
  {
    var key := Coord(0);
    var p: Point := [5, 1];
    assert Partition.MedianOfThree(a[0], a[0], a[1], key) == p;
    assert Partition.ScanUp(a, -1, 1, p, key) == 0;
    assert Partition.ScanDown(a, 2, 0, p, key) == 1;
    assert Swap(a, 0, 1) == b;
    assert Partition.ScanUp(b, 0, 1, p, key) == 1;
    assert Partition.ScanDown(b, 1, 0, p, key) == 0;
    assert Partition.HoareLoop(a, 0, 1, p, key, -1, 2) == (b, 0);
    assert Partition.NthLoop(a, 0, 1, 0, 0, 1, key) == b;
  }

  /** Of two copies of `c1` and one farther `c4`, the two nearest are the copies of `c1`. */
  lemma TwoNearest(kept: multiset<Candidate>, c1: Candidate, c4: Candidate)
    requires c1.distance < c4.distance
    requires KeepsNearest(kept, multiset{c1, c1, c4}, 2)
    ensures kept == multiset{c1, c1}
  {
    var offered := multiset{c1, c1, c4};
    var dropped := offered - kept;
    assert offered == kept + dropped;
    assert |dropped| == 1;
    var y :| y in dropped;
    assert dropped == multiset{y} by {
      assert dropped == (dropped - multiset{y}) + multiset{y};
      assert |dropped - multiset{y}| == 0;
    }
    assert y == c4;
  }

  /** A sequence whose multiset is two copies of `c` is `[c, c]`. */
  lemma OnlyOne(cs: seq<Candidate>, c: Candidate)
    requires multiset(cs) == multiset{c, c}
    ensures cs == [c, c]
  {
    assert |cs| == 2;
    assert cs[0] in multiset(cs) && cs[1] in multiset(cs);
  }
}

=== FILE: kd_tree.dfy ===
/**
 * `datastructures.KDTree`: construction by median splits on a rotating
 * axis, and k-nearest-neighbour search with a bounded max-heap. Parent
 * links and node objects become an immutable tree; the points array is a
 * value that construction returns rearranged.
 */
module KDTree {
  import opened Order
  import opened Functions
  import opened Results
  import opened KDData
  import Partition
  import BinaryHeap

  /** A `KDNode` (or `null`): the point it holds, the axis it splits on, and its children. */
  datatype Tree = Nil | Node(point: Point, dim: nat, left: Tree, right: Tree)

  /** The points held in a subtree. */
  function Points(t: Tree): multiset<Point>
  {
    match t
    case Nil => multiset{}
    case Node(p, _, l, r) => multiset{p} + Points(l) + Points(r)
  }

  /** The number of nodes. */
  function Count(t: Tree): nat
  {
    match t
    case Nil => 0
    case Node(_, _, l, r) => 1 + Count(l) + Count(r)
  }

  lemma {:induction false} CountIsPoints(t: Tree)
    ensures Count(t) == |Points(t)|
  {
    match t
    case Nil =>
    case Node(_, _, l, r) =>
      CountIsPoints(l);
      CountIsPoints(r);
  }

  /** Every point has `k` coordinates. */
  predicate Uniform(points: seq<Point>, k: nat)
  {
    forall i :: 0 <= i < |points| ==> |points[i]| == k
  }

  /** Every node splits on an axis below `k` and holds a point with `k` coordinates. */
  predicate WellFormed(t: Tree, k: nat)
  {
    match t
    case Nil => true
    case Node(p, d, l, r) => |p| == k && d < k && WellFormed(l, k) && WellFormed(r, k)
  }

  // ---------------------------------------------------------- construction

  /**
   * The post-pass of `createNode`: scan `(m, e]` and move every point that
   * ties `points[m]` on the axis to `m + 1`, advancing `m` to it.
   */
  function TiePass<T>(a: seq<T>, m: int, i: int, e: int, key: T -> int): (r: (seq<T>, int))
    requires 0 <= m < i <= e + 1 <= |a|
    requires forall j :: m < j < i ==> key(a[j]) != key(a[m])
    ensures m <= r.1 <= e
    ensures Permutes(a, r.0, m + 1, e)
    ensures forall j :: m <= j <= r.1 ==> key(r.0[j]) == key(a[m])
    ensures forall j :: r.1 < j <= e ==> key(r.0[j]) != key(a[m])
    decreases e + 1 - i
  {
    if i > e then (a, m)
    else if Compare(key, a[i], a[m]) == 0 then
      var b := Swap(a, m + 1, i);
      TieSwap(a, m, i, e, key);
      var r := TiePass(b, m + 1, i + 1, e, key);
      TieLifted(a, b, r, m, e, key);
      r
    else
      TiePass(a, m, i + 1, e, key)
  }

  /** Swapping a tie to `m + 1` extends the run of ties and keeps the scanned part free of them. */
  lemma TieSwap<T>(a: seq<T>, m: int, i: int, e: int, key: T -> int)
    requires 0 <= m < i <= e < |a|
    requires forall j :: m < j < i ==> key(a[j]) != key(a[m])
    requires key(a[i]) == key(a[m])
    ensures var b := Swap(a, m + 1, i);
      && b[m] == a[m] && key(b[m + 1]) == key(a[m])
      && (forall j :: m + 1 < j < i + 1 ==> key(b[j]) != key(b[m + 1]))
      && Permutes(a, b, m + 1, e)
  {
    SwapPermutes(a, m + 1, i, m + 1, e);
  }

  /** The pass continued from `m + 1` after a swap is the pass from `m`. */
  lemma TieLifted<T>(a: seq<T>, b: seq<T>, r: (seq<T>, int), m: int, e: int, key: T -> int)
    requires 0 <= m < e < |a|
    requires Permutes(a, b, m + 1, e) && b[m] == a[m] && key(b[m + 1]) == key(a[m])
    requires m + 1 <= r.1 <= e && Permutes(b, r.0, m + 2, e)
    requires forall j :: m + 1 <= j <= r.1 ==> key(r.0[j]) == key(b[m + 1])
    requires forall j :: r.1 < j <= e ==> key(r.0[j]) != key(b[m + 1])
    ensures m <= r.1 <= e && Permutes(a, r.0, m + 1, e)
    ensures forall j :: m <= j <= r.1 ==> key(r.0[j]) == key(a[m])
    ensures forall j :: r.1 < j <= e ==> key(r.0[j]) != key(a[m])
  {
    PermutesTrans(a, b, r.0, m + 1, e, m + 1, e);
  }

  /**
   * The first half of `createNode`: `nth_element` on the median index
   * `(s + e) / 2` of `[s, e]` under `DimensionComparator(dim)`, then the
   * tie post-pass. Returns the rearranged points and the node's index.
   */
  function Split(a: seq<Point>, s: int, e: int, dim: nat): (r: (seq<Point>, int))
    requires 0 <= s <= e < |a|
    ensures s <= (s + e) / 2 <= r.1 <= e
    ensures Permutes(a, r.0, s, e)
    ensures forall j :: r.1 < j <= e ==> Coord(dim)(r.0[j]) != Coord(dim)(r.0[r.1])
  {
    var m := (s + e) / 2;
    var key := Coord(dim);
    var a1 := Partition.NthElement(a, s, e, m, key);
    var t := TiePass(a1, m, m + 1, e, key);
    PermutesTrans(a, a1, t.0, s, e, s, e);
    t
  }

  /** `d % k`: the axis a node labelled `d` compares on. */
  function Axis(d: nat, k: nat): (r: nat)
    requires d < k
    ensures r == d
  {
    d % k
  }

  /** `(d + 1) % k`: the label of a node's children, wrapping to 0 after the last axis. */
  function NextAxis(d: nat, k: nat): (r: nat)
    requires d < k
    ensures r < k && (r == 0 <==> d + 1 == k) && (r != 0 ==> r == d + 1)
  {
    (d + 1) % k
  }

  /**
   * `createNode(points, s, e, d)` for points with `k >= 1` coordinates: the
   * median index of `[s, e]` on axis `d % k` is placed by `nth_element`,
   * ties are moved after it, the point at the (advanced) median becomes the
   * node, and the two sides are built on the next axis.
   */
  function Build(a: seq<Point>, s: int, e: int, d: nat, k: nat): (r: (seq<Point>, Tree))
    requires d < k && 0 <= s <= e + 1 <= |a|
    requires Uniform(a, k)
    ensures Permutes(a, r.0, s, e) && Uniform(r.0, k)
    ensures r.1 == Nil <==> s > e
    ensures Points(r.1) == multiset(r.0[s..e + 1])
    ensures WellFormed(r.1, k)
    ensures r.1.Node? ==> r.1.dim == d && r.1.point in multiset(a[s..e + 1])
    ensures r.1.Node? ==> var sp := Split(a, s, e, Axis(d, k));
      && r.1.point == sp.0[sp.1]
      && Points(r.1.left) == multiset(sp.0[s..sp.1])
      && Points(r.1.right) == After(sp.0, sp.1, e)
    decreases e - s + 1, 1
  {
    if s > e then (a, Nil)
    else
      var t := Split(a, s, e, Axis(d, k));
      PermutesUniform(a, t.0, s, e, k);
      var r := BuildAt(a, t.0, s, t.1, e, d, k);
      assert Points(r.1.right) == After(t.0, t.1, e);
      r
  }

  /**
   * The second half of `createNode`, once the split has put the node's
   * point at index `m` of `a2`: the node, with the sides `[s, m)` and
   * `(m, e]` built on the next axis.
   */
  function BuildAt(a: seq<Point>, a2: seq<Point>, s: int, m: int, e: int, d: nat, k: nat): (r: (seq<Point>, Tree))
    requires d < k && 0 <= s <= m <= e < |a|
    requires Permutes(a, a2, s, e) && Uniform(a2, k)
    ensures Permutes(a, r.0, s, e) && Uniform(r.0, k)
    ensures r.1.Node? && r.1.dim == d && r.1.point == a2[m] && r.1.point in multiset(a[s..e + 1])
    ensures Points(r.1) == multiset(r.0[s..e + 1])
    ensures WellFormed(r.1, k)
    ensures Points(r.1.left) == multiset(a2[s..m]) && Points(r.1.right) == After(a2, m, e)
    decreases e - s + 1, 0
  {
    var left := Build(a2, s, m - 1, NextAxis(d, k), k);
    var a3 := left.0;
    var right := Build(a3, m + 1, e, NextAxis(d, k), k);
    var a4 := right.0;
    PermutesTrans(a2, a3, a4, s, m - 1, s, e);
    PermutesTrans(a, a2, a4, s, e, s, e);
    BuildAssembles(a2, a3, a4, s, m, e, left.1, right.1);
    SidesKept(a2, a3, a4, s, m, e);
    FromSlice(a, a2, s, m, e);
    (a4, Node(a2[m], d, left.1, right.1))
  }

  /** The points of `b` after index `m`, up to `e`: the right side of a split. */
  function After<T>(b: seq<T>, m: int, e: int): multiset<T>
    requires 0 <= m <= e < |b|
  {
    multiset(b[m + 1..e + 1])
  }

  /** Building one side leaves the points of the other side where the split put them. */
  lemma SidesKept<T>(a2: seq<T>, a3: seq<T>, a4: seq<T>, s: int, m: int, e: int)
    requires 0 <= s <= m <= e < |a2|
    requires Permutes(a2, a3, s, m - 1) && Permutes(a3, a4, m + 1, e)
    ensures multiset(a3[s..m]) == multiset(a2[s..m])
    ensures multiset(a4[m + 1..e + 1]) == multiset(a2[m + 1..e + 1])
  {
    PermutesSlice(a2, a3, s, m - 1);
    PermutesSlice(a3, a4, m + 1, e);
    assert a3[m + 1..e + 1] == a2[m + 1..e + 1];
  }

  /** Rearranging a slice keeps every point's number of coordinates. */
  lemma PermutesUniform(a: seq<Point>, b: seq<Point>, lo: int, hi: int, k: nat)
    requires Permutes(a, b, lo, hi) && Uniform(a, k)
    ensures Uniform(b, k)
  {
    forall i | 0 <= i < |b|
      ensures |b[i]| == k
    {
      assert b[i] in multiset(a);
      var j :| 0 <= j < |a| && a[j] == b[i];
    }
  }

  /** The node's point and its two sides account for the whole of `[s, e]`. */
  lemma BuildAssembles(a2: seq<Point>, a3: seq<Point>, a4: seq<Point>, s: int, m: int, e: int, l: Tree, r: Tree)
    requires 0 <= s <= m <= e < |a2|
    requires Permutes(a2, a3, s, m - 1) && Permutes(a3, a4, m + 1, e)
    requires Points(l) == multiset(a3[s..m]) && Points(r) == multiset(a4[m + 1..e + 1])
    ensures Points(Node(a2[m], 0, l, r)) == multiset(a4[s..e + 1])
  {
    SlicesAssemble(a2, a3, a4, s, m, e, Points(l), Points(r));
  }

  /** The node point and the two built sides make up the whole slice. */
  lemma SlicesAssemble<T>(a2: seq<T>, a3: seq<T>, a4: seq<T>, s: int, m: int, e: int, left: multiset<T>, right: multiset<T>)
    requires 0 <= s <= m <= e < |a2|
    requires Permutes(a2, a3, s, m - 1) && Permutes(a3, a4, m + 1, e)
    requires left == multiset(a3[s..m]) && right == multiset(a4[m + 1..e + 1])
    ensures multiset{a2[m]} + left + right == multiset(a4[s..e + 1])
  {
    assert a3[s..m] == a4[s..m];
    assert a4[m] == a2[m];
    SliceAround(a4, s, m, e);
  }

  /** A point of a rearranged slice comes from the original slice. */
  lemma FromSlice(a: seq<Point>, a2: seq<Point>, s: int, m: int, e: int)
    requires 0 <= s <= m <= e < |a|
    requires Permutes(a, a2, s, e)
    ensures a2[m] in multiset(a[s..e + 1])
  {
    PermutesSlice(a, a2, s, e);
    assert a2[m] in a2[s..e + 1];
  }

  /**
   * `new KDTree(points)`: `createNode(points, 0, points.length - 1, 0)`.
   * `k` is read from `points[0]` only when there is a point, and `d % k`
   * then divides by zero if that point has no coordinates. The rearranged
   * array is returned with the tree.
   */
  function NewTree(points: seq<Point>): (r: Result<(seq<Point>, Tree)>)
    requires |points| > 0 ==> Uniform(points, |points[0]|)
    ensures |points| == 0 ==> r == Ok((points, Nil))
    ensures r.Err? <==> |points| > 0 && |points[0]| == 0
    ensures r.Err? ==> r.error == ArithmeticDivideByZero
    ensures r.Ok? ==> |r.value.0| == |points| && multiset(r.value.0) == multiset(points)
    ensures r.Ok? ==> Points(r.value.1) == multiset(points)
    ensures r.Ok? && |points| > 0 ==>
      && r.value.1.Node? && r.value.1.dim == 0 && WellFormed(r.value.1, |points[0]|)
  {
    if |points| == 0 then Ok((points, Nil))
    else if |points[0]| == 0 then Err(ArithmeticDivideByZero)
    else
      var b := Build(points, 0, |points| - 1, 0, |points[0]|);
      assert b.0[0..|points|] == b.0;
      Ok(b)
  }

  /**
   * The split invariant, under the hypothesis that `nth_element` did put the
   * median of `[s, e]` in its sorted position: after the tie pass, every
   * point before the node's index is at most the node's coordinate and
   * every point after it is strictly above.
   */
  lemma SplitSeparates(a: seq<Point>, s: int, e: int, dim: nat)
    requires 0 <= s <= e < |a|
    requires Partition.InSortedPosition(Partition.NthElement(a, s, e, (s + e) / 2, Coord(dim)), s, e, (s + e) / 2, Coord(dim))
    ensures var r := Split(a, s, e, dim);
      && (forall j :: s <= j < r.1 ==> Coord(dim)(r.0[j]) <= Coord(dim)(r.0[r.1]))
      && (forall j :: r.1 < j <= e ==> Coord(dim)(r.0[r.1]) < Coord(dim)(r.0[j]))
  {
    var m := (s + e) / 2;
    var key := Coord(dim);
    var a1 := Partition.NthElement(a, s, e, m, key);
    var t := TiePass(a1, m, m + 1, e, key);
    assert t == Split(a, s, e, dim);
    var b := t.0;
    assert key(b[t.1]) == key(a1[m]);
    forall j | s <= j < t.1
      ensures key(b[j]) <= key(b[t.1])
    {
      if j < m {
        assert b[j] == a1[j];
      }
    }
    forall j | t.1 < j <= e
      ensures key(b[t.1]) < key(b[j])
    {
      var i := PermutedFrom(a1, b, m + 1, e, j);
      assert key(a1[m]) <= key(a1[i]);
    }
  }

  /**
   * The split invariant at a node of the built tree, under the same
   * hypothesis for its own `nth_element` call: every point of the left
   * subtree is at most the node's coordinate on its axis, every point of the
   * right subtree strictly above.
   */
  lemma BuildRootSeparates(a: seq<Point>, s: int, e: int, d: nat, k: nat)
    requires d < k && 0 <= s <= e < |a| && Uniform(a, k)
    requires Partition.InSortedPosition(Partition.NthElement(a, s, e, (s + e) / 2, Coord(Axis(d, k))), s, e, (s + e) / 2, Coord(Axis(d, k)))
    ensures var t := Build(a, s, e, d, k).1;
      && t.Node?
      && (forall p :: p in Points(t.left) ==> Coord(d)(p) <= Coord(d)(t.point))
      && (forall p :: p in Points(t.right) ==> Coord(d)(t.point) < Coord(d)(p))
  {
    LeftSideAtMost(a, s, e, d, k);
    RightSideAbove(a, s, e, d, k);
  }

  lemma LeftSideAtMost(a: seq<Point>, s: int, e: int, d: nat, k: nat)
    requires d < k && 0 <= s <= e < |a| && Uniform(a, k)
    requires Partition.InSortedPosition(Partition.NthElement(a, s, e, (s + e) / 2, Coord(Axis(d, k))), s, e, (s + e) / 2, Coord(Axis(d, k)))
    ensures var t := Build(a, s, e, d, k).1;
      && t.Node?
      && (forall p :: p in Points(t.left) ==> Coord(d)(p) <= Coord(d)(t.point))
  {
    var t := Build(a, s, e, d, k).1;
    var sp := Split(a, s, e, Axis(d, k));
    SplitSeparates(a, s, e, Axis(d, k));
    assert Points(t.left) == multiset(sp.0[s..sp.1]);
    SliceAtMost(sp.0, s, sp.1, Coord(d), Coord(d)(t.point));
  }

  lemma RightSideAbove(a: seq<Point>, s: int, e: int, d: nat, k: nat)
    requires d < k && 0 <= s <= e < |a| && Uniform(a, k)
    requires Partition.InSortedPosition(Partition.NthElement(a, s, e, (s + e) / 2, Coord(Axis(d, k))), s, e, (s + e) / 2, Coord(Axis(d, k)))
    ensures var t := Build(a, s, e, d, k).1;
      && t.Node?
      && (forall p :: p in Points(t.right) ==> Coord(d)(t.point) < Coord(d)(p))
  {
    var t := Build(a, s, e, d, k).1;
    var sp := Split(a, s, e, Axis(d, k));
    SplitSeparates(a, s, e, Axis(d, k));
    assert Points(t.right) == After(sp.0, sp.1, e);
    SliceAbove(sp.0, sp.1, e, Coord(d), Coord(d)(t.point));
  }

  /** A bound on every position of a slice bounds every member of its multiset. */
  lemma SliceAtMost<T>(b: seq<T>, lo: int, hi: int, key: T -> int, bound: int)
    requires 0 <= lo <= hi <= |b|
    requires forall j :: lo <= j < hi ==> key(b[j]) <= bound
    ensures forall p :: p in multiset(b[lo..hi]) ==> key(p) <= bound
  {
    forall p | p in multiset(b[lo..hi])
      ensures key(p) <= bound
    {
      var j := SliceIndex(b, lo, hi, p);
    }
  }

  lemma SliceAbove<T>(b: seq<T>, m: int, e: int, key: T -> int, bound: int)
    requires 0 <= m <= e < |b|
    requires forall j :: m < j <= e ==> bound < key(b[j])
    ensures forall p :: p in After(b, m, e) ==> bound < key(p)
  {
    forall p | p in After(b, m, e)
      ensures bound < key(p)
    {
      var j := SliceIndex(b, m + 1, e + 1, p);
    }
  }

  /** A member of a slice's multiset sits at some index of the slice. */
  lemma SliceIndex<T>(b: seq<T>, lo: int, hi: int, p: T) returns (j: int)
    requires 0 <= lo <= hi <= |b| && p in multiset(b[lo..hi])
    ensures lo <= j < hi && b[j] == p
  {
    var i :| 0 <= i < hi - lo && b[lo..hi][i] == p;
    j := lo + i;
  }

  // ---------------------------------------------------------------- search

  /** A `HeapStorage` entry: a node's point and its (squared) distance to the query. */
  datatype Candidate = Candidate(point: Point, distance: nat)

  /**
   * The ranking behind `HeapStorage.distcmp`: the farther entry ranks lower,
   * so the top of the `BinaryHeap` is the farthest entry found so far.
   */
  function FartherFirst(c: Candidate): int
  {
    -(c.distance as int)
  }

  /** The heap of the search: a valid `BinaryHeap` under `distcmp`, with a backing store. */
  ghost predicate Found(h: BinaryHeap.Heap<Candidate>)
  {
    BinaryHeap.Valid(h) && h.key == FartherFirst && h.capacity > 0
  }

  /**
   * `addToHeap(found, dist, k)`: push while fewer than `k` entries are held;
   * otherwise `peek` the farthest entry (a `null` one when the heap is empty)
   * and replace it by the candidate only when the candidate is strictly closer.
   */
  function AddToHeap(h: BinaryHeap.Heap<Candidate>, c: Candidate, k: nat): (r: Result<BinaryHeap.Heap<Candidate>>)
    requires Found(h)
    ensures r.Err? <==> BinaryHeap.Size(h) >= k && BinaryHeap.Size(h) == 0
    ensures r.Err? ==> r.error == NullPointer
    ensures r.Ok? ==> Found(r.value)
    ensures r.Ok? && BinaryHeap.Size(h) <= k ==> BinaryHeap.Size(r.value) <= k
    ensures BinaryHeap.Size(h) < k ==> r.Ok? && multiset(r.value.data) == multiset(h.data) + multiset{c}
    ensures BinaryHeap.Size(h) >= k && BinaryHeap.Size(h) > 0 ==>
      && r.Ok? && BinaryHeap.Size(r.value) == BinaryHeap.Size(h)
      && (forall i :: 0 <= i < |h.data| ==> h.data[i].distance <= h.data[0].distance)
      && (h.data[0].distance > c.distance ==>
            multiset(r.value.data) + multiset{h.data[0]} == multiset(h.data) + multiset{c})
      && (h.data[0].distance <= c.distance ==> r.value == h)
  {
    if BinaryHeap.Size(h) < k then BinaryHeap.Push(h, c)
    else
      match BinaryHeap.Peek(h)
      case Ok(Some(top)) =>
        FarthestOnTop(h);
        if top.distance > c.distance then
          var p := BinaryHeap.Pop(h);
          PopThenPush(h, p.1, c);
          BinaryHeap.Push(p.1, c)
        else Ok(h)
      case _ => Err(NullPointer)
  }

  /** The top of a non-empty heap of found candidates is the farthest one. */
  lemma FarthestOnTop(h: BinaryHeap.Heap<Candidate>)
    requires Found(h)
    ensures |h.data| > 0 ==> BinaryHeap.Peek(h) == Ok(Some(h.data[0]))
    ensures |h.data| > 0 ==> forall i :: 0 <= i < |h.data| ==> h.data[i].distance <= h.data[0].distance
  {
    if |h.data| > 0 {
      BinaryHeap.RootMinimal(h);
    }
  }

  /** Pushing the candidate into the heap left by popping the top swaps one for the other. */
  lemma PopThenPush(h: BinaryHeap.Heap<Candidate>, rest: BinaryHeap.Heap<Candidate>, c: Candidate)
    requires Found(h) && |h.data| > 0 && rest == BinaryHeap.Pop(h).1
    ensures BinaryHeap.Push(rest, c).Ok?
    ensures Found(BinaryHeap.Push(rest, c).value)
    ensures BinaryHeap.Size(BinaryHeap.Push(rest, c).value) == BinaryHeap.Size(h)
    ensures multiset(BinaryHeap.Push(rest, c).value.data) + multiset{h.data[0]} == multiset(h.data) + multiset{c}
  {
  }

  /**
   * After candidates `offered` have been offered, the heap `kept` holds the
   * `k` closest of them (all of them while there are at most `k`): a
   * sub-multiset of the right size, no entry farther than any dropped one.
   */
  ghost predicate KeepsNearest(kept: multiset<Candidate>, offered: multiset<Candidate>, k: nat)
  {
    && kept <= offered
    && |kept| == (if |offered| < k then |offered| else k)
    && forall x, y :: x in kept && y in offered - kept ==> x.distance <= y.distance
  }

  /** One `addToHeap` keeps the heap the `k` nearest of everything offered so far. */
  lemma AddToHeapKeepsNearest(h: BinaryHeap.Heap<Candidate>, offered: multiset<Candidate>, c: Candidate, k: nat)
    requires Found(h) && KeepsNearest(multiset(h.data), offered, k)
    requires AddToHeap(h, c, k).Ok?
    ensures KeepsNearest(multiset(AddToHeap(h, c, k).value.data), offered + multiset{c}, k)
  {
    var kept := multiset(h.data);
    var r := AddToHeap(h, c, k).value;
    if BinaryHeap.Size(h) < k {
      KeepWhileRoom(kept, offered, c, k);
    } else {
      var top := h.data[0];
      TopIsFarthest(h.data);
      if top.distance > c.distance {
        ExchangeOne(multiset(r.data), kept, top, c);
        ReplaceFarthest(kept, offered, top, c, k);
      } else {
        DropCandidate(kept, offered, c, k);
      }
    }
  }

  /** A first entry no nearer than any other is no nearer than anything the sequence holds. */
  lemma TopIsFarthest(data: seq<Candidate>)
    requires |data| > 0
    requires forall i :: 0 <= i < |data| ==> data[i].distance <= data[0].distance
    ensures data[0] in multiset(data)
    ensures forall x :: x in multiset(data) ==> x.distance <= data[0].distance
  {
    forall x | x in multiset(data)
      ensures x.distance <= data[0].distance
    {
      var i :| 0 <= i < |data| && data[i] == x;
    }
  }

  /** Taking `top` out and putting `c` in, stated as a balance of multisets. */
  lemma ExchangeOne<T>(after: multiset<T>, before: multiset<T>, top: T, c: T)
    requires after + multiset{top} == before + multiset{c}
    requires top in before
    ensures after == before - multiset{top} + multiset{c}
  {
    forall x
      ensures after[x] == (before - multiset{top} + multiset{c})[x]
    {
      assert (after + multiset{top})[x] == (before + multiset{c})[x];
    }
  }

  lemma KeepWhileRoom(kept: multiset<Candidate>, offered: multiset<Candidate>, c: Candidate, k: nat)
    requires KeepsNearest(kept, offered, k) && |kept| < k
    ensures KeepsNearest(kept + multiset{c}, offered + multiset{c}, k)
  {
    assert kept == offered by {
      assert |offered - kept| == |offered| - |kept| == 0;
    }
    assert (offered + multiset{c}) - (kept + multiset{c}) == multiset{};
  }

  lemma ReplaceFarthest(kept: multiset<Candidate>, offered: multiset<Candidate>, top: Candidate, c: Candidate, k: nat)
    requires KeepsNearest(kept, offered, k) && |kept| == k
    requires top in kept && forall x :: x in kept ==> x.distance <= top.distance
    requires c.distance < top.distance
    ensures KeepsNearest(kept - multiset{top} + multiset{c}, offered + multiset{c}, k)
  {
    var kept' := kept - multiset{top} + multiset{c};
    var offered' := offered + multiset{c};
    assert offered' - kept' == (offered - kept) + multiset{top};
    forall x, y | x in kept' && y in offered' - kept'
      ensures x.distance <= y.distance
    {
      if x != c {
        assert x in kept;
      }
      if y != top {
        assert y in offered - kept;
      }
    }
  }

  lemma DropCandidate(kept: multiset<Candidate>, offered: multiset<Candidate>, c: Candidate, k: nat)
    requires KeepsNearest(kept, offered, k) && |kept| == k
    requires forall x :: x in kept ==> x.distance <= c.distance
    ensures KeepsNearest(kept, offered + multiset{c}, k)
  {
    assert (offered + multiset{c}) - kept == (offered - kept) + multiset{c};
  }

  /** Offers the candidates to `addToHeap` in turn; the first failure ends the run. */
  function OfferAll(h: BinaryHeap.Heap<Candidate>, cs: seq<Candidate>, k: nat): (r: Result<BinaryHeap.Heap<Candidate>>)
    requires Found(h)
    ensures r.Err? <==> |cs| > 0 && k == 0 && BinaryHeap.Size(h) == 0
    ensures r.Err? ==> r.error == NullPointer
    ensures r.Ok? ==> Found(r.value) && BinaryHeap.Size(h) <= BinaryHeap.Size(r.value)
    decreases |cs|
  {
    if |cs| == 0 then Ok(h)
    else
      match AddToHeap(h, cs[0], k)
      case Err(e) => Err(e)
      case Ok(g) => OfferAll(g, cs[1..], k)
  }

  /** Offering `a ++ b` is offering `a`, then `b` to the resulting heap. */
  lemma {:induction false} OfferAllAppend(h: BinaryHeap.Heap<Candidate>, a: seq<Candidate>, b: seq<Candidate>, k: nat)
    requires Found(h)
    ensures OfferAll(h, a + b, k) ==
      match OfferAll(h, a, k)
      case Err(e) => Err(e)
      case Ok(g) => OfferAll(g, b, k)
    decreases |a|
  {
    if |a| > 0 {
      assert (a + b)[0] == a[0] && (a + b)[1..] == a[1..] + b;
      match AddToHeap(h, a[0], k)
      case Err(_) =>
      case Ok(g) => OfferAllAppend(g, a[1..], b, k);
    } else {
      assert a + b == b;
    }
  }

  /** However many candidates are offered, the heap holds the `k` nearest of them. */
  lemma {:induction false} OfferAllKeepsNearest(h: BinaryHeap.Heap<Candidate>, offered: multiset<Candidate>, cs: seq<Candidate>, k: nat)
    requires Found(h) && KeepsNearest(multiset(h.data), offered, k)
    requires OfferAll(h, cs, k).Ok?
    ensures KeepsNearest(multiset(OfferAll(h, cs, k).value.data), offered + multiset(cs), k)
    decreases |cs|
  {
    if |cs| > 0 {
      var g := OfferFirst(h, cs, k);
      AddToHeapKeepsNearest(h, offered, cs[0], k);
      OfferAllKeepsNearest(g, offered + multiset{cs[0]}, cs[1..], k);
      OfferedSoFar(offered, cs);
    }
  }

  /** A successful run of offers starts with a successful offer of the first candidate. */
  lemma OfferFirst(h: BinaryHeap.Heap<Candidate>, cs: seq<Candidate>, k: nat) returns (g: BinaryHeap.Heap<Candidate>)
    requires Found(h) && |cs| > 0 && OfferAll(h, cs, k).Ok?
    ensures AddToHeap(h, cs[0], k) == Ok(g) && Found(g)
    ensures OfferAll(h, cs, k) == OfferAll(g, cs[1..], k)
  {
    g := AddToHeap(h, cs[0], k).value;
  }

  /** Offering the first candidate, then the rest, offers them all. */
  lemma OfferedSoFar<T>(offered: multiset<T>, cs: seq<T>)
    requires |cs| > 0
    ensures offered + multiset{cs[0]} + multiset(cs[1..]) == offered + multiset(cs)
  {
    assert cs == [cs[0]] + cs[1..];
  }

  /** The candidate a node offers: its point and squared distance to the query `q`. */
  function CandidateOf(p: Point, q: Point): (c: Candidate)
    requires |p| <= |q|
    ensures c.point == p && Distance(p, q) == Ok(c.distance)
  {
    Candidate(p, Distance(p, q).value)
  }

  /**
   * The query lies on the left of the node on its axis (`v <= data.get(axis)`).
   */
  predicate QueryLeft(p: Point, axis: nat, q: Point)
  {
    axis < |p| && axis < |q| && q[axis] <= p[axis]
  }

  /**
   * The child `neighbor_search` searches first at an inner node: the left one
   * when the query lies on its left and it exists, else the right one (`Nil`
   * when neither applies: nothing is searched).
   */
  function Near(t: Tree, q: Point): (c: Tree)
    requires t.Node?
    ensures c == t.left || c == t.right
  {
    if QueryLeft(t.point, t.dim, q) && t.left != Nil then t.left else t.right
  }

  /**
   * The child searched second: the right one when the search did not go
   * right and it exists, else the left one. When the search went left and
   * there is no right child, that is the left child a second time.
   */
  function Far(t: Tree, q: Point): (c: Tree)
    requires t.Node?
    ensures c == t.left || c == t.right
  {
    var wentRight := !(QueryLeft(t.point, t.dim, q) && t.left != Nil) && t.right != Nil;
    if !wentRight && t.right != Nil then t.right else t.left
  }

  /**
   * The candidates `neighbor_search` offers, in order, to a query with every
   * coordinate: a leaf offers itself; an inner node searches its near side,
   * then (the pruning distance is always 0) its far side, and offers itself last.
   */
  function Offers(t: Tree, q: Point, dims: nat): (cs: seq<Candidate>)
    requires WellFormed(t, dims) && dims <= |q|
    decreases t
  {
    match t
    case Nil => []
    case Node(p, _, l, r) =>
      var c := CandidateOf(p, q);
      if l == Nil && r == Nil then [c]
      else Offers(Near(t, q), q, dims) + Offers(Far(t, q), q, dims) + [c]
  }

  /**
   * The first descent of the search (near sides only) ends at an inner node
   * with nothing on its near side: that node `peek`s the heap before
   * anything has been offered.
   */
  predicate Stuck(t: Tree, q: Point)
    decreases t
  {
    match t
    case Nil => false
    case Node(_, _, l, r) => !(l == Nil && r == Nil) && (Near(t, q) == Nil || Stuck(Near(t, q), q))
  }

  /**
   * `neighbor_search(point, found, k)` on a subtree (a `null` child is not
   * searched, which is `Nil` returning the heap unchanged). It reads the
   * query on the node's axis and the node's distance to the query before
   * anything else, both out of bounds for a query with too few coordinates,
   * and an inner node reads its own point on its axis;
   * a `peek` of an empty heap, or `addToHeap` with `k = 0` on one, is a
   * `null` dereference.
   */
  function NeighborSearch(t: Tree, q: Point, found: BinaryHeap.Heap<Candidate>, k: nat): (r: Result<BinaryHeap.Heap<Candidate>>)
    requires Found(found)
    ensures r.Ok? ==> Found(r.value) && BinaryHeap.Size(found) <= BinaryHeap.Size(r.value)
    ensures r.Ok? && t.Node? ==> BinaryHeap.Size(r.value) > 0
    ensures r.Ok? && BinaryHeap.Size(found) <= k ==> BinaryHeap.Size(r.value) <= k
    decreases t, 1
  {
    match t
    case Nil => Ok(found)
    case Node(p, axis, left, right) =>
      if axis >= |q| then Err(ArrayIndexOutOfBounds)
      else
        var dist := Distance(p, q);
        if dist.Err? then Err(ArrayIndexOutOfBounds)
        else if left == Nil && right == Nil then AddToHeap(found, Candidate(p, dist.value), k)
        else if axis >= |p| then Err(ArrayIndexOutOfBounds)
        else
          match NeighborSearch(Near(t, q), q, found, k)
          case Err(e) => Err(e)
          case Ok(h1) => FarSearch(t, q, h1, k)
  }

  /**
   * The rest of `neighbor_search` at an inner node once its near side has
   * been searched: the pruning test, which `peek`s the farthest entry and
   * compares it with a distance that is always 0, the far side, and the
   * node itself.
   */
  function FarSearch(t: Tree, q: Point, h1: BinaryHeap.Heap<Candidate>, k: nat): (r: Result<BinaryHeap.Heap<Candidate>>)
    requires Found(h1) && t.Node? && t.dim < |q| && |t.point| <= |q|
    ensures r.Ok? ==> Found(r.value) && BinaryHeap.Size(h1) <= BinaryHeap.Size(r.value) && BinaryHeap.Size(r.value) > 0
    ensures r.Ok? && BinaryHeap.Size(h1) <= k ==> BinaryHeap.Size(r.value) <= k
    decreases t, 0
  {
    match BinaryHeap.Peek(h1)
    case Ok(Some(top)) =>
      var v := q[t.dim];
      var w := q[t.dim];
      var dt := if v < w then w - v else v - w;
      var r2 := if dt > top.distance then Ok(h1) else NeighborSearch(Far(t, q), q, h1, k);
      if r2.Err? then r2 else AddToHeap(r2.value, CandidateOf(t.point, q), k)
    case _ => Err(NullPointer)
  }

  /** `neighbor_search` at an inner node whose reads are in bounds: near side, then the rest. */
  lemma SearchInner(t: Tree, q: Point, found: BinaryHeap.Heap<Candidate>, k: nat)
    requires Found(found) && t.Node? && !(t.left == Nil && t.right == Nil)
    requires t.dim < |q| && t.dim < |t.point| <= |q|
    ensures var r1 := NeighborSearch(Near(t, q), q, found, k);
      NeighborSearch(t, q, found, k) == if r1.Err? then r1 else FarSearch(t, q, r1.value, k)
  {
  }

  /** The rest of an inner node's search: a `null` on an empty heap, else the far side and the node. */
  lemma FarSearchStep(t: Tree, q: Point, h1: BinaryHeap.Heap<Candidate>, k: nat)
    requires Found(h1) && t.Node? && t.dim < |q| && |t.point| <= |q|
    ensures BinaryHeap.Size(h1) == 0 ==> FarSearch(t, q, h1, k) == Err(NullPointer)
    ensures var r2 := NeighborSearch(Far(t, q), q, h1, k);
      BinaryHeap.Size(h1) > 0 ==> FarSearch(t, q, h1, k) == if r2.Err? then r2 else AddToHeap(r2.value, CandidateOf(t.point, q), k)
  {
    if BinaryHeap.Size(h1) > 0 {
      assert BinaryHeap.Peek(h1) == Ok(Some(h1.data[0]));
    }
  }

  /**
   * When the search of a tree built over `dims` coordinates fails: a query
   * with fewer coordinates fails at once, out of bounds; otherwise it fails,
   * on a `null`, exactly when the heap starts empty and either `k = 0` or the
   * first descent is stuck.
   */
  lemma {:induction false} NeighborSearchFails(t: Tree, q: Point, found: BinaryHeap.Heap<Candidate>, k: nat, dims: nat)
    requires WellFormed(t, dims) && Found(found)
    ensures var r := NeighborSearch(t, q, found, k);
      && (r.Err? <==> t.Node? && (|q| < dims || (BinaryHeap.Size(found) == 0 && (k == 0 || Stuck(t, q)))))
      && (r.Err? ==> r.error == if |q| < dims then ArrayIndexOutOfBounds else NullPointer)
    decreases t
  {
    match t
    case Nil =>
    case Node(p, axis, left, right) =>
      if |q| >= dims && !(left == Nil && right == Nil) {
        var near := Near(t, q);
        SearchInner(t, q, found, k);
        NeighborSearchFails(near, q, found, k, dims);
        var r1 := NeighborSearch(near, q, found, k);
        if r1.Ok? {
          FarSearchStep(t, q, r1.value, k);
          NeighborSearchFails(Far(t, q), q, r1.value, k, dims);
        }
      }
  }

  /** A search that succeeds has offered exactly `Offers(t, q, dims)`, in order, to `addToHeap`. */
  lemma {:induction false} NeighborSearchOffers(t: Tree, q: Point, found: BinaryHeap.Heap<Candidate>, k: nat, dims: nat)
    requires WellFormed(t, dims) && Found(found) && dims <= |q|
    requires NeighborSearch(t, q, found, k).Ok?
    ensures NeighborSearch(t, q, found, k) == OfferAll(found, Offers(t, q, dims), k)
    decreases t
  {
    match t
    case Nil =>
    case Node(p, axis, left, right) =>
      var c := CandidateOf(p, q);
      if left == Nil && right == Nil {
        OfferOne(found, c, k);
      } else {
        var near, far := Near(t, q), Far(t, q);
        SearchInner(t, q, found, k);
        NeighborSearchOffers(near, q, found, k, dims);
        var g1 := NeighborSearch(near, q, found, k).value;
        FarSearchStep(t, q, g1, k);
        NeighborSearchOffers(far, q, g1, k, dims);
        var g2 := NeighborSearch(far, q, g1, k).value;
        var on, of := Offers(near, q, dims), Offers(far, q, dims);
        OfferAllAppend(found, on, of, k);
        OfferAllAppend(found, on + of, [c], k);
        OfferOne(g2, c, k);
      }
  }

  lemma OfferOne(h: BinaryHeap.Heap<Candidate>, c: Candidate, k: nat)
    requires Found(h)
    ensures OfferAll(h, [c], k) == AddToHeap(h, c, k)
  {
    assert [c][1..] == [];
  }

  /** The points of a run of candidates, in order. */
  function PointsOf(cs: seq<Candidate>): (ps: seq<Point>)
    ensures |ps| == |cs| && forall i :: 0 <= i < |cs| ==> ps[i] == cs[i].point
  {
    if |cs| == 0 then [] else [cs[0].point] + PointsOf(cs[1..])
  }

  lemma PointsOfAppend(a: seq<Candidate>, b: seq<Candidate>)
    ensures PointsOf(a + b) == PointsOf(a) + PointsOf(b)
  {
    assert PointsOf(a + b) == PointsOf(a) + PointsOf(b);
  }

  /**
   * Some node the query lies left of has a left child and no right child:
   * the search then offers that left subtree twice.
   */
  predicate Revisits(t: Tree, q: Point)
  {
    match t
    case Nil => false
    case Node(p, axis, l, r) =>
      || (QueryLeft(p, axis, q) && l != Nil && r == Nil)
      || Revisits(l, q)
      || Revisits(r, q)
  }

  /** An inner node offers its near side, its far side, then itself. */
  lemma OffersInner(t: Tree, q: Point, dims: nat)
    requires WellFormed(t, dims) && dims <= |q| && t.Node? && !(t.left == Nil && t.right == Nil)
    ensures PointsOf(Offers(t, q, dims)) == PointsOf(Offers(Near(t, q), q, dims)) + PointsOf(Offers(Far(t, q), q, dims)) + [t.point]
  {
    var on, of := Offers(Near(t, q), q, dims), Offers(Far(t, q), q, dims);
    var c := CandidateOf(t.point, q);
    PointsOfAppend(on, of);
    PointsOfAppend(on + of, [c]);
  }

  /** Every point of the tree is offered to the heap, and only points of the tree are. */
  lemma {:induction false} OffersCoverTree(t: Tree, q: Point, dims: nat)
    requires WellFormed(t, dims) && dims <= |q|
    ensures forall x :: x in PointsOf(Offers(t, q, dims)) <==> x in Points(t)
    decreases t
  {
    match t
    case Nil =>
    case Node(p, axis, l, r) =>
      if !(l == Nil && r == Nil) {
        OffersCoverTree(l, q, dims);
        OffersCoverTree(r, q, dims);
        CoverInner(t, q, dims);
      } else {
        assert PointsOf(Offers(t, q, dims)) == [p];
      }
  }

  /** An inner node offers exactly the points of its tree, given that its children do. */
  lemma CoverInner(t: Tree, q: Point, dims: nat)
    requires WellFormed(t, dims) && dims <= |q| && t.Node? && !(t.left == Nil && t.right == Nil)
    requires forall x :: x in PointsOf(Offers(t.left, q, dims)) <==> x in Points(t.left)
    requires forall x :: x in PointsOf(Offers(t.right, q, dims)) <==> x in Points(t.right)
    ensures forall x :: x in PointsOf(Offers(t, q, dims)) <==> x in Points(t)
  {
    var near, far := Near(t, q), Far(t, q);
    assert (near == t.left && far == t.right) || (near == t.right && far == t.left) || near == far;
    OffersInner(t, q, dims);
    var pn, pf := PointsOf(Offers(near, q, dims)), PointsOf(Offers(far, q, dims));
    MembersOfSides(PointsOf(Offers(t, q, dims)), pn, pf, t.point, Points(t.left), Points(t.right));
  }

  /**
   * Near and far side in either order, or one side twice while the other is
   * empty: the offers hold the node's point and the points of both sides.
   */
  lemma MembersOfSides<T>(s: seq<T>, pn: seq<T>, pf: seq<T>, x: T, ml: multiset<T>, mr: multiset<T>)
    requires s == pn + pf + [x]
    requires forall y :: y in pn ==> y in ml || y in mr
    requires forall y :: y in pf ==> y in ml || y in mr
    requires forall y :: (y in ml || y in mr) ==> y in pn || y in pf
    ensures forall y :: y in s <==> y in multiset{x} + ml + mr
  {
    forall y
      ensures y in s <==> y in multiset{x} + ml + mr
    {
      assert y in s <==> y in pn || y in pf || y == x;
    }
  }

  /**
   * When no left subtree is searched twice, each point of the tree is
   * offered exactly as many times as the tree holds it.
   */
  lemma {:induction false} OffersExactlyTree(t: Tree, q: Point, dims: nat)
    requires WellFormed(t, dims) && dims <= |q| && !Revisits(t, q)
    ensures multiset(PointsOf(Offers(t, q, dims))) == Points(t)
    decreases t
  {
    match t
    case Nil =>
    case Node(p, axis, l, r) =>
      if !(l == Nil && r == Nil) {
        OffersExactlyTree(l, q, dims);
        OffersExactlyTree(r, q, dims);
        ExactInner(t, q, dims);
      } else {
        assert PointsOf(Offers(t, q, dims)) == [p];
      }
  }

  /** An inner node that does not revisit its left child offers each point as often as its tree holds it, given that its children do. */
  lemma ExactInner(t: Tree, q: Point, dims: nat)
    requires WellFormed(t, dims) && dims <= |q| && t.Node? && !(t.left == Nil && t.right == Nil)
    requires !(QueryLeft(t.point, t.dim, q) && t.left != Nil && t.right == Nil)
    requires multiset(PointsOf(Offers(t.left, q, dims))) == Points(t.left)
    requires multiset(PointsOf(Offers(t.right, q, dims))) == Points(t.right)
    ensures multiset(PointsOf(Offers(t, q, dims))) == Points(t)
  {
    var near, far := Near(t, q), Far(t, q);
    assert (near == t.left && far == t.right) || (near == t.right && far == t.left);
    OffersInner(t, q, dims);
    var pn, pf := PointsOf(Offers(near, q, dims)), PointsOf(Offers(far, q, dims));
    MultisetOfSides(PointsOf(Offers(t, q, dims)), pn, pf, t.point, Points(t.left), Points(t.right));
  }

  /** Near and far side in either order: the offers hold the node's point and both sides' points. */
  lemma MultisetOfSides<T>(s: seq<T>, pn: seq<T>, pf: seq<T>, x: T, ml: multiset<T>, mr: multiset<T>)
    requires s == pn + pf + [x]
    requires (multiset(pn) == ml && multiset(pf) == mr) || (multiset(pn) == mr && multiset(pf) == ml)
    ensures multiset(s) == multiset{x} + ml + mr
  {
    MultisetOfThree(pn, pf, x);
  }

  /**
   * The loop of the node's `findKNearestPoints`: pop the farthest entry into
   * `result[last]` and step `last` back, until the heap is empty.
   */
  function WriteBack(h: BinaryHeap.Heap<Candidate>, out: seq<Point>, last: int): (r: seq<Point>)
    requires BinaryHeap.Valid(h) && -1 <= last < |out| && BinaryHeap.Size(h) <= last + 1
    ensures r == Fill(PointsOf(BinaryHeap.PopAll(h)), out, last)
    decreases |h.data|
  {
    var p := BinaryHeap.Pop(h);
    if p.0.None? then out
    else
      var rest := BinaryHeap.PopAll(p.1);
      assert BinaryHeap.PopAll(h) == [p.0.value] + rest;
      PointsOfAppend([p.0.value], rest);
      assert |rest| == |multiset(rest)| == |p.1.data|;
      FillCons(p.0.value.point, PointsOf(rest), out, last);
      WriteBack(p.1, out[last := p.0.value.point], last - 1)
  }

  /**
   * `xs` written into `out` backwards from slot `last`: `xs[i]` lands in
   * slot `last - i`, every other slot is kept.
   */
  function Fill<P>(xs: seq<P>, out: seq<P>, last: int): (r: seq<P>)
    requires -1 <= last < |out| && |xs| <= last + 1
    ensures |r| == |out|
    ensures forall j :: 0 <= j < |out| && !(last - |xs| < j <= last) ==> r[j] == out[j]
    ensures forall i :: 0 <= i < |xs| ==> r[last - i] == xs[i]
    decreases |xs|
  {
    if |xs| == 0 then out
    else
      var r := Fill(xs[1..], out[last := xs[0]], last - 1);
      assert forall i :: 1 <= i < |xs| ==> r[last - i] == xs[i] by {
        forall i | 1 <= i < |xs|
          ensures r[last - i] == xs[i]
        {
          assert r[last - 1 - (i - 1)] == xs[1..][i - 1];
        }
      }
      r
  }

  lemma FillCons<P>(x: P, ys: seq<P>, out: seq<P>, last: int)
    requires 0 <= last < |out| && |ys| <= last
    ensures Fill([x] + ys, out, last) == Fill(ys, out[last := x], last - 1)
  {
    assert ([x] + ys)[1..] == ys;
  }

  /**
   * `KDTree.findKNearestPoints(point, result)`: nothing happens on an empty
   * tree; otherwise the node version searches with a fresh heap and
   * `k = result.length`, then writes the heap back, farthest entry last.
   * The returned count of evaluated nodes is not modelled.
   */
  function FindKNearest(t: Tree, q: Point, result: seq<Point>): (r: Result<seq<Point>>)
    ensures t == Nil ==> r == Ok(result)
    ensures r.Ok? ==> |r.value| == |result|
  {
    if t == Nil then Ok(result)
    else
      match NeighborSearch(t, q, BinaryHeap.New(FartherFirst), |result|)
      case Err(e) => Err(e)
      case Ok(h) => Ok(WriteBack(h, result, |result| - 1))
  }

  /**
   * When `findKNearestPoints` fails: on a query with too few coordinates
   * (out of bounds), and otherwise on a `null` exactly when `result` has no
   * slot or the first descent is stuck. An empty tree never fails.
   */
  lemma FindKNearestFails(t: Tree, q: Point, result: seq<Point>, dims: nat)
    requires WellFormed(t, dims)
    ensures var r := FindKNearest(t, q, result);
      && (r.Err? <==> t.Node? && (|q| < dims || |result| == 0 || Stuck(t, q)))
      && (r.Err? ==> r.error == if |q| < dims then ArrayIndexOutOfBounds else NullPointer)
  {
    NeighborSearchFails(t, q, BinaryHeap.New(FartherFirst), |result|, dims);
  }

  /**
   * What a successful `findKNearestPoints` writes: with `n` the smaller of
   * `result.length` and the number of offers, the heap pops `n` candidates,
   * farthest first, into slots `result.length - 1` down to
   * `result.length - n`, so the array reads closest first; those candidates
   * are the `n` nearest of everything offered (no dropped offer is closer than
   * a kept one), and the leading slots are untouched.
   */
  lemma FindKNearestFinds(t: Tree, q: Point, result: seq<Point>, dims: nat)
    requires WellFormed(t, dims) && t.Node? && FindKNearest(t, q, result).Ok?
    ensures dims <= |q|
    ensures exists cs: seq<Candidate> :: NearestWritten(FindKNearest(t, q, result).value, result, Offers(t, q, dims), cs)
  {
    var k := |result|;
    FindKNearestFails(t, q, result, dims);
    var h := SearchKeepsNearest(t, q, k, dims);
    var popped := BinaryHeap.PopAll(h);
    FindKNearestWrites(t, q, result, h);
    assert multiset(popped) == multiset(h.data);
    WrittenInOrder(FindKNearest(t, q, result).value, result, Offers(t, q, dims), popped);
  }

  /** The popped run, written backwards, holds the nearest candidates farthest last. */
  lemma WrittenInOrder(out: seq<Point>, result: seq<Point>, offered: seq<Candidate>, popped: seq<Candidate>)
    requires |popped| <= |result| && out == Fill(PointsOf(popped), result, |result| - 1)
    requires SortedBy(popped, FartherFirst)
    requires KeepsNearest(multiset(popped), multiset(offered), |result|)
    ensures NearestWritten(out, result, offered, popped)
  {
    FarthestFirst(popped);
    assert |popped| == |multiset(popped)|;
    var ps := PointsOf(popped);
    forall i | 0 <= i < |popped|
      ensures out[|result| - 1 - i] == popped[i].point
    {
      assert out[|result| - 1 - i] == ps[i];
    }
  }

  /**
   * `out` is `result` with slot `|result| - 1 - i` overwritten by the point of
   * `cs[i]`, where `cs` runs farthest first and holds the `|result|` nearest
   * of `offered`; the slots before the written ones are untouched.
   */
  ghost predicate NearestWritten(out: seq<Point>, result: seq<Point>, offered: seq<Candidate>, cs: seq<Candidate>)
  {
    var n := |cs|;
    && n == (if |offered| < |result| then |offered| else |result|)
    && |out| == |result|
    && KeepsNearest(multiset(cs), multiset(offered), |result|)
    && (forall i, j :: 0 <= i < j < n ==> cs[j].distance <= cs[i].distance)
    && (forall i :: 0 <= i < n ==> out[|result| - 1 - i] == cs[i].point)
    && (forall j :: 0 <= j < |result| - n ==> out[j] == result[j])
  }

  /**
   * The search from a fresh heap ends with the `k` nearest of everything it
   * offered; the heap it returns is the one `findKNearestPoints` writes back.
   */
  lemma SearchKeepsNearest(t: Tree, q: Point, k: nat, dims: nat) returns (h: BinaryHeap.Heap<Candidate>)
    requires WellFormed(t, dims) && t.Node? && NeighborSearch(t, q, BinaryHeap.New(FartherFirst), k).Ok?
    ensures dims <= |q| && h == NeighborSearch(t, q, BinaryHeap.New(FartherFirst), k).value
    ensures BinaryHeap.Valid(h) && h.key == FartherFirst && |h.data| <= k
    ensures KeepsNearest(multiset(h.data), multiset(Offers(t, q, dims)), k)
    ensures |BinaryHeap.PopAll(h)| == |h.data|
  {
    var h0 := BinaryHeap.New(FartherFirst);
    NeighborSearchFails(t, q, h0, k, dims);
    NeighborSearchOffers(t, q, h0, k, dims);
    h := NeighborSearch(t, q, h0, k).value;
    assert KeepsNearest(multiset(h0.data), multiset{}, k);
    OfferAllKeepsNearest(h0, multiset{}, Offers(t, q, dims), k);
    var popped := BinaryHeap.PopAll(h);
    assert |popped| == |multiset(popped)| == |h.data|;
  }

  lemma FindKNearestWrites(t: Tree, q: Point, result: seq<Point>, h: BinaryHeap.Heap<Candidate>)
    requires t.Node? && NeighborSearch(t, q, BinaryHeap.New(FartherFirst), |result|) == Ok(h)
    ensures BinaryHeap.Valid(h) && |h.data| <= |result|
    ensures FindKNearest(t, q, result) == Ok(Fill(PointsOf(BinaryHeap.PopAll(h)), result, |result| - 1))
  {
    assert FindKNearest(t, q, result) == Ok(WriteBack(h, result, |result| - 1));
  }

  /**
   * What `findKNearestPoints` documents ("Searches for the K closest
   * nearest points"), for a search that visits no left child twice: it writes the `min(k, n)` nearest points of the tree,
   * `n` the number of points it holds, into the last slots of `result`,
   * nearest first, and leaves the leading slots untouched.
   */
  lemma FindKNearestOfTree(t: Tree, q: Point, result: seq<Point>, dims: nat) returns (written: seq<Point>)
    requires WellFormed(t, dims) && !Revisits(t, q) && FindKNearest(t, q, result).Ok?
    ensures NearestPointsOf(written, Points(t), |result|, q)
    ensures WrittenBack(FindKNearest(t, q, result).value, result, written)
  {
    if t.Nil? {
      return [];
    }
    var out := FindKNearest(t, q, result).value;
    FindKNearestFinds(t, q, result, dims);
    var offered := Offers(t, q, dims);
    var cs :| NearestWritten(out, result, offered, cs);
    OffersExactlyTree(t, q, dims);
    OffersAreCandidates(t, q, dims);
    written := WrittenPoints(out, result, offered, cs, Points(t), q);
  }

  /** `x` is defined to be no farther from `q` than `y`. */
  predicate NoFarther(x: Point, y: Point, q: Point)
  {
    Distance(x, q).Ok? && Distance(y, q).Ok? && Distance(x, q).value <= Distance(y, q).value
  }

  /**
   * `written` lists, farthest first, `min(k, |pts|)` of the points `pts`,
   * and no point of `pts` left out is closer to `q` than a listed one.
   */
  ghost predicate NearestPointsOf(written: seq<Point>, pts: multiset<Point>, k: nat, q: Point)
  {
    && |written| == (if |pts| < k then |pts| else k)
    && multiset(written) <= pts
    && (forall x, y :: x in multiset(written) && y in pts - multiset(written) ==> NoFarther(x, y, q))
    && (forall i, j :: 0 <= i < j < |written| ==> NoFarther(written[j], written[i], q))
  }

  /** `out` is `result` with `written[i]` in slot `|result| - 1 - i`, the leading slots untouched. */
  predicate WrittenBack(out: seq<Point>, result: seq<Point>, written: seq<Point>)
  {
    && |out| == |result| && |written| <= |result|
    && (forall i :: 0 <= i < |written| ==> out[|result| - 1 - i] == written[i])
    && (forall j :: 0 <= j < |result| - |written| ==> out[j] == result[j])
  }

  /** The points of the written candidates, stated against the multiset `pts` of points offered. */
  lemma WrittenPoints(out: seq<Point>, result: seq<Point>, offered: seq<Candidate>, cs: seq<Candidate>, pts: multiset<Point>, q: Point)
    returns (written: seq<Point>)
    requires NearestWritten(out, result, offered, cs)
    requires multiset(PointsOf(offered)) == pts && AllCandidates(offered, q)
    ensures NearestPointsOf(written, pts, |result|, q)
    ensures WrittenBack(out, result, written)
  {
    SubCandidates(cs, offered, q);
    written := PointsOf(cs);
    assert |pts| == |offered| by {
      assert |multiset(PointsOf(offered))| == |PointsOf(offered)|;
    }
    NearestPointsKept(cs, offered, q, |result|);
    NearestPointsInOrder(cs, q);
    WrittenBackOf(out, result, offered, cs);
  }

  /** The slots `NearestWritten` describes hold the candidates' points. */
  lemma WrittenBackOf(out: seq<Point>, result: seq<Point>, offered: seq<Candidate>, cs: seq<Candidate>)
    requires NearestWritten(out, result, offered, cs)
    ensures WrittenBack(out, result, PointsOf(cs))
  {
  }

  /** Every entry is the candidate of its own point, whose distance to `q` is defined. */
  ghost predicate AllCandidates(cs: seq<Candidate>, q: Point)
  {
    forall i :: 0 <= i < |cs| ==> |cs[i].point| <= |q| && cs[i] == CandidateOf(cs[i].point, q)
  }

  /** Everything a search offers is the candidate of a point of the tree. */
  lemma {:induction false} OffersAreCandidates(t: Tree, q: Point, dims: nat)
    requires WellFormed(t, dims) && dims <= |q|
    ensures AllCandidates(Offers(t, q, dims), q)
    decreases t
  {
    match t
    case Nil =>
    case Node(p, axis, l, r) =>
      if !(l == Nil && r == Nil) {
        OffersAreCandidates(l, q, dims);
        OffersAreCandidates(r, q, dims);
        var on, of := Offers(Near(t, q), q, dims), Offers(Far(t, q), q, dims);
        assert Offers(t, q, dims) == on + of + [CandidateOf(p, q)];
      }
  }

  /** Entries taken from a run of candidates are candidates too. */
  lemma SubCandidates(cs: seq<Candidate>, offered: seq<Candidate>, q: Point)
    requires multiset(cs) <= multiset(offered) && AllCandidates(offered, q)
    ensures AllCandidates(cs, q)
  {
    forall i | 0 <= i < |cs|
      ensures |cs[i].point| <= |q| && cs[i] == CandidateOf(cs[i].point, q)
    {
      assert cs[i] in multiset(offered);
      var j :| 0 <= j < |offered| && offered[j] == cs[i];
    }
  }

  /** Among candidates, a point occurs exactly as often as its candidate does. */
  lemma {:induction false} CountPoints(cs: seq<Candidate>, q: Point, y: Point)
    requires AllCandidates(cs, q)
    ensures |y| <= |q| ==> multiset(PointsOf(cs))[y] == multiset(cs)[CandidateOf(y, q)]
    ensures |y| > |q| ==> multiset(PointsOf(cs))[y] == 0
    decreases |cs|
  {
    if |cs| > 0 {
      assert PointsOf(cs) == [cs[0].point] + PointsOf(cs[1..]);
      assert cs == [cs[0]] + cs[1..];
      CountPoints(cs[1..], q, y);
    }
  }

  /** The kept candidates' points are the nearest points among those offered. */
  lemma NearestPointsKept(cs: seq<Candidate>, offered: seq<Candidate>, q: Point, k: nat)
    requires AllCandidates(cs, q) && AllCandidates(offered, q)
    requires KeepsNearest(multiset(cs), multiset(offered), k)
    ensures multiset(PointsOf(cs)) <= multiset(PointsOf(offered))
    ensures forall x, y :: x in multiset(PointsOf(cs)) && y in multiset(PointsOf(offered)) - multiset(PointsOf(cs)) ==>
      NoFarther(x, y, q)
  {
    var w, all := multiset(PointsOf(cs)), multiset(PointsOf(offered));
    forall y
      ensures w[y] <= all[y]
    {
      CountPoints(cs, q, y);
      CountPoints(offered, q, y);
    }
    forall x, y | x in w && y in all - w
      ensures NoFarther(x, y, q)
    {
      CountPoints(cs, q, x);
      CountPoints(cs, q, y);
      CountPoints(offered, q, y);
      var cx, cy := CandidateOf(x, q), CandidateOf(y, q);
      assert cx in multiset(cs);
      assert cy in multiset(offered) - multiset(cs);
    }
  }

  /** Candidates listed farthest first list their points farthest first. */
  lemma NearestPointsInOrder(cs: seq<Candidate>, q: Point)
    requires AllCandidates(cs, q)
    requires forall i, j :: 0 <= i < j < |cs| ==> cs[j].distance <= cs[i].distance
    ensures var ps := PointsOf(cs);
      forall i, j :: 0 <= i < j < |ps| ==> NoFarther(ps[j], ps[i], q)
  {
  }

  /** Heap entries come out farthest first. */
  lemma FarthestFirst(popped: seq<Candidate>)
    requires SortedBy(popped, FartherFirst)
    ensures forall i, j :: 0 <= i < j < |popped| ==> popped[j].distance <= popped[i].distance
  {
    forall i, j | 0 <= i < j < |popped|
      ensures popped[j].distance <= popped[i].distance
    {
      assert FartherFirst(popped[i]) <= FartherFirst(popped[j]);
    }
  }

  lemma MultisetOfThree<T>(a: seq<T>, b: seq<T>, x: T)
    ensures multiset(a + b + [x]) == multiset{x} + multiset(a) + multiset(b)
  {
  }
}

=== FILE: order.dfy ===
/**
 * Comparators. Every `Comparator<T>` the core uses (the natural order of
 * integers, its reversal, `KDData.DimensionComparator` and
 * `HeapStorage.distcmp`) orders elements by an integer ranking, so a
 * comparator is modelled by that ranking `key`, and `Compare` is the
 * three-valued result the Java `compare` method returns.
 */
module Order {

  /** The sign-valued comparison `cmp.compare(a, b)` induced by `key`. */
  function Compare<T>(key: T -> int, a: T, b: T): (c: int)
    ensures c == -1 || c == 0 || c == 1
    ensures c < 0 <==> key(a) < key(b)
    ensures c == 0 <==> key(a) == key(b)
  {
    if key(a) < key(b) then -1 else if key(a) > key(b) then 1 else 0
  }

  /** `cmp.reversed()`. */
  function Reversed<T>(key: T -> int): T -> int
  {
    x => -key(x)
  }

  /** Nondecreasing under the comparator: what `validateArray` in the tests checks. */
  predicate SortedBy<T>(s: seq<T>, key: T -> int)
  {
    forall i, j :: 0 <= i < j < |s| ==> key(s[i]) <= key(s[j])
  }

  /** The slice `s[lo..hi)` is nondecreasing under the comparator. */
  predicate SortedRange<T>(s: seq<T>, lo: int, hi: int, key: T -> int)
    requires 0 <= lo <= hi <= |s|
  {
    forall i, j :: lo <= i < j < hi ==> key(s[i]) <= key(s[j])
  }

  /** The identity ranking: the natural order of integers. */
  function Natural(x: int): int { x }
}

=== FILE: partition.dfy ===
/**
 * `algorithms.Partition`: the two-cursor (Hoare) partition with range
 * guards, the median-of-three pivot chooser and the quickselect
 * `nth_element`. The in-place array is modelled as a sequence value that
 * each operation returns rearranged.
 */
module Partition {
  import opened Order
  import opened Functions
  import opened Results

  /**
   * The i-cursor scan `do { i++ } while (i < e && values[i] < pivot)`:
   * the first index after `i` that is `e` or holds a value not below the pivot.
   */
  function ScanUp<T>(a: seq<T>, i: int, e: int, pivot: T, key: T -> int): (r: int)
    requires -1 <= i < e < |a|
    ensures i < r <= e
    ensures forall k :: i < k < r ==> key(a[k]) < key(pivot)
    ensures r == e || key(a[r]) >= key(pivot)
    decreases e - i
  {
    var i' := i + 1;
    if i' < e && Compare(key, a[i'], pivot) < 0 then ScanUp(a, i', e, pivot, key) else i'
  }

  /**
   * The j-cursor scan `do { j-- } while (j > s && values[j] > pivot)`:
   * the last index before `j` that is `s` or holds a value not above the pivot.
   */
  function ScanDown<T>(a: seq<T>, j: int, s: int, pivot: T, key: T -> int): (r: int)
    requires 0 <= s < j <= |a|
    ensures s <= r < j
    ensures forall k :: r < k < j ==> key(a[k]) > key(pivot)
    ensures r == s || key(a[r]) <= key(pivot)
    decreases j - s
  {
    var j' := j - 1;
    if j' > s && Compare(key, a[j'], pivot) > 0 then ScanDown(a, j', s, pivot, key) else j'
  }

  /**
   * The `while (true)` loop of `partition`, from cursors `i` and `j`. Everything
   * in `[s, i]` is already at most the pivot and everything in `[j, e]` at
   * least the pivot. On return the slice is split at the returned index `j`;
   * `values[j]` itself is only bounded above, and only when some value of the
   * slice is at most the pivot.
   */
  function HoareLoop<T>(a: seq<T>, s: int, e: int, pivot: T, key: T -> int, i: int, j: int): (r: (seq<T>, int))
    requires 0 <= s <= e < |a|
    requires s - 1 <= i < j <= e + 1 && i < e && s < j
    requires forall k :: s <= k <= i ==> key(a[k]) <= key(pivot)
    requires forall k :: j <= k <= e ==> key(a[k]) >= key(pivot)
    ensures s <= r.1 <= e
    ensures Permutes(a, r.0, s, e)
    ensures forall k :: s <= k < r.1 ==> key(r.0[k]) <= key(pivot)
    ensures forall k :: r.1 < k <= e ==> key(r.0[k]) >= key(pivot)
    ensures (i >= s || (j == e + 1 && exists k :: s <= k <= e && key(a[k]) <= key(pivot)))
            ==> key(r.0[r.1]) <= key(pivot)
    decreases j - i
  {
    var i' := ScanUp(a, i, e, pivot, key);
    var j' := ScanDown(a, j, s, pivot, key);
    if i' >= j' then
      HoareLoopDone(a, s, e, pivot, key, i, j, i', j');
      (a, j')
    else
      var b := Swap(a, i', j');
      HoareLoopSwap(a, s, e, pivot, key, i, j, i', j');
      var r := HoareLoop(b, s, e, pivot, key, i', j');
      PermutesTrans(a, b, r.0, s, e, s, e);
      r
  }

  /** When the cursors have met, the slice is already split at `j'`. */
  lemma HoareLoopDone<T>(a: seq<T>, s: int, e: int, pivot: T, key: T -> int, i: int, j: int, i': int, j': int)
    requires 0 <= s <= e < |a|
    requires s - 1 <= i < j <= e + 1 && i < e && s < j
    requires forall k :: s <= k <= i ==> key(a[k]) <= key(pivot)
    requires forall k :: j <= k <= e ==> key(a[k]) >= key(pivot)
    requires i' == ScanUp(a, i, e, pivot, key) && j' == ScanDown(a, j, s, pivot, key) && i' >= j'
    ensures s <= j' <= e
    ensures forall k :: s <= k < j' ==> key(a[k]) <= key(pivot)
    ensures forall k :: j' < k <= e ==> key(a[k]) >= key(pivot)
    ensures (i >= s || (j == e + 1 && exists k :: s <= k <= e && key(a[k]) <= key(pivot)))
            ==> key(a[j']) <= key(pivot)
  {
  }

  /** Exchanging the values under the cursors grows both settled ends of the slice. */
  lemma HoareLoopSwap<T>(a: seq<T>, s: int, e: int, pivot: T, key: T -> int, i: int, j: int, i': int, j': int)
    requires 0 <= s <= e < |a|
    requires s - 1 <= i < j <= e + 1 && i < e && s < j
    requires forall k :: s <= k <= i ==> key(a[k]) <= key(pivot)
    requires forall k :: j <= k <= e ==> key(a[k]) >= key(pivot)
    requires i' == ScanUp(a, i, e, pivot, key) && j' == ScanDown(a, j, s, pivot, key) && i' < j'
    ensures s <= i' < j' <= e
    ensures forall k :: s <= k <= i' ==> key(Swap(a, i', j')[k]) <= key(pivot)
    ensures forall k :: j' <= k <= e ==> key(Swap(a, i', j')[k]) >= key(pivot)
    ensures Permutes(a, Swap(a, i', j'), s, e)
  {
    SwapPermutes(a, i', j', s, e);
  }

  /**
   * `partition(values, s, e, pivot, cmp)`: rearranges `values[s..e]` and
   * returns an index `j` in `[s, e]` with everything before it at most the
   * pivot and everything after it at least the pivot. It does not pin the
   * pivot at `j` (see `PartitionDoesNotPinPivot`).
   */
  function Partition<T>(a: seq<T>, s: int, e: int, pivot: T, key: T -> int): (r: (seq<T>, int))
    requires 0 <= s <= e < |a|
    ensures s <= r.1 <= e
    ensures Permutes(a, r.0, s, e)
    ensures forall k :: s <= k < r.1 ==> key(r.0[k]) <= key(pivot)
    ensures forall k :: r.1 < k <= e ==> key(r.0[k]) >= key(pivot)
    ensures (exists k :: s <= k <= e && key(a[k]) <= key(pivot)) ==> key(r.0[r.1]) <= key(pivot)
  {
    HoareLoop(a, s, e, pivot, key, s - 1, e + 1)
  }

  /**
   * `partition(values, pivot, cmp)`: the whole array. On an empty array the
   * first step of the i-scan reads `values[0]`, out of bounds.
   */
  function PartitionAll<T>(a: seq<T>, pivot: T, key: T -> int): (r: Result<(seq<T>, int)>)
    ensures r.Err? <==> |a| == 0
    ensures r.Err? ==> r.error == ArrayIndexOutOfBounds
    ensures r.Ok? ==> 0 <= r.value.1 < |a| && multiset(r.value.0) == multiset(a) && |r.value.0| == |a|
    ensures r.Ok? ==> forall k :: 0 <= k < r.value.1 ==> key(r.value.0[k]) <= key(pivot)
    ensures r.Ok? ==> forall k :: r.value.1 < k < |a| ==> key(r.value.0[k]) >= key(pivot)
  {
    if |a| == 0 then Err(ArrayIndexOutOfBounds)
    else Ok(Partition(a, 0, |a| - 1, pivot, key))
  }

  /** `x` lies between the other two values under the comparator. */
  predicate IsMedian<T>(x: T, y: T, z: T, key: T -> int)
  {
    (key(y) <= key(x) <= key(z)) || (key(z) <= key(x) <= key(y))
  }

  /**
   * `median_of_three(v1, v2, v3, cmp)`: a median of the three values, preferring
   * `v1`, then `v2`, when several qualify.
   */
  function MedianOfThree<T>(v1: T, v2: T, v3: T, key: T -> int): (r: T)
    ensures r == v1 || r == v2 || r == v3
    ensures r == v1 ==> IsMedian(v1, v2, v3, key)
    ensures r == v2 ==> IsMedian(v2, v1, v3, key)
    ensures r == v3 ==> IsMedian(v3, v1, v2, key)
    ensures IsMedian(v1, v2, v3, key) ==> r == v1
    ensures !IsMedian(v1, v2, v3, key) && IsMedian(v2, v1, v3, key) ==> r == v2
  {
    var a := Compare(key, v1, v2);
    var b := Compare(key, v1, v3);
    var c := Compare(key, v2, v3);
    if (a >= 0 && b <= 0) || (a <= 0 && b >= 0) then v1
    else if (a <= 0 && c <= 0) || (a >= 0 && c >= 0) then v2
    else v3
  }

  /** `r` holds, position by position, values of the same rank as `a`. */
  ghost predicate SameKeys<T>(a: seq<T>, r: seq<T>, key: T -> int)
  {
    |r| == |a| && forall k :: 0 <= k < |a| ==> key(r[k]) == key(a[k])
  }

  /** The rank of the value at index `i`. */
  function KeyAt<T>(a: seq<T>, i: int, key: T -> int): int
    requires 0 <= i < |a|
  {
    key(a[i])
  }

  /**
   * `SortedRange`, with its pairs only compared where a proof names them
   * through `KeyAt`: the quickselect unfolds into many indices, and a
   * comparison of every pair of them is more than the proofs need.
   */
  ghost predicate Ranked<T>(a: seq<T>, lo: int, hi: int, key: T -> int)
    requires 0 <= lo <= hi <= |a|
  {
    forall i, j {:trigger KeyAt(a, i, key), KeyAt(a, j, key)} :: lo <= i < j < hi ==> KeyAt(a, i, key) <= KeyAt(a, j, key)
  }

  /** `Ranked` and `SortedRange` say the same thing. */
  lemma RankedIsSorted<T>(a: seq<T>, lo: int, hi: int, key: T -> int)
    requires 0 <= lo <= hi <= |a|
    ensures Ranked(a, lo, hi, key) <==> SortedRange(a, lo, hi, key)
  {
    if SortedRange(a, lo, hi, key) {
      forall i, j | lo <= i < j < hi
        ensures KeyAt(a, i, key) <= KeyAt(a, j, key)
      {
      }
    }
    if Ranked(a, lo, hi, key) {
      forall i, j | lo <= i < j < hi
        ensures key(a[i]) <= key(a[j])
      {
        assert KeyAt(a, i, key) <= KeyAt(a, j, key);
      }
    }
  }

  /** Only exchanging equal-ranking values keeps a slice sorted. */
  lemma RankedSameKeys<T>(a: seq<T>, r: seq<T>, lo: int, hi: int, key: T -> int)
    requires 0 <= lo <= hi <= |a|
    requires SameKeys(a, r, key) && Ranked(a, lo, hi, key)
    ensures Ranked(r, lo, hi, key)
  {
    forall i, j | lo <= i < j < hi
      ensures KeyAt(r, i, key) <= KeyAt(r, j, key)
    {
      assert KeyAt(a, i, key) <= KeyAt(a, j, key);
    }
  }

  /** A sorted slice is sorted on every sub-slice. */
  lemma RankedWithin<T>(a: seq<T>, lo: int, hi: int, lo': int, hi': int, key: T -> int)
    requires 0 <= lo <= lo' <= hi' <= hi <= |a|
    requires Ranked(a, lo, hi, key)
    ensures Ranked(a, lo', hi', key)
  {
    forall i, j | lo' <= i < j < hi'
      ensures KeyAt(a, i, key) <= KeyAt(a, j, key)
    {
      assert KeyAt(a, i, key) <= KeyAt(a, j, key);
    }
  }

  /** On a slice that is already sorted, every swap of the loop exchanges equal values. */
  lemma {:induction false} HoareLoopKeepsSortedKeys<T>(a: seq<T>, s: int, e: int, pivot: T, key: T -> int, i: int, j: int)
    requires 0 <= s <= e < |a|
    requires s - 1 <= i < j <= e + 1 && i < e && s < j
    requires forall k :: s <= k <= i ==> key(a[k]) <= key(pivot)
    requires forall k :: j <= k <= e ==> key(a[k]) >= key(pivot)
    requires Ranked(a, s, e + 1, key)
    ensures SameKeys(a, HoareLoop(a, s, e, pivot, key, i, j).0, key)
    decreases j - i
  {
    var i' := ScanUp(a, i, e, pivot, key);
    var j' := ScanDown(a, j, s, pivot, key);
    if i' < j' {
      assert KeyAt(a, i', key) <= KeyAt(a, j', key);
      var b := Swap(a, i', j');
      assert SameKeys(a, b, key);
      RankedSameKeys(a, b, s, e + 1, key);
      HoareLoopKeepsSortedKeys(b, s, e, pivot, key, i', j');
      SameKeysTrans(a, b, HoareLoop(b, s, e, pivot, key, i', j').0, key);
    }
  }

  /** Keeping every rank in place composes. */
  lemma SameKeysTrans<T>(a: seq<T>, b: seq<T>, c: seq<T>, key: T -> int)
    requires SameKeys(a, b, key) && SameKeys(b, c, key)
    ensures SameKeys(a, c, key)
  {
  }

  /**
   * The body of one `nth_element` round: the pivot is the median of the
   * first, middle and last values of `[lo, hi]`, and the window is
   * partitioned around it.
   */
  function NthRound<T>(a: seq<T>, lo: int, hi: int, key: T -> int): (r: (seq<T>, int))
    requires 0 <= lo <= hi < |a|
    ensures lo <= r.1 <= hi
    ensures Permutes(a, r.0, lo, hi)
    ensures var pivot := MedianOfThree(a[lo], a[(lo + hi) / 2], a[hi], key);
      (forall k :: lo <= k < r.1 ==> key(r.0[k]) <= key(pivot)) &&
      (forall k :: r.1 < k <= hi ==> key(r.0[k]) >= key(pivot))
  {
    var med := (lo + hi) / 2;
    Partition(a, lo, hi, MedianOfThree(a[lo], a[med], a[hi], key), key)
  }

  /** On a sorted slice, the partition of one quickselect round only exchanges equal values. */
  lemma NthRoundKeepsSortedKeys<T>(a: seq<T>, s: int, e: int, lo: int, hi: int, key: T -> int)
    requires 0 <= s <= lo <= hi <= e < |a|
    ensures Ranked(a, s, e + 1, key) ==>
      SameKeys(a, NthRound(a, lo, hi, key).0, key) && Ranked(NthRound(a, lo, hi, key).0, s, e + 1, key)
  {
    if Ranked(a, s, e + 1, key) {
      var pivot := MedianOfThree(a[lo], a[(lo + hi) / 2], a[hi], key);
      RankedWithin(a, s, e + 1, lo, hi + 1, key);
      HoareLoopKeepsSortedKeys(a, lo, hi, pivot, key, lo - 1, hi + 1);
      RankedSameKeys(a, NthRound(a, lo, hi, key).0, s, e + 1, key);
    }
  }

  /**
   * The `while (min != max)` loop of `nth_element` over the active range
   * `[lo, hi]`, which always contains `n` and strictly shrinks each round.
   */
  function NthLoop<T>(a: seq<T>, s: int, e: int, n: int, lo: int, hi: int, key: T -> int): (r: seq<T>)
    requires 0 <= s <= lo <= n <= hi <= e < |a|
    ensures Permutes(a, r, s, e)
    ensures Ranked(a, s, e + 1, key) ==> SameKeys(a, r, key)
    decreases hi - lo
  {
    if lo == hi then a
    else
      var p := NthRound(a, lo, hi, key);
      NthRoundKeepsSortedKeys(a, s, e, lo, hi, key);
      var a', index := p.0, p.1;
      if index == n then a'
      else if index > n then NthLoop(a', s, e, n, lo, index - 1, key)
      else NthLoop(a', s, e, n, index + 1, hi, key)
  }

  /**
   * `nth_element(values, s, e, n, cmp)`: rearranges `values[s..e]` only. The
   * documented promise that `values[n]` ends in its sorted position does not
   * follow (see `NthElementNotInPlace`).
   */
  function NthElement<T>(a: seq<T>, s: int, e: int, n: int, key: T -> int): (r: seq<T>)
    requires 0 <= s <= n <= e < |a|
    ensures Permutes(a, r, s, e)
  {
    NthLoop(a, s, e, n, s, e, key)
  }

  /**
   * `nth_element(values, n, cmp)`: the whole array, for any `n`. An empty
   * array reads `values[0]` in the first round. An `n` inside the array is
   * `NthElement`; an `n` outside it is `NthOverrun`.
   */
  function NthElementAll<T>(a: seq<T>, n: int, key: T -> int): (r: Result<seq<T>>)
    ensures |a| == 0 ==> r == Err(ArrayIndexOutOfBounds)
    ensures r.Err? ==> r.error == ArrayIndexOutOfBounds
    ensures 0 <= n < |a| ==> r.Ok? && Permutes(a, r.value, 0, |a| - 1)
    ensures r.Ok? ==> |r.value| == |a| && multiset(r.value) == multiset(a)
  {
    if |a| == 0 then Err(ArrayIndexOutOfBounds)
    else if 0 <= n < |a| then Ok(NthElement(a, 0, |a| - 1, n, key))
    else NthOverrun(a, n, 0, |a| - 1, key)
  }

  /**
   * The `while (min != max)` loop of the whole-array `nth_element` when `n`
   * lies outside the array, so `index == n` never holds. Below the array
   * every round lowers `max` and `min` stays `0`; beyond it every round
   * raises `min` and `max` stays the last index. The loop ends normally
   * when the two meet. When they cross, the next round reads `values[max]`
   * with `max == -1`, or `values[min]` with `min == length`, out of bounds.
   */
  function NthOverrun<T>(a: seq<T>, n: int, lo: int, hi: int, key: T -> int): (r: Result<seq<T>>)
    requires 0 <= lo <= hi + 1 <= |a|
    requires (n < 0 && lo == 0) || (n >= |a| && hi == |a| - 1)
    ensures r.Err? ==> r.error == ArrayIndexOutOfBounds && lo <= hi + 1
    ensures lo == hi ==> r == Ok(a)
    ensures lo > hi ==> r.Err?
    ensures r.Ok? ==> Permutes(a, r.value, lo, hi)
    decreases hi - lo + 1
  {
    if lo == hi then Ok(a)
    else if lo > hi then Err(ArrayIndexOutOfBounds)
    else
      var p := NthRound(a, lo, hi, key);
      var a', index := p.0, p.1;
      if index > n then
        var r := NthOverrun(a', n, lo, index - 1, key);
        PermutesOk(a, a', r, lo, hi);
        r
      else
        var r := NthOverrun(a', n, index + 1, hi, key);
        PermutesOk(a, a', r, lo, hi);
        r
  }

  /** A successful run after a permuting round permutes the same window. */
  lemma PermutesOk<T>(a: seq<T>, a': seq<T>, r: Result<seq<T>>, lo: int, hi: int)
    requires Permutes(a, a', lo, hi)
    requires r.Ok? ==> Permutes(a', r.value, lo, hi)
    ensures r.Ok? ==> Permutes(a, r.value, lo, hi)
  {
    if r.Ok? {
      PermutesTrans(a, a', r.value, lo, hi, lo, hi);
    }
  }

  /** Beyond the end: `nth_element([1, 2, 3], 5)` partitions once at index 1, `min` meets `max`, and it returns normally. */
  lemma NthElementBeyondEnd(a: seq<int>)
    requires a == [1, 2, 3]
    ensures NthElementAll(a, 5, Natural) == Ok(a)
  {
    assert MedianOfThree(a[0], a[1], a[2], Natural) == 2;
    assert ScanUp(a, -1, 2, 2, Natural) == 1;
    assert ScanDown(a, 3, 0, 2, Natural) == 1;
    assert HoareLoop(a, 0, 2, 2, Natural, -1, 3) == (a, 1);
    assert NthRound(a, 0, 2, Natural) == (a, 1);
  }

  /** Before the start: `nth_element([1, 2], -1)` partitions at index 0, `max` drops to -1, and the next round reads `values[-1]`. */
  lemma NthElementBeforeStart(a: seq<int>)
    requires a == [1, 2]
    ensures NthElementAll(a, -1, Natural) == Err(ArrayIndexOutOfBounds)
  {
    assert MedianOfThree(a[0], a[0], a[1], Natural) == 1;
    assert ScanUp(a, -1, 1, 1, Natural) == 0;
    assert ScanDown(a, 2, 0, 1, Natural) == 0;
    assert HoareLoop(a, 0, 1, 1, Natural, -1, 2) == (a, 0);
    assert NthRound(a, 0, 1, Natural) == (a, 0);
  }

  /** The order-statistic property the documentation promises for position `n` of `[s, e]`. */
  predicate InSortedPosition<T>(r: seq<T>, s: int, e: int, n: int, key: T -> int)
    requires 0 <= s <= n <= e < |r|
  {
    && (forall k :: s <= k < n ==> key(r[k]) <= key(r[n]))
    && (forall k :: n < k <= e ==> key(r[n]) <= key(r[k]))
  }

  /**
   * The documented promise of `partition` fails: `[3, 1, 2]` with pivot 2
   * becomes `[2, 1, 3]` and the returned index 1 holds 1, not the pivot.
   */
  lemma PartitionDoesNotPinPivot()
    ensures Partition([3, 1, 2], 0, 2, 2, Natural) == ([2, 1, 3], 1)
    ensures Partition([3, 1, 2], 0, 2, 2, Natural).0[1] != 2
  {
    var a := [3, 1, 2];
    assert ScanUp(a, -1, 2, 2, Natural) == 0;
    assert ScanDown(a, 3, 0, 2, Natural) == 2;
    var b := Swap(a, 0, 2);
    assert b == [2, 1, 3];
    assert ScanUp(b, 0, 2, 2, Natural) == 2;
    assert ScanDown(b, 2, 0, 2, Natural) == 1;
    assert HoareLoop(b, 0, 2, 2, Natural, 0, 2) == (b, 1);
    assert HoareLoop(a, 0, 2, 2, Natural, -1, 3) == (b, 1);
  }

  /**
   * The documented promise of `nth_element` fails: on `[3, 1, 2]` with
   * `n = 1` the first partition returns index 1 and the loop stops with 1,
   * not the median 2, at index 1.
   */
  lemma NthElementNotInPlace()
    ensures NthElement([3, 1, 2], 0, 2, 1, Natural) == [2, 1, 3]
    ensures !InSortedPosition(NthElement([3, 1, 2], 0, 2, 1, Natural), 0, 2, 1, Natural)
  {
    var a := [3, 1, 2];
    assert MedianOfThree(3, 1, 2, Natural) == 2;
    PartitionDoesNotPinPivot();
    assert NthRound(a, 0, 2, Natural) == ([2, 1, 3], 1);
    assert NthLoop(a, 0, 2, 1, 0, 2, Natural) == [2, 1, 3];
  }

  /**
   * Under the stronger hypothesis that the slice is already sorted, the
   * documented promise of `nth_element` holds: position `n` keeps its rank
   * and the slice stays sorted.
   */
  lemma NthElementOnSortedSlice<T>(a: seq<T>, s: int, e: int, n: int, key: T -> int)
    requires 0 <= s <= n <= e < |a|
    requires SortedRange(a, s, e + 1, key)
    ensures SortedRange(NthElement(a, s, e, n, key), s, e + 1, key)
    ensures InSortedPosition(NthElement(a, s, e, n, key), s, e, n, key)
  {
    var r := NthElement(a, s, e, n, key);
    RankedIsSorted(a, s, e + 1, key);
    RankedSameKeys(a, r, s, e + 1, key);
    RankedIsSorted(r, s, e + 1, key);
  }}

=== FILE: results.dfy ===
/** Optional values and exceptional outcomes of the Java code: `null` and thrown exceptions. */
module Results {

  /** A Java reference that may be `null`. */
  datatype Option<+T> = None | Some(value: T)

  /** The runtime exceptions and checked exceptions the modelled code can raise. */
  datatype Exception =
    | ArrayIndexOutOfBounds
    | NullPointer
    | ArithmeticDivideByZero
    | DuplicateKey

  /** Either a normal result or the exception that ended the call. */
  datatype Result<+T> = Ok(value: T) | Err(error: Exception)
}

=== FILE: sorting.dfy ===
/**
 * `algorithms.Sorting`: the in-place sorts over a comparator. Each one is
 * applied to a value copy of the array and returns the array as the sort
 * leaves it. The operation counters are instrumentation and are dropped,
 * except for the one `selectionSort` returns, whose 32-bit wrap-around is
 * modelled.
 */
module Sorting {
  import opened Order
  import opened Functions
  import opened Results
  import Partition
  import BinaryHeap
  import Int32

  // ------------------------------------------------------------ insertion

  /**
   * `insertionSort(array, cmp)`: for each `i`, the element at `i + 1` is
   * swapped towards the front while it ranks strictly below its left
   * neighbour.
   */
  method InsertionSort<T>(a: seq<T>, key: T -> int) returns (r: seq<T>)
    ensures SortedBy(r, key)
    ensures multiset(r) == multiset(a) && |r| == |a|
  {
    r := a;
    if |r| == 0 {
      return;
    }
    var i := 0;
    while i < |r| - 1
      invariant 0 <= i < |r| == |a|
      invariant multiset(r) == multiset(a)
      invariant SortedRange(r, 0, i + 1, key)
    {
      var j := i + 1;
      while j > 0
        invariant 0 <= j <= i + 1
        invariant |r| == |a| && multiset(r) == multiset(a)
        invariant forall p, q :: 0 <= p < q <= i + 1 && p != j && q != j ==> key(r[p]) <= key(r[q])
        invariant forall q :: j < q <= i + 1 ==> key(r[j]) <= key(r[q])
      {
        if Compare(key, r[j], r[j - 1]) < 0 {
          r := Swap(r, j, j - 1);
        } else {
          break;
        }
        j := j - 1;
      }
      i := i + 1;
    }
  }

  // ------------------------------------------------------------ selection

  /** The count `selectionSort` returns for an array of length `n`. */
  function SelectionOps(n: nat): nat
  {
    if n == 0 then 0 else n * (n + 1) / 2 - 1
  }

  /**
   * The operations counted by the first `i` rounds on an array of length
   * `n`: round `p` makes `n - p - 1` comparisons and one swap.
   */
  function RoundsOps(n: nat, i: nat): nat
    requires i <= n
  {
    if i == 0 then 0 else RoundsOps(n, i - 1) + (n - i + 1)
  }

  /** The operation count of the first `i` rounds in closed form. */
  lemma {:induction false} RoundsOpsClosed(n: nat, i: nat)
    requires i <= n
    ensures 2 * RoundsOps(n, i) == n * (n + 1) - (n - i) * (n - i + 1)
  {
    if i > 0 {
      RoundsOpsClosed(n, i - 1);
      assert (n - i + 1) * (n - i + 2) == (n - i) * (n - i + 1) + 2 * (n - i + 1);
    }
  }

  /** `r[..i]` is sorted and ranks no higher than anything after it: the first `i` places are settled. */
  ghost predicate Settled<T>(r: seq<T>, i: int, key: T -> int)
    requires 0 <= i <= |r|
  {
    && SortedRange(r, 0, i, key)
    && forall p, q :: 0 <= p < i <= q < |r| ==> key(r[p]) <= key(r[q])
  }

  /** Swapping a minimum of `r[i..]` into `i` extends the sorted, settled prefix by one. */
  lemma SelectSwap<T>(r: seq<T>, i: int, m: int, key: T -> int)
    requires 0 <= i <= m < |r|
    requires Settled(r, i, key)
    requires forall k :: i <= k < |r| ==> key(r[m]) <= key(r[k])
    ensures Settled(Swap(r, i, m), i + 1, key)
  {
  }

  /**
   * The inner loop of `selectionSort`: the first lowest-ranking index of
   * `r[i..]`, found with one comparison per later element.
   */
  method MinIndexFrom<T>(r: seq<T>, i: int, key: T -> int) returns (m: int, comparisons: nat)
    requires 0 <= i < |r|
    ensures i <= m < |r|
    ensures forall k :: i <= k < |r| ==> key(r[m]) <= key(r[k])
    ensures forall k :: i <= k < m ==> key(r[k]) > key(r[m])
    ensures comparisons == |r| - i - 1
  {
    m := i;
    comparisons := 0;
    var j := i + 1;
    while j < |r|
      invariant i < j <= |r|
      invariant i <= m < j
      invariant forall k :: i <= k < j ==> key(r[m]) <= key(r[k])
      invariant forall k :: i <= k < m ==> key(r[k]) > key(r[m])
      invariant comparisons == j - i - 1
    {
      comparisons := comparisons + 1;
      if Compare(key, r[j], r[m]) < 0 {
        m := j;
      }
      j := j + 1;
    }
  }

  /** Below 65536 elements the count fits in an `int`. */
  lemma SelectionOpsFits(n: nat)
    requires n <= 65535
    ensures SelectionOps(n) <= Int32.Max
  {
    if n > 0 {
      ProductBelow(n, n + 1, 65536);
    }
  }

  /** Multiplying by a larger factor gives no smaller product. */
  lemma ProductBelow(a: nat, b: nat, c: nat)
    requires b <= c
    ensures a * b <= a * c
  {
  }

  /** The first `n - 1` rounds are all of them: their count is `SelectionOps(n)`. */
  lemma RoundsOpsTotal(n: nat)
    requires n >= 1
    ensures RoundsOps(n, n - 1) == SelectionOps(n)
  {
    RoundsOpsClosed(n, n - 1);
  }

  /** At 65536 elements the count no longer fits, and the returned `int` is negative. */
  lemma SelectionOpsWraps(n: nat)
    requires n == 65536
    ensures SelectionOps(n) == 2147516415 > Int32.Max
    ensures Int32.Wrap(SelectionOps(n)) == -2147450881
  {
  }

  /** One more round of `n - i - 1` comparisons and a swap, counted in an `int`. */
  lemma CountRound(n: nat, i: nat, ops: int, comparisons: nat)
    requires i < n && comparisons == n - i - 1
    requires ops == Int32.Wrap(RoundsOps(n, i))
    ensures Int32.Wrap(ops + comparisons + 1) == Int32.Wrap(RoundsOps(n, i + 1))
  {
    Int32.WrapAdd(RoundsOps(n, i), comparisons + 1);
  }

  /** After all `n - 1` rounds the `int` count is the wrapped `SelectionOps(n)`, and exact below 65536 elements. */
  lemma CountAllRounds(n: nat, ops: int)
    requires n >= 1 && ops == Int32.Wrap(RoundsOps(n, n - 1))
    ensures ops == Int32.Wrap(SelectionOps(n))
    ensures n <= 65535 ==> ops == SelectionOps(n)
  {
    RoundsOpsTotal(n);
    if n <= 65535 {
      SelectionOpsFits(n);
    }
  }

  /**
   * `selectionSort(array, cmp)`: for each `i` but the last, find the first
   * lowest-ranking element of `array[i..]` and swap it into `i`. Each inner
   * comparison and each swap counts one operation, in an `int` that wraps
   * around; the count is widened to `long` only on return.
   */
  method SelectionSort<T>(a: seq<T>, key: T -> int) returns (r: seq<T>, ops: int)
    ensures SortedBy(r, key)
    ensures multiset(r) == multiset(a) && |r| == |a|
    ensures ops == Int32.Wrap(SelectionOps(|a|))
    ensures |a| <= 65535 ==> ops == SelectionOps(|a|)
  {
    r := a;
    ops := 0;
    var n := |a|;
    if n == 0 {
      return;
    }
    var i := 0;
    while i < n - 1
      invariant 0 <= i < n == |r|
      invariant multiset(r) == multiset(a)
      invariant Settled(r, i, key)
      invariant ops == Int32.Wrap(RoundsOps(n, i))
    {
      var m, comparisons := MinIndexFrom(r, i, key);
      CountRound(n, i, ops, comparisons);
      ops := Int32.Wrap(ops + comparisons + 1);
      SelectSwap(r, i, m, key);
      r := Swap(r, i, m);
      i := i + 1;
    }
    CountAllRounds(n, ops);
  }

  // --------------------------------------------------------------- bubble

  /** The first element ranks no higher than any other. */
  predicate MinFirst<T>(a: seq<T>, key: T -> int)
  {
    forall k :: 0 <= k < |a| ==> key(a[0]) <= key(a[k])
  }

  /**
   * `bubbleSort(array, cmp)`: round `i` swaps `array[i]` with every later
   * element that ranks below it. The `swap` flag is set by any swap and
   * never cleared, so the early exit can only fire after round 0: an array
   * whose first element is already lowest is returned as it is, sorted or
   * not, and every other array is fully sorted.
   */
  method BubbleSort<T>(a: seq<T>, key: T -> int) returns (r: seq<T>)
    ensures multiset(r) == multiset(a) && |r| == |a|
    ensures MinFirst(a, key) ==> r == a
    ensures !MinFirst(a, key) ==> SortedBy(r, key)
  {
    r := a;
    var n := |a|;
    var swapped := false;
    var i := 0;
    var stop := false;
    while i < n - 1 && !stop
      invariant 0 <= i <= n && |r| == n
      invariant multiset(r) == multiset(a)
      invariant SortedRange(r, 0, i, key)
      invariant forall p, q :: 0 <= p < i <= q < n ==> key(r[p]) <= key(r[q])
      invariant !swapped ==> r == a
      invariant swapped ==> !MinFirst(a, key)
      invariant i > 0 ==> swapped
      invariant stop ==> MinFirst(a, key)
      decreases n - i, if stop then 0 else 1
    {
      var j := i + 1;
      while j < n
        invariant i < j <= n && |r| == n
        invariant multiset(r) == multiset(a)
        invariant SortedRange(r, 0, i, key)
        invariant forall p, q :: 0 <= p < i <= q < n ==> key(r[p]) <= key(r[q])
        invariant forall k :: i < k < j ==> key(r[i]) <= key(r[k])
        invariant !swapped ==> r == a
        invariant swapped ==> !MinFirst(a, key)
        invariant i > 0 ==> swapped
      {
        if Compare(key, r[i], r[j]) > 0 {
          r := Swap(r, i, j);
          swapped := true;
        }
        j := j + 1;
      }
      if !swapped {
        stop := true;
      } else {
        i := i + 1;
      }
    }
  }

  /** The early exit in action: `[1, 3, 2]` comes back unsorted. */
  method BubbleSortStopsEarly() returns (r: seq<int>)
    ensures r == [1, 3, 2] && !SortedBy(r, Natural)
  {
    r := BubbleSort([1, 3, 2], Natural);
    assert MinFirst([1, 3, 2], Natural);
    assert Natural(r[1]) > Natural(r[2]);
  }

  // ---------------------------------------------------------------- merge

  /** The end of the block that starts at `lo`: `Math.min(lo + w, length)`. */
  function BlockEnd(lo: int, w: int, n: int): int
  {
    if lo + w < n then lo + w else n
  }

  /** Block number `b` of width `w` (`s[b*w .. min(b*w + w, |s|))`) is sorted. */
  predicate SortedBlock<T>(s: seq<T>, b: nat, w: nat, key: T -> int)
    requires b * w <= |s|
  {
    SortedRange(s, b * w, BlockEnd(b * w, w, |s|), key)
  }

  /** Every block of width `w` is sorted. */
  ghost predicate BlocksSorted<T>(s: seq<T>, w: nat, key: T -> int)
  {
    forall b: nat :: b * w < |s| ==> SortedBlock(s, b, w, key)
  }

  /**
   * The innermost loop of `mergeSort`: fill `temp[iLeft .. iEnd)` from the
   * left run `array[iLeft .. lim)` and the right run `array[lim .. iEnd)`,
   * taking the left element only when it ranks strictly lower (or the right
   * run is exhausted).
   */
  method Merge<T>(left: seq<T>, right: seq<T>, key: T -> int) returns (m: seq<T>)
    ensures |m| == |left| + |right|
    ensures multiset(m) == multiset(left) + multiset(right)
    ensures SortedBy(left, key) && SortedBy(right, key) ==> SortedBy(m, key)
  {
    m := [];
    var l, r := 0, 0;
    ghost var ok := SortedBy(left, key) && SortedBy(right, key);
    while l + r < |left| + |right|
      invariant MergeInv(left, right, m, l, r, key, ok)
      decreases |left| + |right| - l - r
    {
      if l < |left| && (r >= |right| || Compare(key, left[l], right[r]) < 0) {
        MergeTakeLeft(left, right, m, l, r, key, ok);
        m := m + [left[l]];
        l := l + 1;
      } else {
        MergeTakeRight(left, right, m, l, r, key, ok);
        m := m + [right[r]];
        r := r + 1;
      }
    }
    assert left[..l] == left && right[..r] == right;
  }

  /**
   * The loop invariant of `merge`: `m` holds the first `l` elements of the
   * left run and the first `r` of the right one and, when both runs are
   * sorted (`ok`), is sorted and ends no higher than either next element.
   */
  ghost predicate MergeInv<T>(left: seq<T>, right: seq<T>, m: seq<T>, l: int, r: int, key: T -> int, ok: bool)
  {
    && 0 <= l <= |left| && 0 <= r <= |right| && |m| == l + r
    && multiset(m) == multiset(left[..l]) + multiset(right[..r])
    && (ok ==> SortedBy(left, key) && SortedBy(right, key) && SortedBy(m, key))
    && (ok && |m| > 0 && l < |left| ==> key(m[|m| - 1]) <= key(left[l]))
    && (ok && |m| > 0 && r < |right| ==> key(m[|m| - 1]) <= key(right[r]))
  }

  /** Taking the next left value keeps the merge invariant. */
  lemma MergeTakeLeft<T>(left: seq<T>, right: seq<T>, m: seq<T>, l: int, r: int, key: T -> int, ok: bool)
    requires MergeInv(left, right, m, l, r, key, ok)
    requires l < |left| && (r >= |right| || key(left[l]) < key(right[r]))
    ensures MergeInv(left, right, m + [left[l]], l + 1, r, key, ok)
  {
    assert left[..l + 1] == left[..l] + [left[l]];
    if ok {
      SortedSnoc(m, left[l], key);
      if l + 1 < |left| {
        assert key(left[l]) <= key(left[l + 1]);
      }
    }
  }

  /** Taking the next right value keeps the merge invariant. */
  lemma MergeTakeRight<T>(left: seq<T>, right: seq<T>, m: seq<T>, l: int, r: int, key: T -> int, ok: bool)
    requires MergeInv(left, right, m, l, r, key, ok)
    requires l + r < |left| + |right|
    requires !(l < |left| && (r >= |right| || key(left[l]) < key(right[r])))
    ensures r < |right|
    ensures MergeInv(left, right, m + [right[r]], l, r + 1, key, ok)
  {
    assert right[..r + 1] == right[..r] + [right[r]];
    if ok {
      SortedSnoc(m, right[r], key);
      if r + 1 < |right| {
        assert key(right[r]) <= key(right[r + 1]);
      }
    }
  }

  lemma SortedSnoc<T>(m: seq<T>, x: T, key: T -> int)
    requires SortedBy(m, key) && (|m| > 0 ==> key(m[|m| - 1]) <= key(x))
    ensures SortedBy(m + [x], key)
  {
    var t := m + [x];
    forall i, j | 0 <= i < j < |t|
      ensures key(t[i]) <= key(t[j])
    {
      if j == |m| {
        assert key(t[i]) <= key(m[|m| - 1]);
      }
    }
  }

  lemma SortedRangeSlice<T>(s: seq<T>, lo: int, hi: int, key: T -> int)
    requires 0 <= lo <= hi <= |s|
    ensures SortedRange(s, lo, hi, key) <==> SortedBy(s[lo..hi], key)
  {
    if SortedRange(s, lo, hi, key) {
      forall i, j | 0 <= i < j < hi - lo
        ensures key(s[lo..hi][i]) <= key(s[lo..hi][j])
      {
        assert s[lo..hi][i] == s[lo + i] && s[lo..hi][j] == s[lo + j];
      }
    }
    if SortedBy(s[lo..hi], key) {
      forall i, j | lo <= i < j < hi
        ensures key(s[i]) <= key(s[j])
      {
        assert s[lo..hi][i - lo] == s[i] && s[lo..hi][j - lo] == s[j];
      }
    }
  }

  /** Blocks before block `k` end no later than block `k` starts; blocks after it start after it ends. */
  lemma BlockArithmetic(b: nat, k: nat, w: nat)
    ensures b < k ==> b * w + w <= k * w
    ensures b > k ==> b * w >= k * w + w
  {
    if b < k {
      MulStep(b, k - b, w);
    } else if b > k {
      MulStep(k, b - k, w);
    }
  }

  /** One more block of width `w`. */
  lemma MulSucc(k: nat, w: nat)
    ensures (k + 1) * w == k * w + w
  {
  }

  lemma MulStep(x: nat, d: nat, w: nat)
    requires d >= 1
    ensures (x + d) * w >= x * w + w
  {
    var e: nat := d - 1;
    assert (x + d) * w == x * w + w + e * w;
  }

  /** Appending a sorted block of at most `w` elements after `k` whole blocks keeps every block sorted. */
  lemma BlocksAppend<T>(t: seq<T>, m: seq<T>, k: nat, w: nat, key: T -> int)
    requires |t| == k * w && |m| <= w
    requires BlocksSorted(t, w, key) && SortedBy(m, key)
    ensures BlocksSorted(t + m, w, key)
  {
    var u := t + m;
    forall b: nat | b * w < |u|
      ensures SortedBlock(u, b, w, key)
    {
      BlockArithmetic(b, k, w);
      if b < k {
        assert SortedBlock(t, b, w, key);
        assert BlockEnd(b * w, w, |t|) == b * w + w == BlockEnd(b * w, w, |u|);
        forall i, j | b * w <= i < j < b * w + w
          ensures key(u[i]) <= key(u[j])
        {
          assert u[i] == t[i] && u[j] == t[j];
        }
      } else if b == k {
        assert BlockEnd(b * w, w, |u|) == |u|;
        forall i, j | b * w <= i < j < |u|
          ensures key(u[i]) <= key(u[j])
        {
          assert u[i] == m[i - |t|] && u[j] == m[j - |t|];
        }
      }
    }
  }

  /** The two runs the pass merges at `i = k * 2sz` are blocks `2k` and `2k + 1` of width `sz`. */
  lemma RunsSorted<T>(a: seq<T>, sz: nat, k: nat, key: T -> int)
    requires sz >= 1 && k * (2 * sz) < |a| && BlocksSorted(a, sz, key)
    ensures SortedBy(a[k * (2 * sz)..BlockEnd(k * (2 * sz), sz, |a|)], key)
    ensures SortedBy(a[BlockEnd(k * (2 * sz), sz, |a|)..BlockEnd(k * (2 * sz), 2 * sz, |a|)], key)
  {
    var n := |a|;
    var i := k * (2 * sz);
    var lim := BlockEnd(i, sz, n);
    var iEnd := BlockEnd(i, 2 * sz, n);
    assert (2 * k) * sz == i;
    assert SortedBlock(a, 2 * k, sz, key);
    SortedRangeSlice(a, i, lim, key);
    if lim < n {
      assert (2 * k + 1) * sz == lim;
      assert SortedBlock(a, 2 * k + 1, sz, key);
      assert BlockEnd(lim, sz, n) == iEnd;
      SortedRangeSlice(a, lim, iEnd, key);
    }
  }
  /**
   * One pass of the outer loop of `mergeSort`: merge each pair of adjacent
   * runs of width `sz` into `temp`, then copy `temp` back.
   */
  method MergePass<T>(a: seq<T>, sz: nat, key: T -> int) returns (t: seq<T>)
    requires sz >= 1
    ensures |t| == |a| && multiset(t) == multiset(a)
    ensures BlocksSorted(a, sz, key) ==> BlocksSorted(t, 2 * sz, key)
  {
    var n := |a|;
    t := [];
    var i := 0;
    ghost var k: nat := 0;
    ghost var ok := BlocksSorted(a, sz, key);
    while i < n
      invariant PassInv(a, sz, t, i, k, key, ok)
    {
      var m := MergeRuns(a, sz, i, key);
      MergePassStep(a, sz, t, i, k, key, ok, m);
      t := t + m;
      i := i + 2 * sz;
      k := k + 1;
    }
    PassDone(a, sz, t, i, k, key, ok);
  }

  /** Merges the run of width `sz` starting at `i` with the (possibly shorter) run after it. */
  method MergeRuns<T>(a: seq<T>, sz: nat, i: int, key: T -> int) returns (m: seq<T>)
    requires sz >= 1 && 0 <= i < |a|
    ensures var lim, iEnd := BlockEnd(i, sz, |a|), BlockEnd(i, 2 * sz, |a|);
      && |m| == iEnd - i
      && multiset(m) == multiset(a[i..lim]) + multiset(a[lim..iEnd])
      && (SortedBy(a[i..lim], key) && SortedBy(a[lim..iEnd], key) ==> SortedBy(m, key))
  {
    var lim := BlockEnd(i, sz, |a|);
    var iEnd := BlockEnd(i, 2 * sz, |a|);
    m := Merge(a[i..lim], a[lim..iEnd], key);
  }

  /** When the pass has run past the end, `t` is a permutation of all of `a` with sorted merged blocks. */
  lemma PassDone<T>(a: seq<T>, sz: nat, t: seq<T>, i: int, k: nat, key: T -> int, ok: bool)
    requires PassInv(a, sz, t, i, k, key, ok) && i >= |a|
    requires ok == BlocksSorted(a, sz, key)
    ensures |t| == |a| && multiset(t) == multiset(a)
    ensures BlocksSorted(a, sz, key) ==> BlocksSorted(t, 2 * sz, key)
  {
    assert a[..|a|] == a;
  }

  /**
   * The loop invariant of a merge pass: `i` is the start of the `k`-th pair
   * of runs, `t` holds a permutation of the merged prefix `a[..min(i, n)]`,
   * and when the runs of `a` are sorted (`ok`) so are the merged blocks of `t`.
   */
  ghost predicate PassInv<T>(a: seq<T>, sz: nat, t: seq<T>, i: int, k: nat, key: T -> int, ok: bool)
  {
    && sz >= 1
    && i == k * (2 * sz)
    && |t| == (if i <= |a| then i else |a|)
    && multiset(t) == multiset(a[..|t|])
    && (ok ==> BlocksSorted(a, sz, key) && BlocksSorted(t, 2 * sz, key))
  }

  /** Appending the merge of the `k`-th pair of runs keeps the pass invariant. */
  lemma MergePassStep<T>(a: seq<T>, sz: nat, t: seq<T>, i: int, k: nat, key: T -> int, ok: bool, m: seq<T>)
    requires PassInv(a, sz, t, i, k, key, ok) && i < |a|
    requires var lim, iEnd := BlockEnd(i, sz, |a|), BlockEnd(i, 2 * sz, |a|);
      && |m| == iEnd - i
      && multiset(m) == multiset(a[i..lim]) + multiset(a[lim..iEnd])
      && (SortedBy(a[i..lim], key) && SortedBy(a[lim..iEnd], key) ==> SortedBy(m, key))
    ensures PassInv(a, sz, t + m, i + 2 * sz, k + 1, key, ok)
  {
    var n := |a|;
    var lim := BlockEnd(i, sz, n);
    var iEnd := BlockEnd(i, 2 * sz, n);
    assert a[..iEnd] == a[..i] + a[i..lim] + a[lim..iEnd];
    assert multiset(a[..iEnd]) == multiset(a[..i]) + multiset(a[i..lim]) + multiset(a[lim..iEnd]);
    MulSucc(k, 2 * sz);
    if ok {
      RunsSorted(a, sz, k, key);
      BlocksAppend(t, m, k, 2 * sz, key);
    }
  }

  /**
   * `mergeSort(array, cmp)`: bottom-up merge sort, doubling the run width
   * `sz` from 1 while it is below the length.
   */
  method MergeSort<T>(a: seq<T>, key: T -> int) returns (r: seq<T>)
    ensures SortedBy(r, key)
    ensures multiset(r) == multiset(a) && |r| == |a|
  {
    r := a;
    var sz: nat := 1;
    assert BlocksSorted(r, 1, key);
    while sz < |a|
      invariant sz >= 1 && |r| == |a| && multiset(r) == multiset(a)
      invariant BlocksSorted(r, sz, key)
    {
      r := MergePass(r, sz, key);
      sz := 2 * sz;
    }
    if |r| > 0 {
      assert SortedBlock(r, 0, sz, key);
      assert BlockEnd(0, sz, |r|) == |r|;
    }
  }

  // ----------------------------------------------------------------- heap

  /**
   * The loop of `heapSort`: the array is the heap's live entries followed
   * by the already placed `tail`; `array[heap.size()-1] = heap.pop()`
   * computes the index before the pop, so each popped (highest-ranking)
   * entry lands just before `tail`.
   */
  function HeapSortLoop<T>(h: BinaryHeap.Heap<T>, tail: seq<T>, key: T -> int): (r: seq<T>)
    requires BinaryHeap.Valid(h) && h.key == Reversed(key)
    requires SortedBy(tail, key)
    requires forall i, j :: 0 <= i < |h.data| && 0 <= j < |tail| ==> key(h.data[i]) <= key(tail[j])
    ensures |r| == |h.data| + |tail|
    ensures multiset(r) == multiset(h.data) + multiset(tail)
    ensures SortedBy(r, key)
    decreases |h.data|
  {
    if BinaryHeap.IsEmpty(h) then tail
    else
      var p := BinaryHeap.Pop(h);
      var x := p.0.value;
      PoppedFits(h, p.1, x, tail, key);
      BinaryHeap.SortedCons(x, tail, key);
      HeapSortLoop(p.1, [x] + tail, key)
  }

  /** The popped maximum sits between the rest of the heap and the placed tail. */
  lemma PoppedFits<T>(h: BinaryHeap.Heap<T>, h': BinaryHeap.Heap<T>, x: T, tail: seq<T>, key: T -> int)
    requires h.key == Reversed(key)
    requires forall i :: 0 <= i < |h.data| ==> h.key(x) <= h.key(h.data[i])
    requires multiset(h'.data) + multiset{x} == multiset(h.data)
    requires forall i, j :: 0 <= i < |h.data| && 0 <= j < |tail| ==> key(h.data[i]) <= key(tail[j])
    ensures forall j :: 0 <= j < |tail| ==> key(x) <= key(tail[j])
    ensures forall i, j :: 0 <= i < |h'.data| && 0 <= j < |[x] + tail| ==> key(h'.data[i]) <= key(([x] + tail)[j])
  {
    assert x in multiset(h.data);
    var ix :| 0 <= ix < |h.data| && h.data[ix] == x;
    forall i, j | 0 <= i < |h'.data| && 0 <= j < |[x] + tail|
      ensures key(h'.data[i]) <= key(([x] + tail)[j])
    {
      assert h'.data[i] in multiset(h.data);
      var k :| 0 <= k < |h.data| && h.data[k] == h'.data[i];
      assert h.key(x) <= h.key(h.data[k]);
      if j > 0 {
        assert ([x] + tail)[j] == tail[j - 1];
      }
    }
  }

  /**
   * `heapSort(array, cmp)`: heapify the array itself under the reversed
   * comparator (a max-heap), then pop into the slots from the back.
   */
  function HeapSort<T>(a: seq<T>, key: T -> int): (r: seq<T>)
    ensures |r| == |a| && multiset(r) == multiset(a)
    ensures SortedBy(r, key)
  {
    HeapSortLoop(BinaryHeap.Heapify(a, Reversed(key)), [], key)
  }

  // ---------------------------------------------------------------- quick

  /**
   * `do_quick_sort(array, s, e, cmp)`: partition `[s, e]` around the
   * median of its first, middle and last elements (the same step as one
   * `nth_element` round), then recurse on
   * `[s, n-1]` when it has two or more elements and on `[n+1, e]` likewise.
   * Index `n` itself is excluded from both.
   */
  function DoQuickSort<T>(a: seq<T>, s: int, e: int, key: T -> int): (r: seq<T>)
    requires 0 <= s <= e < |a|
    ensures Permutes(a, r, s, e)
    ensures Partition.Ranked(a, s, e + 1, key) ==> Partition.SameKeys(a, r, key)
    decreases e - s
  {
    var p := Partition.NthRound(a, s, e, key);
    Partition.NthRoundKeepsSortedKeys(a, s, e, s, e, key);
    var a', n := p.0, p.1;
    var b := if n > s + 1 then DoQuickSort(a', s, n - 1, key) else a';
    PermutesTrans(a, a', b, s, e, s, e);
    KeysThrough(a, a', b, s, e, s, n - 1, key);
    var c := if n < e - 1 then DoQuickSort(b, n + 1, e, key) else b;
    PermutesTrans(a, b, c, s, e, s, e);
    KeysThrough(a, b, c, s, e, n + 1, e, key);
    c
  }

  /**
   * One recursive call of `do_quick_sort` keeps the ranks of a sorted
   * `[s, e]` in place when the call is on a part `[lo, hi]` of it and keeps
   * the ranks of that part in place when the part is sorted.
   */
  lemma KeysThrough<T>(a: seq<T>, b: seq<T>, c: seq<T>, s: int, e: int, lo: int, hi: int, key: T -> int)
    requires 0 <= s <= lo <= hi + 1 <= e + 1 <= |a| == |b|
    requires Partition.Ranked(a, s, e + 1, key) ==> Partition.SameKeys(a, b, key) && Partition.Ranked(b, s, e + 1, key)
    requires Partition.Ranked(b, lo, hi + 1, key) ==> Partition.SameKeys(b, c, key)
    ensures Partition.Ranked(a, s, e + 1, key) ==> Partition.SameKeys(a, c, key) && Partition.Ranked(c, s, e + 1, key)
  {
    if Partition.Ranked(a, s, e + 1, key) {
      Partition.RankedWithin(b, s, e + 1, lo, hi + 1, key);
      Partition.SameKeysTrans(a, b, c, key);
      Partition.RankedSameKeys(a, c, s, e + 1, key);
    }
  }

  /**
   * Under the stronger hypothesis that the slice is already sorted,
   * `do_quick_sort` returns it sorted, with every rank where it was.
   */
  lemma DoQuickSortOnSortedSlice<T>(a: seq<T>, s: int, e: int, key: T -> int)
    requires 0 <= s <= e < |a|
    requires SortedRange(a, s, e + 1, key)
    ensures SortedRange(DoQuickSort(a, s, e, key), s, e + 1, key)
    ensures forall k :: 0 <= k < |a| ==> key(DoQuickSort(a, s, e, key)[k]) == key(a[k])
  {
    var r := DoQuickSort(a, s, e, key);
    Partition.RankedIsSorted(a, s, e + 1, key);
    Partition.RankedSameKeys(a, r, s, e + 1, key);
    Partition.RankedIsSorted(r, s, e + 1, key);
  }

  /** `quickSort(array, cmp)`: the whole array; an empty one reads `array[0]` out of bounds. */
  function QuickSort<T>(a: seq<T>, key: T -> int): (r: Result<seq<T>>)
    ensures r.Err? <==> |a| == 0
    ensures r.Err? ==> r.error == ArrayIndexOutOfBounds
    ensures r.Ok? ==> |r.value| == |a| && multiset(r.value) == multiset(a)
  {
    if |a| == 0 then Err(ArrayIndexOutOfBounds)
    else Ok(DoQuickSort(a, 0, |a| - 1, key))
  }

  /** `quickSort` returns an already sorted array sorted, with every rank where it was. */
  lemma QuickSortOnSorted<T>(a: seq<T>, key: T -> int)
    requires SortedBy(a, key)
    ensures QuickSort(a, key).Ok? ==> SortedBy(QuickSort(a, key).value, key)
    ensures QuickSort(a, key).Ok? ==> forall k :: 0 <= k < |a| ==> key(QuickSort(a, key).value[k]) == key(a[k])
  {
    if |a| > 0 {
      assert SortedRange(a, 0, |a|, key);
      var r := DoQuickSort(a, 0, |a| - 1, key);
      DoQuickSortOnSortedSlice(a, 0, |a| - 1, key);
      assert QuickSort(a, key).value == r;
      assert SortedRange(r, 0, |r|, key);
      forall k | 0 <= k < |a|
        ensures key(QuickSort(a, key).value[k]) == key(a[k])
      {
        assert key(r[k]) == key(a[k]);
      }
    }
  }

  /** Quick sort leaves `[3, 1, 2]` as `[2, 1, 3]`: the partition index is never revisited. */
  lemma QuickSortDoesNotSort()
    ensures QuickSort([3, 1, 2], Natural) == Ok([2, 1, 3])
    ensures !SortedBy(QuickSort([3, 1, 2], Natural).value, Natural)
  {
    var a := [3, 1, 2];
    assert Partition.MedianOfThree(a[0], a[1], a[2], Natural) == 2;
    Partition.PartitionDoesNotPinPivot();
    assert DoQuickSort(a, 0, 2, Natural) == [2, 1, 3];
    assert Natural([2, 1, 3][0]) > Natural([2, 1, 3][1]);
  }

  // ---------------------------------------------------------------- intro

  /**
   * `do_introsort(array, s, e, depth, cmp)` with the depth budget given:
   * slices of at most one element are left alone; at depth 0 the slice is
   * heap sorted through a copy; otherwise it is partitioned as in quick
   * sort and both sides `[s, n-1]` and `[n+1, e]` are sorted with one less
   * depth.
   */
  function DoIntroSort<T>(a: seq<T>, s: int, e: int, depth: nat, key: T -> int): (r: seq<T>)
    requires 0 <= s <= e + 1 <= |a|
    ensures Permutes(a, r, s, e)
    ensures depth == 0 ==> SortedRange(r, s, e + 1, key)
    decreases depth
  {
    if 1 + e - s <= 1 then a
    else if depth == 0 then HeapSortSlice(a, s, e, key)
    else
      var med := (s + e) / 2;
      var pivot := Partition.MedianOfThree(a[s], a[med], a[e], key);
      var p := Partition.Partition(a, s, e, pivot, key);
      var a', n := p.0, p.1;
      var b := DoIntroSort(a', s, n - 1, depth - 1, key);
      PermutesTrans(a, a', b, s, e, s, e);
      var c := DoIntroSort(b, n + 1, e, depth - 1, key);
      PermutesTrans(a, b, c, s, e, s, e);
      c
  }

  /**
   * The depth-0 case of `do_introsort`: copy `[s, e]` out, heap sort the
   * copy and copy it back.
   */
  function HeapSortSlice<T>(a: seq<T>, s: int, e: int, key: T -> int): (r: seq<T>)
    requires 0 <= s <= e + 1 <= |a|
    ensures Permutes(a, r, s, e)
    ensures SortedRange(r, s, e + 1, key)
  {
    var sorted := HeapSort(a[s..e + 1], key);
    var r := CopyBack(a, s, e, sorted);
    SortedRangeSlice(r, s, e + 1, key);
    r
  }

  /** `System.arraycopy(temp, 0, array, s, sz)` of a rearranged copy of `array[s..e]`. */
  function CopyBack<T>(a: seq<T>, s: int, e: int, x: seq<T>): (r: seq<T>)
    requires 0 <= s <= e + 1 <= |a|
    requires |x| == e + 1 - s && multiset(x) == multiset(a[s..e + 1])
    ensures Permutes(a, r, s, e)
    ensures r[s..e + 1] == x
  {
    var r := a[..s] + x + a[e + 1..];
    assert a == a[..s] + a[s..e + 1] + a[e + 1..];
    assert r[s..e + 1] == x;
    r
  }

  /** `introSort(array, cmp)` with the depth budget given instead of `2 log2(length)`. */
  function IntroSort<T>(a: seq<T>, depth: nat, key: T -> int): (r: seq<T>)
    ensures |r| == |a| && multiset(r) == multiset(a)
    ensures depth == 0 ==> SortedBy(r, key)
  {
    DoIntroSort(a, 0, |a| - 1, depth, key)
  }

  /** With any depth budget of at least 1, intro sort also leaves `[3, 1, 2]` as `[2, 1, 3]`. */
  lemma IntroSortDoesNotSort(depth: nat)
    requires depth >= 1
    ensures IntroSort([3, 1, 2], depth, Natural) == [2, 1, 3]
    ensures !SortedBy(IntroSort([3, 1, 2], depth, Natural), Natural)
  {
    var a := [3, 1, 2];
    assert Partition.MedianOfThree(a[0], a[1], a[2], Natural) == 2;
    Partition.PartitionDoesNotPinPivot();
    var b := [2, 1, 3];
    assert DoIntroSort(b, 0, 0, depth - 1, Natural) == b;
    assert DoIntroSort(b, 2, 2, depth - 1, Natural) == b;
    assert DoIntroSort(a, 0, 2, depth, Natural) == b;
    assert Natural(b[0]) > Natural(b[1]);
  }
}

=== FILE: string_search.dfy ===
/**
 * Knuth-Morris-Pratt substring search: `kmp` and its failure table
 * `kmp_table`. A Java `String` is read through `charAt` and `length()`,
 * which count UTF-16 code units, so text and needle are sequences of any
 * character type with equality: `bv16` code units for the Java semantics,
 * or `char` where every character is a single code unit.
 */
module StringSearch {
  import opened Results

  /** `needle` appears in `data` starting at index `m`. */
  predicate Occurs<C(==)>(data: seq<C>, needle: seq<C>, m: int)
  {
    0 <= m && m + |needle| <= |data| && forall j :: 0 <= j < |needle| ==> data[m + j] == needle[j]
  }

  /** `r` is the least index where `needle` occurs in `data`, or -1 when it occurs nowhere. */
  ghost predicate IsFirst<C>(data: seq<C>, needle: seq<C>, r: int)
  {
    if r == -1 then forall m :: 0 <= m ==> !Occurs(data, needle, m)
    else Occurs(data, needle, r) && forall m :: 0 <= m < r ==> !Occurs(data, needle, m)
  }

  /** Whether `needle[j..]` matches `data` from `m + j` on, compared character by character. */
  predicate MatchFrom<C(==)>(data: seq<C>, needle: seq<C>, m: nat, j: nat)
    requires m + |needle| <= |data|
    decreases |needle| - j
  {
    j >= |needle| || (data[m + j] == needle[j] && MatchFrom(data, needle, m, j + 1))
  }

  /** The character-by-character comparison decides whether the rest of the needle matches. */
  lemma {:induction false} MatchFromMeans<C>(data: seq<C>, needle: seq<C>, m: nat, j: nat)
    requires m + |needle| <= |data|
    ensures MatchFrom(data, needle, m, j) <==> forall k :: j <= k < |needle| ==> data[m + k] == needle[k]
    decreases |needle| - j
  {
    if j < |needle| {
      MatchFromMeans(data, needle, m, j + 1);
    }
  }

  /**
   * A direct search, position by position, from `from` on: the reference
   * definition the KMP search is measured against.
   */
  function FindFrom<C(==)>(data: seq<C>, needle: seq<C>, from: nat): (r: int)
    ensures r == -1 || from <= r <= |data| - |needle|
    decreases |data| + 1 - from
  {
    if |data| < from + |needle| then -1
    else if MatchFrom(data, needle, from, 0) then from
    else FindFrom(data, needle, from + 1)
  }

  /** The direct search from `from` returns the first occurrence at or after `from`, or -1 when there is none. */
  lemma {:induction false} FindFromFinds<C>(data: seq<C>, needle: seq<C>, from: nat)
    ensures var r := FindFrom(data, needle, from);
      && (r == -1 || Occurs(data, needle, r))
      && forall m :: from <= m && (r == -1 || m < r) ==> !Occurs(data, needle, m)
    decreases |data| + 1 - from
  {
    if |data| >= from + |needle| {
      MatchFromMeans(data, needle, from, 0);
      if !MatchFrom(data, needle, from, 0) {
        FindFromFinds(data, needle, from + 1);
      }
    }
  }

  /** The first occurrence of `needle` in `data`, or -1. */
  function FirstIndex<C(==)>(data: seq<C>, needle: seq<C>): (r: int)
    ensures IsFirst(data, needle, r)
  {
    FindFromFinds(data, needle, 0);
    FindFrom(data, needle, 0)
  }

  /** There is only one first occurrence. */
  lemma FirstIsUnique<C>(data: seq<C>, needle: seq<C>, r: int)
    requires IsFirst(data, needle, r)
    ensures r == FirstIndex(data, needle)
  {
    var f := FirstIndex(data, needle);
  }

  // ---------------------------------------------------------------------
  // Borders and the failure table
  // ---------------------------------------------------------------------

  /** `needle[..b]` is a proper border of `needle[..len]`: a prefix that is also a suffix, shorter than `len`. */
  predicate IsBorder<C(==)>(w: seq<C>, len: int, b: int)
  {
    0 <= b < len <= |w| && forall j :: 0 <= j < b ==> w[j] == w[len - b + j]
  }

  /** `b` is the length of the longest proper border of `w[..len]`. */
  predicate LongestBorder<C(==)>(w: seq<C>, len: int, b: int)
  {
    IsBorder(w, len, b) && forall b' :: b < b' < len ==> !IsBorder(w, len, b')
  }

  /**
   * A KMP failure table for `w`: slot 0 holds -1 and every other slot `pos`
   * holds the length of the longest proper border of `w[..pos]`.
   */
  predicate FailTable<C(==)>(w: seq<C>, t: seq<int>)
  {
    |t| == |w| >= 1 && t[0] == -1 && forall pos :: 1 <= pos < |w| ==> LongestBorder(w, pos, t[pos])
  }

  /** A border of `w[..len]` followed by the character after it is a border of `w[..len + 1]`. */
  lemma BorderExtends<C>(w: seq<C>, len: int, b: int)
    requires IsBorder(w, len, b) && len < |w| && w[len] == w[b]
    ensures IsBorder(w, len + 1, b + 1)
  {
    forall j | 0 <= j < b + 1
      ensures w[j] == w[len + 1 - (b + 1) + j]
    {
      if j < b {
        assert w[j] == w[len - b + j];
      }
    }
  }

  /** Dropping the last character of a non-empty border of `w[..len]` leaves a border of `w[..len - 1]`. */
  lemma BorderShrinks<C>(w: seq<C>, len: int, b: int)
    requires IsBorder(w, len, b) && b >= 1
    ensures IsBorder(w, len - 1, b - 1) && w[len - 1] == w[b - 1]
  {
    assert w[b - 1] == w[len - b + (b - 1)];
    forall j | 0 <= j < b - 1
      ensures w[j] == w[len - 1 - (b - 1) + j]
    {
      assert w[j] == w[len - b + j];
    }
  }

  /** A border of a border is a border. */
  lemma BorderOfBorder<C>(w: seq<C>, len: int, b: int, c: int)
    requires IsBorder(w, len, b) && IsBorder(w, b, c)
    ensures IsBorder(w, len, c)
  {
    forall j | 0 <= j < c
      ensures w[j] == w[len - c + j]
    {
      assert w[j] == w[b - c + j];
      assert w[b - c + j] == w[len - b + (b - c + j)];
    }
  }

  /** Of two borders of the same prefix, the shorter is a border of the longer. */
  lemma ShorterBorder<C>(w: seq<C>, len: int, b: int, c: int)
    requires IsBorder(w, len, b) && IsBorder(w, len, c) && c < b
    ensures IsBorder(w, b, c)
  {
    forall j | 0 <= j < c
      ensures w[j] == w[b - c + j]
    {
      assert w[j] == w[len - c + j];
      assert w[b - c + j] == w[len - b + (b - c + j)];
    }
  }

  /** Once `c` is the longest border of `w[..len - 1]`, no border of `w[..len]` is longer than `c + 1`. */
  lemma NoLongerBorder<C>(w: seq<C>, len: int, c: int)
    requires LongestBorder(w, len - 1, c) && len <= |w|
    ensures forall b :: c + 1 < b < len ==> !IsBorder(w, len, b)
  {
    forall b | c + 1 < b < len
      ensures !IsBorder(w, len, b)
    {
      if IsBorder(w, len, b) {
        BorderShrinks(w, len, b);
      }
    }
  }

  /**
   * After a mismatch at `w[cand]`, the next candidate `t[cand]` is a border
   * of `w[..pos - 1]`, and no border of `w[..pos]` longer than `t[cand] + 1`
   * has been skipped.
   */
  lemma FallBack<C>(w: seq<C>, pos: int, cand: int, next: int)
    requires 1 <= cand && pos <= |w| && IsBorder(w, pos - 1, cand) && w[pos - 1] != w[cand]
    requires LongestBorder(w, cand, next)
    requires forall b :: cand + 1 < b < pos ==> !IsBorder(w, pos, b)
    ensures IsBorder(w, pos - 1, next)
    ensures forall b :: next + 1 < b < pos ==> !IsBorder(w, pos, b)
  {
    BorderOfBorder(w, pos - 1, cand, next);
    forall b | next + 1 < b < pos
      ensures !IsBorder(w, pos, b)
    {
      if b <= cand + 1 && IsBorder(w, pos, b) {
        BorderShrinks(w, pos, b);
        if b - 1 < cand {
          ShorterBorder(w, pos - 1, cand, b - 1);
        }
      }
    }
  }

  /** With no border longer than 1 and `w[pos - 1] != w[0]`, the longest border of `w[..pos]` is empty. */
  lemma EmptyBorder<C>(w: seq<C>, pos: int)
    requires 2 <= pos <= |w| && w[pos - 1] != w[0]
    requires forall b :: 1 < b < pos ==> !IsBorder(w, pos, b)
    ensures LongestBorder(w, pos, 0)
  {
    if IsBorder(w, pos, 1) {
      BorderShrinks(w, pos, 1);
    }
  }

  /** Writing the longest border of `w[..pos]` into slot `pos` extends a correct table prefix by one slot. */
  lemma Record<C>(w: seq<C>, table: seq<int>, pos: int, v: int, next: seq<int>)
    requires 1 <= pos < |table| && next == table[pos := v]
    requires forall p :: 1 <= p < pos ==> LongestBorder(w, p, table[p])
    requires LongestBorder(w, pos, v)
    ensures forall p :: 1 <= p < pos + 1 ==> LongestBorder(w, p, next[p])
  {
  }

  /**
   * `kmp_table`: the failure table of `needle`. A needle shorter than two
   * characters overflows the array at slot 0 or slot 1.
   */
  method KmpTable<C(==)>(needle: seq<C>) returns (r: Result<seq<int>>)
    ensures r.Ok? <==> |needle| >= 2
    ensures r.Err? ==> r.error == ArrayIndexOutOfBounds
    ensures r.Ok? ==> FailTable(needle, r.value)
  {
    if |needle| < 2 {
      return Err(ArrayIndexOutOfBounds);
    }
    var n := |needle|;
    var table := seq(n, _ => 0);
    table := table[0 := -1];
    table := table[1 := 0];
    var pos, candidate := 2, 0;
    while pos < n
      invariant 2 <= pos <= n && |table| == n && table[0] == -1
      invariant forall p :: 1 <= p < pos ==> LongestBorder(needle, p, table[p])
      invariant IsBorder(needle, pos - 1, candidate)
      invariant forall b :: candidate + 1 < b < pos ==> !IsBorder(needle, pos, b)
      decreases n - pos, candidate
    {
      if needle[pos - 1] == needle[candidate] {
        BorderExtends(needle, pos - 1, candidate);
        candidate := candidate + 1;
        Record(needle, table, pos, candidate, table[pos := candidate]);
        table := table[pos := candidate];
        NoLongerBorder(needle, pos + 1, candidate);
        pos := pos + 1;
      } else if candidate > 0 {
        FallBack(needle, pos, candidate, table[candidate]);
        candidate := table[candidate];
      } else {
        EmptyBorder(needle, pos);
        Record(needle, table, pos, 0, table[pos := 0]);
        table := table[pos := 0];
        NoLongerBorder(needle, pos + 1, 0);
        pos := pos + 1;
      }
    }
    return Ok(table);
  }

  /** Every slot after the first of a failure table lies in `[0, pos)`, and slot 1 is 0. */
  lemma FailTableBounds<C>(w: seq<C>, t: seq<int>)
    requires FailTable(w, t)
    ensures forall pos :: 1 <= pos < |t| ==> 0 <= t[pos] < pos
    ensures |w| >= 2 ==> t[1] == 0
  {
    forall pos | 1 <= pos < |t|
      ensures 0 <= t[pos] < pos
    {
      assert LongestBorder(w, pos, t[pos]);
    }
    if |w| >= 2 {
      assert LongestBorder(w, 1, t[1]);
    }
  }

  // ---------------------------------------------------------------------
  // The search
  // ---------------------------------------------------------------------

  /**
   * A mismatch after matching `w[..i]` at `m` rules out every start in
   * `[m, m + i - t[i])`, and `w[..t[i]]` is already matched at `m + i - t[i]`.
   */
  lemma SkipIsSafe<C>(data: seq<C>, w: seq<C>, m: int, i: int, ti: int)
    requires 0 <= m && 1 <= i < |w| && m + i < |data|
    requires forall j :: 0 <= j < i ==> data[m + j] == w[j]
    requires data[m + i] != w[i]
    requires LongestBorder(w, i, ti)
    ensures forall s :: m <= s < m + (i - ti) ==> !Occurs(data, w, s)
    ensures forall j :: 0 <= j < ti ==> data[m + i - ti + j] == w[j]
  {
    forall s' | m <= s' < m + (i - ti)
      ensures !Occurs(data, w, s')
    {
      var s := s' - m;
      if Occurs(data, w, m + s) && s > 0 {
        forall j | 0 <= j < i - s
          ensures w[j] == w[i - (i - s) + j]
        {
          assert data[m + s + j] == w[j];
          assert data[m + (s + j)] == w[s + j];
        }
        assert IsBorder(w, i, i - s);
      }
    }
    forall j | 0 <= j < ti
      ensures data[m + i - ti + j] == w[j]
    {
      assert w[j] == w[i - ti + j];
      assert data[m + (i - ti + j)] == w[i - ti + j];
    }
  }

  /**
   * `kmp`: the index of the first occurrence of `needle` in `data`, or -1.
   * An empty needle gives -1; a one-character needle is found by a linear
   * scan; longer needles by the KMP loop over the failure table.
   */
  method Kmp<C(==)>(data: seq<C>, needle: seq<C>) returns (r: int)
    ensures |needle| == 0 ==> r == -1
    ensures |needle| > 0 ==> IsFirst(data, needle, r) && r == FirstIndex(data, needle)
  {
    if |needle| < 1 {
      return -1;
    }
    if |needle| == 1 {
      var c := needle[0];
      var k := 0;
      while k < |data|
        invariant 0 <= k <= |data|
        invariant forall j :: 0 <= j < k ==> data[j] != c
      {
        if data[k] == c {
          r := k;
          assert Occurs(data, needle, r);
          assert forall m :: 0 <= m < r ==> !Occurs(data, needle, m) by {
            forall m | 0 <= m < r
              ensures !Occurs(data, needle, m)
            {
              assert data[m + 0] != needle[0];
            }
          }
          FirstIsUnique(data, needle, r);
          return;
        }
        k := k + 1;
      }
      r := -1;
      assert forall m :: 0 <= m ==> !Occurs(data, needle, m) by {
        forall m | 0 <= m
          ensures !Occurs(data, needle, m)
        {
          if m < |data| {
            assert data[m + 0] != needle[0];
          }
        }
      }
      FirstIsUnique(data, needle, r);
      return;
    }
    var table := KmpTable(needle);
    var t := table.value;
    FailTableBounds(needle, t);
    var m, i := 0, 0;
    while m + i < |data|
      invariant 0 <= m && 0 <= i < |needle| && m + i <= |data|
      invariant forall j :: 0 <= j < i ==> data[m + j] == needle[j]
      invariant forall s :: 0 <= s < m ==> !Occurs(data, needle, s)
      decreases |data| - (m + i), |data| - m
    {
      if needle[i] == data[m + i] {
        if i == |needle| - 1 {
          r := m;
          assert Occurs(data, needle, r);
          FirstIsUnique(data, needle, r);
          return;
        }
        i := i + 1;
      } else if t[i] > -1 {
        SkipIsSafe(data, needle, m, i, t[i]);
        m, i := m + (i - t[i]), t[i];
      } else {
        assert !Occurs(data, needle, m) by {
          assert i == 0;
          assert data[m + 0] != needle[0];
        }
        m, i := m + 1, 0;
      }
    }
    r := -1;
    FirstIsUnique(data, needle, r);
  }
}

=== FILE: string_search_cases.dfy ===
/**
 * The documented inputs of `kmp`, answered by the reference search that
 * `Kmp` is proved to agree with.
 */
module StringSearchCases {
  import opened StringSearch

  /** "example" is found at index 17 of "here is a simple example". */
  lemma FindsExample()
    ensures FirstIndex("here is a simple example", "example") == 17
  {
    FindsExampleDirectly();
  }

  /** The direct search for "example" in "here is a simple example", position by position. */
  lemma FindsExampleDirectly()
    ensures FindFrom("here is a simple example", "example", 0) == 17
  {
    ExampleFromTwo();
  }

  /** The direct search for "example", resumed at index 2, stops at 17. */
  lemma ExampleFromTwo()
    ensures FindFrom("here is a simple example", "example", 2) == 17
  {
    ExampleFromFour();
  }

  /** The direct search for "example", resumed at index 4, stops at 17. */
  lemma ExampleFromFour()
    ensures FindFrom("here is a simple example", "example", 4) == 17
  {
    ExampleFromEight();
    assert FindFrom("here is a simple example", "example", 6) == 17;
  }

  /** The direct search for "example", resumed at index 8, stops at 17. */
  lemma ExampleFromEight()
    ensures FindFrom("here is a simple example", "example", 8) == 17
  {
    assert MatchFrom("here is a simple example", "example", 17, 0);
    assert FindFrom("here is a simple example", "example", 17) == 17;
    assert FindFrom("here is a simple example", "example", 12) == 17;
  }

  /** "tcta" is found at index 18 of "accgtcacttgaaccggttctag". */
  lemma FindsTcta()
    ensures FirstIndex("accgtcacttgaaccggttctag", "tcta") == 18
  {
    FindsTctaDirectly();
  }

  /** The direct search for "tcta" in "accgtcacttgaaccggttctag", position by position. */
  lemma FindsTctaDirectly()
    ensures FindFrom("accgtcacttgaaccggttctag", "tcta", 0) == 18
  {
    TctaFromFive();
    assert FindFrom("accgtcacttgaaccggttctag", "tcta", 3) == 18;
    assert FindFrom("accgtcacttgaaccggttctag", "tcta", 1) == 18;
  }

  /** The direct search for "tcta", resumed at index 5, stops at 18. */
  lemma TctaFromFive()
    ensures FindFrom("accgtcacttgaaccggttctag", "tcta", 5) == 18
  {
    TctaFromNine();
    assert FindFrom("accgtcacttgaaccggttctag", "tcta", 7) == 18;
  }

  /** The direct search for "tcta", resumed at index 9, stops at 18. */
  lemma TctaFromNine()
    ensures FindFrom("accgtcacttgaaccggttctag", "tcta", 9) == 18
  {
    assert MatchFrom("accgtcacttgaaccggttctag", "tcta", 18, 0);
    assert FindFrom("accgtcacttgaaccggttctag", "tcta", 18) == 18;
    assert FindFrom("accgtcacttgaaccggttctag", "tcta", 14) == 18;
  }

  /** "zzz" does not occur in "accgtcacttgaaccggttctag". */
  lemma MissesZzz()
    ensures FirstIndex("accgtcacttgaaccggttctag", "zzz") == -1
  {
  }

  /** "z" does not occur in "accgtcacttgaaccggttctag". */
  lemma MissesZ()
    ensures FirstIndex("accgtcacttgaaccggttctag", "z") == -1
  {
  }

  /**
   * Indices count UTF-16 code units: in the units of "\u{1F600}a" (a
   * surrogate pair, then 'a') the 'a' is at index 2, as `charAt` sees it.
   */
  lemma CountsCodeUnits(data: seq<bv16>, needle: seq<bv16>)
    requires data == [0xD83D, 0xDE00, 0x61] && needle == [0x61]
    ensures FirstIndex(data, needle) == 2
  {
    assert MatchFrom(data, needle, 2, 0);
    assert FindFrom(data, needle, 2) == 2;
    assert !MatchFrom(data, needle, 1, 0);
    assert FindFrom(data, needle, 1) == 2;
    assert !MatchFrom(data, needle, 0, 0);
    assert FindFrom(data, needle, 0) == 2;
  }
}
